=== FILE: README.md ===
# OSS management scripts — a Dafny model

This project models the logic of the OSS management scripts. The scripts track the open-source
components of a release from its CycloneDX SBOM:

- they compare the current SBOM with the previous release's SBOM (added, updated and removed
  components);
- they decide which earlier release to compare against, from the project's config file and from
  what Dependency-Track holds;
- they pick the license guidelines that apply to each changed component;
- they render the pull-request comment, the review issue form and the approval issue;
- they read the filled-in review issue and the approval issue back into data.

Each core script is one module:

| module | script | form |
|---|---|---|
| `DiffChecker` | scripts/diff-checker.ts | `CompareSboms` is a method with the source's three loops, proved equal to the function `Diff`; the properties are lemmas about `Diff` |
| `VersionResolver` | dist/scripts/version-resolver.js | a pure decision tree; the Dependency-Track lookup is a function parameter with three outcomes |
| `LicenseGuideProvider` | scripts/license-guide-provider.ts | the class `Provider`, whose `config` field is loaded lazily, over pure functions for the condition language and the selection |
| `IssueCreator` | scripts/issue-creator.ts | the table, body-item list and approval text are built in loops by methods, proved equal to specification functions |
| `IssueParser` | scripts/issue-parser.ts | the table scan, the per-component record and the document are built in loops; the regular expressions are hand-written scanners |
| `PrCommenter` | scripts/pr-commenter.ts | `GenerateComment` pushes lines in the source's order and joins them |

Three more modules support them:

- `Types` holds the records of scripts/types.ts.
- `Text` models the JavaScript string built-ins the scripts use: `trim`, `includes`, `indexOf`,
  `split`, `join` and single-character `replace`.
- `RoundTrip` holds the properties that relate what scripts/issue-creator.ts writes to what
  scripts/issue-parser.ts reads back.

Strings are sequences of Unicode scalar values, while JavaScript strings are sequences of UTF-16
code units. Every needle the scripts split on or search for (`&&`, `||`, `|`, a line feed, `:`,
`→`, the change markers such as `🆕`, the header words, `---`, `- [`, `###`, `####`) is well-formed
text, and in UTF-16 a well-formed needle can only match at character boundaries: a high surrogate
is never a low surrogate. So splitting, searching and finding the first occurrence give the same
results on either view. Trimming and the regular-expression character classes work on single
characters that all lie in the Basic Multilingual Plane, so they agree too. The one operation where
the views differ is the field-id prefix of scripts/issue-creator.ts:174: its pattern `[^a-zA-Z0-9]`
has no `u` flag, so it replaces each code unit, and a character outside the Basic Multilingual Plane
becomes two dashes. `IssueCreator.IdPrefix` counts code units explicitly for that reason.

The round trips between the issue creator and the issue parser hold under conditions the model
states itself; the scripts' comments and tests do not state them:

- A freshly generated approval issue reads back as "not approved" whenever no text placed in the
  issue contains `上`, the first character of the approval label. This is a sufficient condition:
  the checkbox scan can only be misled by another line that carries the label. See
  `RoundTrip.GeneratedNotApproved`.
- The diff table reads back as the diffs it was rendered from under the conditions of `Readable`.
  One of them is a simplification that is sufficient rather than needed: no field contains `変`.
  A row is taken for the header only when it holds all four header words `変更`, `OSS名`,
  `バージョン` and `ライセンス`, so banning `変` is stronger than the parser needs.

  The colon conditions are needed as they stand, because the parser splits the name cell at its
  first colon:
  - a present group holds no `:`; the group `a:b` with name `c` reads back as group `a` and name
    `b:c`;
  - with no group, the name holds no `:`; the name `a:b` reads back as group `a` and name `b`.

  A name after a present group may hold a `:`.

## Model

| member | source | states |
|---|---|---|
| `DiffChecker.KeyDeterminedByGroupAndName` | scripts/diff-checker.ts:19-22 | the key depends only on `group || ''` and the name, never on version or licenses |
| `DiffChecker.KeyInjectiveWithoutColonInGroup` | scripts/diff-checker.ts:19-22 | when no group text holds `:`, equal keys mean equal group text and equal names |
| `DiffChecker.KeyNotInjective` | scripts/diff-checker.ts:19-22 | the key is not injective: group `a:b` with name `c` collides with group `a` and name `b:c`, and an absent group collides with an empty one |
| `DiffChecker.PreviousMap` | scripts/diff-checker.ts:31-35 | every value of previousMap is stored under its own key |
| `DiffChecker.PreviousMapContents` | scripts/diff-checker.ts:31-35 | previousMap holds exactly the keys of the previous list, each bound to the last component with that key |
| `DiffChecker.PreviousMapKeysStep` | scripts/diff-checker.ts:32-35 | one `set` keeps the map's keys equal to the keys of the list grown by one component |
| `DiffChecker.PreviousMapValuesStep` | scripts/diff-checker.ts:32-35 | one `set` keeps every value the last component under its key |
| `DiffChecker.KeyOrder` | scripts/diff-checker.ts:31-35 | the map's iteration order lists each of its keys exactly once |
| `DiffChecker.KeyOrderStep` | scripts/diff-checker.ts:34 | appending a key on its first `set` keeps the order a duplicate-free enumeration of the keys |
| `DiffChecker.KeyOrderPrefix` | scripts/diff-checker.ts:31-35 | the order for a prefix of the previous list is a prefix of the order for a longer prefix |
| `DiffChecker.KeyOrderFirstAppearance` | scripts/diff-checker.ts:31-35 | a key first seen at position i takes the next free place in the order |
| `DiffChecker.KeyOrderEarlierPrefix` | scripts/diff-checker.ts:31-35 | a key first seen at i1 makes the order for any longer prefix longer than the order before i1 |
| `DiffChecker.KeyOrderFollowsFirstAppearance` | scripts/diff-checker.ts:31-35 | keys are iterated in the order of their first appearance in the previous list |
| `DiffChecker.Classify` | scripts/diff-checker.ts:43-59 | one current component gives at most one entry |
| `DiffChecker.CurrentEntries` | scripts/diff-checker.ts:39-60 | the first loop gives at most one entry per current component |
| `DiffChecker.CurrentKeysContents` | scripts/diff-checker.ts:38-41 | processedKeys holds exactly the keys of the current list |
| `DiffChecker.RemovedEntries` | scripts/diff-checker.ts:63-70 | the last loop gives at most one entry per key of the map |
| `DiffChecker.RemovedEntryOrigin` | scripts/diff-checker.ts:63-70 | each removed entry is `removed`, has no previous version, and carries the component stored under an unseen key |
| `DiffChecker.CompareSboms` | scripts/diff-checker.ts:27-73 | the three loops return exactly `Diff(current, previous)` |
| `DiffChecker.AppendRemoved` | scripts/diff-checker.ts:63-70 | the removed loop appends the removed entries for the map's keys, in the map's order |
| `DiffChecker.RemovedStep` | scripts/diff-checker.ts:63-70 | one iteration of the removed loop appends an entry exactly when the key was not processed |
| `DiffChecker.PreviousStep` | scripts/diff-checker.ts:32-35 | one iteration of the map-filling loop is one `set`, which appends the key only on its first occurrence |
| `DiffChecker.CurrentStep` | scripts/diff-checker.ts:39-60 | one iteration of the current loop adds the key to processedKeys and appends that component's entry |
| `DiffChecker.ClassifyAgainstPrevious` | scripts/diff-checker.ts:43-59 | a key absent from the previous list gives `added` with exactly that component; a present key with a different version gives `updated` with previousVersion from the last previous component with that key; an equal version gives nothing |
| `DiffChecker.CurrentEntriesAppend` | scripts/diff-checker.ts:39-60 | the added and updated entries follow the current list's order |
| `DiffChecker.CurrentEntriesNotRemoved` | scripts/diff-checker.ts:39-60 | the first loop gives no `removed` entry, and each entry carries a component of the current list |
| `DiffChecker.CountRemovedCurrent` | scripts/diff-checker.ts:39-60 | the first loop produces no removed entry for any key |
| `DiffChecker.CountRemovedEntries` | scripts/diff-checker.ts:63-70 | the last loop gives exactly one removed entry for each unseen key of the order, and none for any other key |
| `DiffChecker.RemovedExactlyOnce` | scripts/diff-checker.ts:38-70 | each previous key absent from the current list yields exactly one `removed` entry, and any other key yields none |
| `DiffChecker.RemovedCarriesLastComponent` | scripts/diff-checker.ts:31-70 | a removed entry carries the last previous component with its key, and that key is absent from the current list |
| `DiffChecker.DiffLength` | scripts/diff-checker.ts:28-72 | the result has at most one entry per current component plus one per distinct previous key |
| `DiffChecker.AllAddedWhenNoPrevious` | scripts/diff-checker.ts:39-60 | against an empty map every current component is added, in order |
| `DiffChecker.EmptyPrevious` | scripts/diff-checker.test.ts:13-91 | an empty previous list gives one `added` entry per current component, in order |
| `DiffChecker.BothEmpty` | scripts/diff-checker.test.ts:13-91 | two empty lists give an empty result |
| `DiffChecker.AllRemovedWhenNoCurrent` | scripts/diff-checker.ts:63-70 | with nothing processed, every key of the order gives a removed entry, in order |
| `DiffChecker.EmptyCurrent` | scripts/diff-checker.ts:27-73 | an empty current list gives one `removed` entry per distinct previous key, in first-appearance order, each with the last component under that key |
| `DiffChecker.DuplicatesEachReported` | scripts/diff-checker.ts:39-60 | a component listed twice in the current list is classified at each of its positions, in order: two entries when it is added or updated, none when unchanged |
| `DiffChecker.DuplicateAddedTwice` | scripts/diff-checker.ts:39-60 | example: the same component twice against an empty previous list gives two `added` entries |
| `DiffChecker.Validate` | scripts/diff-checker.ts:99-112 | succeeds iff both formats are `CycloneDX` and both components members are arrays; otherwise fails with the first failing check's message, naming current or previous |
| `VersionResolver.IsEmpty` | dist/scripts/version-resolver.js:20-28 | true exactly for a missing value or a string that is all whitespace |
| `VersionResolver.PaddedVersionNotEmpty` | scripts/version-resolver.test.ts:57 | `' v1.0.0 '` is not empty |
| `VersionResolver.Query` | dist/scripts/version-resolver.js:37-61 | a lookup is made iff the config read succeeded and the recorded version is not empty, and then with the project name and the untrimmed recorded version |
| `VersionResolver.Resolve` | dist/scripts/version-resolver.js:37-93 | in every branch `isFirstVersion` iff there is no previous version; the source is `config-file` iff there is one, and exactly then there is no reason; a previous version is the recorded one after a Found lookup; without a lookup the source is `first-version` |
| `VersionResolver.ConfigReadFailed` | dist/scripts/version-resolver.js:39-47 | a failed read gives `{null, true, first-version, "Config file not found or invalid"}` and makes no lookup |
| `VersionResolver.RecordedVersionEmpty` | dist/scripts/version-resolver.js:48-58 | a missing config or an empty recorded version gives `{null, true, first-version, "pre-project-version is empty"}` and makes no lookup |
| `VersionResolver.LookupOutcomes` | dist/scripts/version-resolver.js:60-92 | Found gives the recorded version from `config-file` with no reason; NotFound gives `dt-not-found` with "SBOM not found in DT"; an error gives `dt-not-found` with "DT API error: " and the message, or "Unknown error" |
| `VersionResolver.ResolveDependsOnlyOnQuery` | dist/scripts/version-resolver.js:37-93 | the result depends on the lookup only through the one query made, and never on the current version |
| `LicenseGuideProvider.FindFixedTest` | scripts/license-guide-provider.ts:112-142 | finds the fixed test spelled exactly as the trimmed condition, or reports that none is |
| `LicenseGuideProvider.FixedTestsLackOperators` | scripts/license-guide-provider.ts:112-148 | a condition containing `&` or `|` is no fixed test, so it reaches the compound forms |
| `LicenseGuideProvider.PaddedFixedTest` | scripts/license-guide-provider.ts:108-142 | a condition that trims to a fixed test's spelling means that test |
| `LicenseGuideProvider.AlwaysHolds` | scripts/license-guide-provider.ts:110-115 | `always`, with any surrounding whitespace, holds |
| `LicenseGuideProvider.ModifiedTests` | scripts/license-guide-provider.ts:118-120 | `is_modified` and `is_modified == true` hold iff isModified is true |
| `LicenseGuideProvider.BareModifiedTest` | scripts/license-guide-provider.ts:118-120 | `is_modified` is the test isModified == true |
| `LicenseGuideProvider.NegatedModifiedTests` | scripts/license-guide-provider.ts:122-124 | `!is_modified` and `is_modified == false` hold iff isModified is false |
| `LicenseGuideProvider.BangModifiedTest` | scripts/license-guide-provider.ts:122-124 | `!is_modified` is the test isModified == false |
| `LicenseGuideProvider.StaticLinkTests` | scripts/license-guide-provider.ts:127-129 | both quotings of `link_type == static` hold iff linkType is static |
| `LicenseGuideProvider.DoubleQuotedStaticTest` | scripts/license-guide-provider.ts:127-129 | the double-quoted spelling is the static-link test |
| `LicenseGuideProvider.DynamicLinkTests` | scripts/license-guide-provider.ts:131-133 | both quotings of `link_type == dynamic` hold iff linkType is dynamic |
| `LicenseGuideProvider.DoubleQuotedDynamicTest` | scripts/license-guide-provider.ts:131-133 | the double-quoted spelling is the dynamic-link test |
| `LicenseGuideProvider.DistributedTests` | scripts/license-guide-provider.ts:136-138 | `is_distributed` and `is_distributed == true` hold iff isDistributed is true |
| `LicenseGuideProvider.BareDistributedTest` | scripts/license-guide-provider.ts:136-138 | `is_distributed` is the test isDistributed == true |
| `LicenseGuideProvider.NegatedDistributedTests` | scripts/license-guide-provider.ts:140-142 | `!is_distributed` and `is_distributed == false` hold iff isDistributed is false |
| `LicenseGuideProvider.BangDistributedTest` | scripts/license-guide-provider.ts:140-142 | `!is_distributed` is the test isDistributed == false |
| `LicenseGuideProvider.AbsentAttributeFailsBothTests` | scripts/license-guide-provider.ts:117-142 | with an attribute absent, both its positive and its negated test are false |
| `LicenseGuideProvider.BothPartsHold` | scripts/license-guide-provider.ts:146-147 | `every` over two trimmed parts holds iff both conditions hold |
| `LicenseGuideProvider.EitherPartHolds` | scripts/license-guide-provider.ts:152-153 | `some` over two trimmed parts holds iff either condition holds |
| `LicenseGuideProvider.TrimmedCompound` | scripts/license-guide-provider.ts:144-158 | a trimmed condition containing `&` or `|` is evaluated by the compound rules |
| `LicenseGuideProvider.AndSplits` | scripts/license-guide-provider.ts:145-148 | `a&&b` holds iff both a and b hold |
| `LicenseGuideProvider.OrSplits` | scripts/license-guide-provider.ts:151-154 | `a||b` holds iff a or b holds |
| `LicenseGuideProvider.OperatorNotFixed` | scripts/license-guide-provider.ts:113-142 | a trimmed condition holding `&&` or `||` matches none of the fixed tests |
| `LicenseGuideProvider.EvaluatesAsAnd` | scripts/license-guide-provider.ts:108-148 | a condition whose trimmed text holds `&&` is evaluated as `every` over its `&&`-parts |
| `LicenseGuideProvider.EvaluatesAsOr` | scripts/license-guide-provider.ts:108-154 | a condition whose trimmed text holds `||` but no `&&` is evaluated as `some` over its `||`-parts |
| `LicenseGuideProvider.AllPartsHoldEach` | scripts/license-guide-provider.ts:146-147 | `every` holds iff each trimmed part holds |
| `LicenseGuideProvider.SomePartHoldsAny` | scripts/license-guide-provider.ts:152-153 | `some` holds iff at least one trimmed part holds |
| `LicenseGuideProvider.AndCompound` | scripts/license-guide-provider.ts:108-148 | for any number of parts and any whitespace around them, a condition holding `&&` holds iff every trimmed `&&`-part holds |
| `LicenseGuideProvider.OrCompound` | scripts/license-guide-provider.ts:108-154 | for any number of parts and any whitespace around them, a condition holding `||` and no `&&` holds iff some trimmed `||`-part holds |
| `LicenseGuideProvider.OrBindsTighterThanAnd` | scripts/license-guide-provider.ts:144-154 | `a||b&&c` means `(a||b)&&c`, because `&&` is split first |
| `LicenseGuideProvider.EmptyConditionFails` | scripts/license-guide-provider.ts:156-158 | the empty condition is false |
| `LicenseGuideProvider.EmptyPartFails` | scripts/license-guide-provider.ts:145-158 | a trailing `&&` leaves an empty part, which makes the conjunction false |
| `LicenseGuideProvider.UnknownConditionFails` | scripts/license-guide-provider.ts:156-158 | a condition that is no fixed test and has no `&&` or `||` is false |
| `LicenseGuideProvider.RuleToGuideline` | scripts/license-guide-provider.ts:164-172 | the guideline copies the rule's condition, message, input type, label and options field for field |
| `LicenseGuideProvider.ApplicableRules` | scripts/license-guide-provider.ts:97-102 | the filter keeps at most as many guidelines as there are rules |
| `LicenseGuideProvider.ApplicableRulesContents` | scripts/license-guide-provider.ts:97-102 | each selected guideline comes from a rule whose condition holds, and every such rule is selected |
| `LicenseGuideProvider.ApplicableRulesAppend` | scripts/license-guide-provider.ts:97-102 | the filter keeps config order |
| `LicenseGuideProvider.FindEntry` | scripts/license-guide-provider.ts:87-89 | finds the first entry whose license_id equals the query exactly, or reports that no entry has it |
| `LicenseGuideProvider.Guidelines` | scripts/license-guide-provider.ts:75-103 | without a config, or without an exactly matching entry, the result is `[DEFAULT_GUIDELINE]`; otherwise it is the first match's applicable rules |
| `LicenseGuideProvider.NoRuleHolds` | scripts/license-guide-provider.ts:97-102 | when no condition holds, nothing is selected |
| `LicenseGuideProvider.MatchedEntryMayGiveNothing` | scripts/license-guide-provider.ts:97-102 | a matched entry whose rules all fail gives the empty list, not the default |
| `LicenseGuideProvider.LicenseIds` | scripts/license-guide-provider.ts:177-187 | every license_id in config order, or none without a config |
| `LicenseGuideProvider.CommonInstructions` | scripts/license-guide-provider.ts:192-206 | the first matching entry's non-empty common instructions, else null (also without config or match) |
| `LicenseGuideProvider.AcceptConfig` | scripts/license-guide-provider.ts:42-70 | a config is accepted iff the file parsed to an object with a truthy version and a guidelines array |
| `LicenseGuideProvider.Provider.constructor` | scripts/license-guide-provider.ts:32-37 | keeps the path; no config is loaded yet |
| `LicenseGuideProvider.Provider.LoadConfig` | scripts/license-guide-provider.ts:42-70 | the config becomes what the file now yields, or none |
| `LicenseGuideProvider.Provider.EnsureLoaded` | scripts/license-guide-provider.ts:76-79 | loads only when no config is held |
| `LicenseGuideProvider.Provider.GetGuidelines` | scripts/license-guide-provider.ts:75-103 | loads lazily, then returns `Guidelines` of the config held |
| `LicenseGuideProvider.Provider.GetLicenseIds` | scripts/license-guide-provider.ts:177-187 | loads lazily, then returns `LicenseIds` of the config held |
| `LicenseGuideProvider.Provider.GetCommonInstructions` | scripts/license-guide-provider.ts:192-206 | loads lazily, then returns `CommonInstructions` of the config held |
| `IssueCreator.LicenseId` | scripts/issue-creator.ts:25-48 | the license id is never empty |
| `IssueCreator.LicenseIdSource` | scripts/issue-creator.ts:25-48 | `Unknown` without licenses; otherwise `Unknown` or a non-empty name the first license carries |
| `IssueCreator.LicenseIdPrecedence` | scripts/issue-creator.ts:30-45 | a non-empty expression wins, then a non-empty id, then a non-empty name, else `Unknown` |
| `IssueCreator.EscapeText` | scripts/issue-creator.ts:57-60 | escaped text holds no line feed and no carriage return |
| `IssueCreator.EscapeMarkdown` | scripts/issue-creator.ts:53-61 | null becomes the empty string; the output never holds a line break |
| `IssueCreator.EscapeTextConcat` | scripts/issue-creator.ts:57-60 | escaping distributes over concatenation |
| `IssueCreator.EscapeCharPasses` | scripts/issue-creator.ts:57-60 | the three replace passes turn `|` into `\|`, a line feed into a space, drop a carriage return, and keep any other character |
| `IssueCreator.EscapeMarkdownPasses` | scripts/issue-creator.ts:57-60 | the three global replacements, in source order, equal the one-pass escape |
| `IssueCreator.EscapedPipes` | scripts/issue-creator.ts:58 | every `|` of the output is preceded by a backslash |
| `IssueCreator.EscapePlain` | scripts/issue-creator.ts:57-60 | text with no pipe, line feed or carriage return is unchanged |
| `IssueCreator.EscapeClean` | scripts/issue-creator.ts:53-61 | text without pipes or line breaks is left as it is |
| `IssueCreator.ChangeEmojiDistinct` | scripts/issue-creator.ts:66-77 | added, updated and removed get 🆕, 🔄 and 🗑️, four distinct markers with the ❓ fallback |
| `IssueCreator.ChangeEmojiNoLineFeed` | scripts/issue-creator.ts:66-77 | no marker holds a line feed |
| `IssueCreator.TableRowLineNoLineFeed` | scripts/issue-creator.ts:108-121 | every table row is a single line |
| `IssueCreator.TableLines` | scripts/issue-creator.ts:105-122 | split at line feeds the table is an empty line, the header, the separator, exactly one row per diff in order, and an empty tail |
| `IssueCreator.IdUnits` | scripts/issue-creator.ts:174 | one character gives as many output characters as it has UTF-16 code units |
| `IssueCreator.IdPrefix` | scripts/issue-creator.ts:174 | the prefix has the name's JavaScript length in code units and holds only letters, digits and `-` |
| `IssueCreator.IdPrefixConcat` | scripts/issue-creator.ts:174 | the global replace works character by character, so it distributes over concatenation |
| `IssueCreator.IdPrefixBmp` | scripts/issue-creator.ts:174 | for a name within the Basic Multilingual Plane, each letter or digit stays and every other character becomes one `-` |
| `IssueCreator.SurrogatePairTwoDashes` | scripts/issue-creator.ts:174 | a character above U+FFFF becomes two dashes: `a😀` gives the field id `a---0` |
| `IssueCreator.FieldIdInjective` | scripts/issue-creator.ts:174 | within one component, different guideline positions give different field ids |
| `IssueCreator.FieldIdsCollideAcrossComponents` | scripts/issue-creator.ts:174 | example: components named `a.b` and `a-b` get the same first field id, so ids can collide across components |
| `IssueCreator.GuidelineField` | scripts/issue-creator.ts:176-217 | checkbox gives a checkboxes field, text an input, select with options a dropdown of those options; anything else, including select without options, gives nothing |
| `IssueCreator.GuidelineFields` | scripts/issue-creator.ts:172-218 | at most one field per guideline |
| `IssueCreator.GuidelineFieldIdsBelow` | scripts/issue-creator.ts:172-218 | every field carries the id `name-i` of one of the guideline positions |
| `IssueCreator.GuidelineFieldIdsDistinct` | scripts/issue-creator.ts:172-218 | no two fields of a component share an id |
| `IssueCreator.ComponentSection` | scripts/issue-creator.ts:151-218 | a diff gets a section iff its license maps to a non-empty guideline list |
| `IssueCreator.SectionsAppend` | scripts/issue-creator.ts:151-219 | the sections follow the diff order |
| `IssueCreator.SectionsPresent` | scripts/issue-creator.ts:151-219 | there are sections iff some diff's license has a non-empty guideline list |
| `IssueCreator.TableStart` | scripts/issue-creator.ts:105-106 | before any row the table is the empty line, the header and the separator |
| `IssueCreator.TableStep` | scripts/issue-creator.ts:108-122 | each diff appends its row and a line feed |
| `IssueCreator.FieldsStep` | scripts/issue-creator.ts:172-218 | each guideline appends its field with id `name-j` |
| `IssueCreator.GenerateReviewIssueForm` | scripts/issue-creator.ts:82-243 | the loops build exactly the form `ReviewIssueForm` (name, description, title, labels, body) |
| `IssueCreator.BuildTable` | scripts/issue-creator.ts:105-122 | the row loop builds exactly `TableMarkdown(diffs)` |
| `IssueCreator.BuildSection` | scripts/issue-creator.ts:151-218 | the field loop builds exactly one diff's section |
| `IssueCreator.ReviewFormFixedBlocks` | scripts/issue-creator.ts:96-242 | the body is the header, the table, the common checks, the sections, the SBOM link and, last, the approval request |
| `IssueCreator.ReviewFormWithoutDiffs` | scripts/issue-creator.ts:96-242 | with no diffs the fixed blocks are still all present, around an empty table |
| `IssueCreator.ActionSummary` | scripts/issue-creator.ts:273-274 | `対応なし` exactly when there are no actions |
| `IssueCreator.SummaryLineNoLineFeed` | scripts/issue-creator.ts:265-277 | each summary row is a single line |
| `IssueCreator.SummaryRows` | scripts/issue-creator.ts:265-277 | the summary table has exactly one row per result, in order |
| `IssueCreator.ActionLine` | scripts/issue-creator.ts:293 | an action line holds no line feed |
| `IssueCreator.ActionBlockLines` | scripts/issue-creator.ts:289-296 | a block with actions lists exactly one line per action, in order, then an empty line |
| `IssueCreator.DetailsAppend` | scripts/issue-creator.ts:282-297 | the detail blocks follow the result order |
| `IssueCreator.GenerateApprovalIssue` | scripts/issue-creator.ts:250-309 | the loops build exactly `ApprovalMarkdown` |
| `IssueCreator.AppendDetailBlock` | scripts/issue-creator.ts:283-296 | one detail block: the heading, then `対応事項なし` or one line per action |
| `IssueCreator.FooterEndsUnchecked` | scripts/issue-creator.ts:299-306 | the footer ends with an empty line and the unchecked approval checkbox |
| `IssueCreator.ApprovalEndsUnchecked` | scripts/issue-creator.ts:305-306 | the approval issue ends with the unchecked approval checkbox on a line of its own |
| `IssueParser.EscapeRegex` | scripts/issue-parser.ts:33-35 | the output is at least as long as the input and at most twice as long |
| `IssueParser.EscapeRegexLiteral` | scripts/issue-parser.ts:33-35 | the escaped text, read as a pattern, matches exactly the original text |
| `IssueParser.EscapeRegexConcat` | scripts/issue-parser.ts:33-35 | escaping works character by character |
| `IssueParser.EscapeRegexChar` | scripts/issue-parser.ts:33-35 | each of `. * + ? ^ $ { } ( ) | [ ] \` gets a backslash; any other character is kept |
| `IssueParser.CheckboxAt` | scripts/issue-parser.ts:20-27 | a match captures a space, `x` or `X` |
| `IssueParser.FirstCheckboxFrom` | scripts/issue-parser.ts:20-21 | finds the first line start where the pattern matches, or reports that none does |
| `IssueParser.ParseCheckboxStateFirst` | scripts/issue-parser.ts:18-28 | checked iff there is a first checkbox line of the label and its mark is `x` or `X` |
| `IssueParser.NoCheckboxUnchecked` | scripts/issue-parser.ts:23-25 | with no matching line the state is unchecked |
| `IssueParser.CheckboxFirstLine` | scripts/issue-parser.ts:18-28 | `- [c] label` after blank text reads as checked iff c is `x` or `X` |
| `IssueParser.CheckboxAtParts` | scripts/issue-parser.ts:20 | a line `ws - [c] label` followed by a line feed matches and captures c |
| `IssueParser.OnlyOccurrenceCapture` | scripts/issue-parser.ts:20-27 | when the label occurs only once, any match captures the mark three characters before it |
| `IssueParser.OnlyOccurrenceState` | scripts/issue-parser.ts:18-28 | when the label occurs once after `[c] `, the state is checked only if c is `x` or `X`, and unchecked if c is a space |
| `IssueParser.NonEmptyParts` | scripts/issue-parser.ts:54 | the filter keeps only non-empty parts, no more of them than there were |
| `IssueParser.SplitFullName` | scripts/issue-parser.ts:69-75 | a present group is non-empty and colon-free, so the split is at the first colon, and group, `:` and name rejoin to the field; with no group, either the field has no colon and is the name, or it is `:` followed by the name |
| `IssueParser.ChangeTypeOf` | scripts/issue-parser.ts:87-96 | the change type is one of added, updated, removed, unknown |
| `IssueParser.ParseComponentFromTable` | scripts/issue-parser.ts:49-105 | null iff the row has fewer than four non-empty trimmed fields; otherwise the license is the fourth field |
| `IssueParser.SplitFullNameCases` | scripts/issue-parser.ts:69-99 | no colon means no group; `g:n` with non-empty colon-free g gives group g and name n; `:n` gives no group and name n |
| `IssueParser.ParseVersionCases` | scripts/issue-parser.ts:78-84 | without `→` the field is the version; otherwise the version is the trimmed text after the first arrow |
| `IssueParser.ParseComponentsFromTable` | scripts/issue-parser.ts:110-149 | the loop with the in-table flag returns exactly `TableComponentsOf(issueBody)` |
| `IssueParser.NoHeaderNoRows` | scripts/issue-parser.ts:117-146 | nothing is read before the header line |
| `IssueParser.RowsAfterHeader` | scripts/issue-parser.ts:117-146 | lines before the first header are ignored, and reading starts after it |
| `IssueParser.NoHeaderBody` | scripts/issue-parser.ts:110-149 | a body none of whose lines is a table header yields no rows |
| `IssueParser.NoHeaderWordBody` | scripts/issue-parser.ts:110-149 | in particular a body without `変`, such as the empty body, yields no rows |
| `IssueParser.SectionEnd` | scripts/issue-parser.ts:168 | the lazy section capture ends within the text |
| `IssueParser.NoHeadingNoSection` | scripts/issue-parser.ts:167-172 | without `###` in the body no section is found |
| `IssueParser.NoFieldHeadingNoFields` | scripts/issue-parser.ts:177-179 | a section without `####` has no fields |
| `IssueParser.PutLookup` | scripts/issue-parser.ts:186-193 | after `actions[key] = value` the key reads value and every other key reads as before |
| `IssueParser.PutOrder` | scripts/issue-parser.ts:186-193 | a new key is appended last; an existing key keeps its place and takes the new value |
| `IssueParser.PutDistinct` | scripts/issue-parser.ts:186-193 | assignment never makes a key appear twice |
| `IssueParser.RecordFieldPut` | scripts/issue-parser.ts:180-194 | a recorded field is one assignment under its trimmed heading; any other field changes nothing |
| `IssueParser.RecordFieldWellFormed` | scripts/issue-parser.ts:180-194 | recording a field keeps each key once and only recorded values |
| `IssueParser.RecordFieldReading` | scripts/issue-parser.ts:180-194 | a checkbox field reads `対応済み` iff its box is checked, else `未対応`; another field reads its trimmed text unless empty, `No response` or `_No response_`, which change nothing |
| `IssueParser.RecordFieldsWellFormed` | scripts/issue-parser.ts:177-195 | whatever a section holds, its record has each key once and only recorded values |
| `IssueParser.CollectActions` | scripts/issue-parser.ts:163-196 | the field loop builds exactly the component's record, empty when no section matches |
| `IssueParser.ParseReviewIssue` | scripts/issue-parser.ts:154-215 | the loop builds exactly `ReviewDocument`, with the clock reading as a parameter |
| `IssueParser.ReviewDocumentShape` | scripts/issue-parser.ts:159-214 | reviewer and version pass through; one result per table row in order, with its name, version and license and a well-formed record |
| `IssueParser.NoHeadingEmptyActions` | scripts/issue-parser.ts:165-196 | a body without any `###` gives every component an empty record |
| `IssueParser.ApprovalCheckboxes` | scripts/issue-parser.ts:220-229 | each of the approval and approval-request checkboxes reads checked iff it holds `x` or `X` |
| `IssueParser.NoDashUnchecked` | scripts/issue-parser.ts:18-28 | a text without `-` reads as unchecked |
| `PrCommenter.LicenseIdAgrees` | scripts/pr-commenter.ts:41-59 | this script's license id equals the review issue's for every component |
| `PrCommenter.FormatVersionCases` | scripts/pr-commenter.ts:64-69 | `prev → cur` for an update with a non-empty previous version, else the version; a missing version is `unknown` in both cases |
| `PrCommenter.GenerateComment` | scripts/pr-commenter.ts:87-150 | the pushes and the join build exactly `Comment` |
| `PrCommenter.PushRows` | scripts/pr-commenter.ts:106-115 | one escaped row per diff is appended, in order |
| `PrCommenter.PushGuidelines` | scripts/pr-commenter.ts:120-142 | the guideline part is appended only when the map has an entry |
| `PrCommenter.AppendGuidelineBlock` | scripts/pr-commenter.ts:125-140 | one diff's block, built as the source builds it |
| `PrCommenter.CommentLayout` | scripts/pr-commenter.ts:92-149 | the fixed header lines, one row per diff in order, an empty line, the guideline part, then `---`, an empty line and the SBOM link |
| `PrCommenter.GuidelinePartShape` | scripts/pr-commenter.ts:120-142 | the guideline heading appears iff the map is non-empty, and then blocks appear iff some diff's license has guidelines |
| `PrCommenter.GuidelineBlockLines` | scripts/pr-commenter.ts:128-140 | a block is the bold `license (name)` line, one `- message` per guideline in order, and an empty line, iff the license has guidelines |
| `PrCommenter.CommentRowNoLineFeed` | scripts/pr-commenter.ts:106-115 | every row is a single line |
| `PrCommenter.HeaderNoLineFeeds` | scripts/pr-commenter.ts:95-104 | the header lines hold no line feed |
| `PrCommenter.CommentReadsBack` | scripts/pr-commenter.ts:149 | when the guideline messages and the SBOM link hold no line feed, splitting the comment at line feeds gives back exactly its lines |
| `PrCommenter.CommentRowAgrees` | scripts/pr-commenter.ts:106-115 | with a non-empty version, a comment row equals the review issue's table row |
| `PrCommenter.CommentEndsWithLink` | scripts/pr-commenter.ts:145-149 | the comment ends with an empty line and the SBOM link |
| `RoundTrip.LabelsAgree` | scripts/issue-parser.ts:185-229 | the labels the parser looks for are the ones the creator writes |
| `RoundTrip.MarkerRoundTrip` | scripts/issue-parser.ts:87-96 | reading back the creator's marker gives the change type's name, or `unknown` for the fallback |
| `RoundTrip.RowFieldsOfRow` | scripts/issue-parser.ts:51-54 | splitting, trimming and filtering a rendered row gives back its non-empty trimmed pipe-free cells |
| `RoundTrip.NameCellPlain` | scripts/issue-parser.ts:69-75 | the rendered name cell splits back into the group (or none) and the name |
| `RoundTrip.ArrowCellVersion` | scripts/issue-parser.ts:79-84 | the version is read back from `prev → cur` |
| `RoundTrip.RowRoundTrip` | scripts/issue-parser.ts:49-105 | a readable diff's row parses to its group, name, current version, license and change type |
| `RoundTrip.RowIsTableRow` | scripts/issue-parser.ts:117-146 | a readable diff's row is no header, no separator and no table end, and contains `|` |
| `RoundTrip.HeaderRecognised` | scripts/issue-parser.ts:119-127 | the creator's header line holds all four header words |
| `RoundTrip.SeparatorRecognised` | scripts/issue-parser.ts:130-132 | the separator line is skipped as a rule and is not a header |
| `RoundTrip.EmptyLineRecognised` | scripts/issue-parser.ts:135-137 | the empty line after the table ends it |
| `RoundTrip.FirstRowRead` | scripts/issue-parser.ts:140-145 | inside the table, a readable diff's row adds its parsed component |
| `RoundTrip.RowsRead` | scripts/issue-parser.ts:117-146 | the rows of readable diffs read back one component per diff, in order |
| `RoundTrip.TableRoundTrip` | scripts/issue-creator.ts:105-122 | parsing the rendered table recovers each readable diff's group, name, version, license and change type, in order |
| `RoundTrip.CheckboxAfterFront` | scripts/issue-parser.ts:18-28 | after text without `上`, the approval checkbox line reads approved iff its box holds `x` or `X` |
| `RoundTrip.GeneratedIsUnmarked` | scripts/issue-creator.ts:299-306 | the generated approval issue is the one whose checkbox is empty |
| `RoundTrip.ApprovalFrontLacks` | scripts/issue-creator.ts:256-302 | `上` appears in the issue before the checkbox only if an input holds it |
| `RoundTrip.ApprovalReadBack` | scripts/issue-parser.ts:220-222 | the approval issue reads approved iff the approver puts `x` or `X` in its box |
| `RoundTrip.GeneratedNotApproved` | scripts/issue-creator.ts:305-306 | the approval issue as generated reads as not approved |
| `Text.Trim` | scripts/issue-parser.ts:53 | the result has no leading or trailing whitespace and is no longer than the input |
| `Text.TrimEmpty` | dist/scripts/version-resolver.js:25 | trimming gives the empty string iff the text is all whitespace |
| `Text.TrimPadded` | scripts/license-guide-provider.ts:110 | trimming removes exactly the surrounding whitespace of a trimmed non-empty core |
| `Text.IndexOf` | scripts/issue-parser.ts:70 | the first occurrence, or none when there is none |
| `Text.Split` | scripts/issue-parser.ts:114 | at least one part, none longer than the text, and each shorter than the text by the separator's length when the separator occurs; what the parts are is stated by `Text.JoinSplit` and `Text.SplitPartsLackSeparator` |
| `Text.JoinSplit` | scripts/license-guide-provider.ts:146 | joining the parts of a split with its separator gives the text back, for every non-empty separator |
| `Text.SplitPartsLackSeparator` | scripts/license-guide-provider.ts:146 | no part of a split holds the separator |
| `Text.PrefixBeforeFirstLacks` | scripts/issue-parser.ts:70 | the text before the first occurrence of a non-empty pattern does not contain it |
| `Text.SplitJoin` | scripts/pr-commenter.ts:149 | splitting joined lines without line feeds gives the lines back |
| `Text.ReplaceChar` | scripts/issue-creator.ts:58-60 | a replacement without the replaced character leaves none of it; the substitution itself is stated by `Text.ReplaceCharSplitJoin` |
| `Text.ReplaceCharSplitJoin` | scripts/issue-creator.ts:58-60 | `replace(/c/g, r)` equals `split(c).join(r)`: each `c` becomes `r` and every other character stays, in order |
| `Text.NatToStringInjective` | scripts/issue-creator.ts:274 | different counts print differently |

## Left out

- Dependency-Track access (scripts/dt-client.ts) is not part of this model. It is an HTTP client with retries and sleeps. The resolver sees only the lookup's outcome, a function parameter here.
- Config-file reading (scripts/config-reader.ts) is not part of this model. It is filesystem access and YAML parsing. Its result is the `ConfigReadResult` input of `VersionResolver.Resolve`.
- The command-line entry points are left out: `main`, the `*-cli.ts` files, `process.argv`, exit codes and `GITHUB_OUTPUT`. They are I/O.
- Posting issues and comments through the GitHub API (`createGitHubIssue`, `postComment`) is left out. It is a foreign API.
- Logging is left out. Every `console` call is a side effect that does not reach a result.
- `yaml.dump` of the review issue form is left out. The form is modelled as a datatype of body items, and the YAML text is not produced.
- The `loadConfig` file read and `yaml.load` are left out. Their result is a `ConfigFile` value: missing, unparsable, not an object, or an object with optional `version` and `guidelines`. `AcceptConfig` applies the source's structural check to it.
- `new Date().toISOString()` is left out. It reads the clock, so `reviewedAt` is a parameter of `IssueParser.ParseReviewIssue`.
- `IssueParser.CheckboxAt`: regular expressions are hand-written scanners. The checkbox pattern and the section and field patterns follow the backtracking order of the source's patterns. The scanners are not proved against a general regular-expression semantics.
- `IssueParser.SectionEnd`: the section and field scanners (`SectionEnd`, `FindSection`, `FieldAt`, `FieldsFrom`) have contracts that state only where their matches lie. What they capture is their definition, and the lemmas about them cover only the absence of headings.
- JavaScript object key order is left out. `actions` is an ordered association list. The integer-like-key ordering and the special `__proto__` key of JavaScript objects are not modelled.
- `matchAll` is left out as an iterator. The field matches are computed eagerly, in the same order.
- Values in `scripts/types.ts` that are not strings are left out. A non-string `pre-project-version` in the config cannot be expressed. `input_type` is kept as a string, because the source's cast to `InputType` is not checked.
- Malformed guideline entries are left out. The source's structural check accepts any `guidelines` array, and `getGuidelines` then throws a TypeError on a `null` entry (reading `license_id`, scripts/license-guide-provider.ts:88, and likewise in `getLicenseIds` and `getCommonInstructions` at lines 186 and 202), on a matched entry without `rules` (`rules.filter`, line 97), and on a `null` rule or a non-string condition. The model's `LicenseGuideline` and `GuidelineRule` records always carry these fields, so these thrown errors are not modelled.
- `LicenseGuideProvider.EvaluateCondition` recurses on a length bound. Each `&&`- or `||`-part is strictly shorter than the condition it comes from.
- `RoundTrip.TableRoundTrip` holds only for readable diffs, stated by `Readable`:
  - every field is non-empty, trimmed, and free of `|`, line breaks, `→`, `変` and `---`;
  - a present group holds no `:`, and with no group the name holds no `:` (a name after a present group may hold one).

  The renderer escapes `|` as `\|` but the parser splits on every `|`, so names with pipes do not round-trip.
- `RoundTrip.ApprovalReadBack` and `RoundTrip.GeneratedNotApproved` hold only when `上` does not occur in the version, the URLs, or any result text. Otherwise another line could carry the label.
- `DiffChecker.KeyNotInjective` records the key collision the source has; it is not corrected. Two components with colliding keys are treated as one component.

=== FILE: diff_checker.dfy ===
/**
 * scripts/diff-checker.ts: the component diff between the current and the
 * previous CycloneDX SBOM, and the shallow format check made before it.
 *
 * The specification functions below describe `compareSBOMs` over prefixes of
 * its input lists (each one adds the effect of the last element), which is the
 * order in which its loops consume them; `CompareSboms` is the loop-based
 * operation and is proved equal to `Diff`.
 */
module DiffChecker {

  import opened Types
  import Text

  /** `component.group || ''`. */
  function GroupOrEmpty(group: Option<string>): string
  {
    if group.Some? then group.value else ""
  }

  /** The identity key `group-or-empty ":" name` of getComponentKey. */
  function Key(c: Component): string
  {
    GroupOrEmpty(c.group) + ":" + c.name
  }

  /** The key depends on the group text and the name only: not on version, licenses or anything else. */
  lemma KeyDeterminedByGroupAndName(c: Component, d: Component)
    requires GroupOrEmpty(c.group) == GroupOrEmpty(d.group) && c.name == d.name
    ensures Key(c) == Key(d)
  {
  }

  /** When no group contains ':', equal keys mean the same group text and the same name. */
  lemma KeyInjectiveWithoutColonInGroup(c: Component, d: Component)
    requires ':' !in GroupOrEmpty(c.group) && ':' !in GroupOrEmpty(d.group)
    requires Key(c) == Key(d)
    ensures GroupOrEmpty(c.group) == GroupOrEmpty(d.group) && c.name == d.name
  {
    var g1, g2 := GroupOrEmpty(c.group), GroupOrEmpty(d.group);
    var k := Key(c);
    assert forall i :: 0 <= i < |g1| ==> k[i] == g1[i] && k[i] != ':';
    assert forall i :: 0 <= i < |g2| ==> k[i] == g2[i] && k[i] != ':';
    assert k[|g1|] == ':' && k[|g2|] == ':';
    assert |g1| == |g2|;
    assert g1 == k[..|g1|] && g2 == k[..|g2|];
    assert c.name == k[|g1| + 1..] && d.name == k[|g2| + 1..];
  }

  /** The key is not injective: group "a:b" with name "c" collides with group "a" and name "b:c",
      and an absent group collides with an empty one. */
  lemma KeyNotInjective()
    ensures Key(Component(Library, Some("a:b"), "c", "1", None, None, None))
         == Key(Component(Library, Some("a"), "b:c", "1", None, None, None))
    ensures Key(Component(Library, None, "n", "1", None, None, None))
         == Key(Component(Library, Some(""), "n", "1", None, None, None))
  {
  }

  // ---------------------------------------------------------------------------
  // previousMap: a JavaScript Map filled by `set`, so the first `set` of a key
  // fixes its position and the last one its value
  // ---------------------------------------------------------------------------

  predicate HasKey(prev: seq<Component>, k: string)
  {
    exists i :: 0 <= i < |prev| && Key(prev[i]) == k
  }

  /** `i` is the last position of `prev` whose key is `k`. */
  predicate LastWithKey(prev: seq<Component>, k: string, i: int)
  {
    0 <= i < |prev| && Key(prev[i]) == k && forall j :: i < j < |prev| ==> Key(prev[j]) != k
  }

  /** The values of previousMap: each key of the previous list bound to the last component under it
      (characterised by PreviousMapContents). */
  function PreviousMap(prev: seq<Component>): (m: map<string, Component>)
    ensures forall k :: k in m ==> Key(m[k]) == k
  {
    if prev == [] then map[]
    else
      var last := prev[|prev| - 1];
      PreviousMap(prev[..|prev| - 1])[Key(last) := last]
  }

  /** The map holds exactly the keys of the previous list, each bound to the last component under it. */
  lemma {:induction false} PreviousMapContents(prev: seq<Component>)
    ensures forall k :: k in PreviousMap(prev) <==> HasKey(prev, k)
    ensures forall k :: k in PreviousMap(prev) ==> exists i :: LastWithKey(prev, k, i) && PreviousMap(prev)[k] == prev[i]
  {
    if prev != [] {
      var p := prev[..|prev| - 1];
      var last := prev[|prev| - 1];
      PreviousMapContents(p);
      PreviousMapKeysStep(p, last, PreviousMap(p));
      PreviousMapValuesStep(p, last, PreviousMap(p));
      assert p + [last] == prev;
    }
  }

  /** One `previousMap.set` keeps the map's key set equal to the keys of the list grown by one component. */
  lemma PreviousMapKeysStep(p: seq<Component>, last: Component, m0: map<string, Component>)
    requires forall k :: k in m0 <==> HasKey(p, k)
    ensures forall k :: k in m0[Key(last) := last] <==> HasKey(p + [last], k)
  {
    var prev := p + [last];
    assert prev[|p|] == last;
    forall k ensures k in m0[Key(last) := last] <==> HasKey(prev, k) {
      if HasKey(prev, k) && k != Key(last) {
        var i :| 0 <= i < |prev| && Key(prev[i]) == k;
        assert p[i] == prev[i];
      }
      if k in m0 {
        var i :| 0 <= i < |p| && Key(p[i]) == k;
        assert prev[i] == p[i];
      }
    }
  }

  /** One `previousMap.set` keeps every value the last component of the grown list under its key. */
  lemma PreviousMapValuesStep(p: seq<Component>, last: Component, m0: map<string, Component>)
    requires forall k :: k in m0 ==> exists i :: LastWithKey(p, k, i) && m0[k] == p[i]
    ensures var m := m0[Key(last) := last];
      forall k :: k in m ==> exists i :: LastWithKey(p + [last], k, i) && m[k] == (p + [last])[i]
  {
    var prev := p + [last];
    var m := m0[Key(last) := last];
    assert LastWithKey(prev, Key(last), |p|);
    forall k | k in m ensures exists i :: LastWithKey(prev, k, i) && m[k] == prev[i] {
      if k != Key(last) {
        var i :| LastWithKey(p, k, i) && m0[k] == p[i];
        assert prev[i] == p[i];
        assert LastWithKey(prev, k, i);
      }
    }
  }

  /** The key order of previousMap: each key of the map once, appended when first `set`. */
  function KeyOrder(prev: seq<Component>): (order: seq<string>)
    ensures forall x, y :: 0 <= x < y < |order| ==> order[x] != order[y]
    ensures forall k :: k in order <==> k in PreviousMap(prev)
  {
    if prev == [] then []
    else
      var last := prev[|prev| - 1];
      var order := KeyOrder(prev[..|prev| - 1]);
      KeyOrderStep(order, PreviousMap(prev[..|prev| - 1]), Key(last), last);
      if Key(last) in order then order else order + [Key(last)]
  }

  /** Appending a key on its first `set` keeps the order an enumeration of the map's keys. */
  lemma KeyOrderStep(order: seq<string>, m0: map<string, Component>, k: string, v: Component)
    requires forall x, y :: 0 <= x < y < |order| ==> order[x] != order[y]
    requires forall x :: x in order <==> x in m0
    ensures var o := if k in order then order else order + [k];
      (forall x, y :: 0 <= x < y < |o| ==> o[x] != o[y]) &&
      (forall x :: x in o <==> x in m0[k := v])
  {
  }

  lemma {:induction false} KeyOrderPrefix(prev: seq<Component>, i: nat, j: nat)
    requires i <= j <= |prev|
    ensures KeyOrder(prev[..i]) <= KeyOrder(prev[..j])
    decreases j - i
  {
    if i < j {
      KeyOrderPrefix(prev, i, j - 1);
      var q := prev[..j];
      assert q[..j - 1] == prev[..j - 1];
    }
  }

  /** A key first seen at position `i` of the previous list takes position |KeyOrder(prev[..i])|
      in the key order. */
  lemma KeyOrderFirstAppearance(prev: seq<Component>, i: nat)
    requires i < |prev| && !HasKey(prev[..i], Key(prev[i]))
    ensures |KeyOrder(prev[..i])| < |KeyOrder(prev)|
    ensures KeyOrder(prev)[|KeyOrder(prev[..i])|] == Key(prev[i])
  {
    PreviousMapContents(prev[..i]);
    var q := prev[..i + 1];
    assert q[..i] == prev[..i] && q[i] == prev[i];
    assert KeyOrder(q) == KeyOrder(prev[..i]) + [Key(prev[i])];
    KeyOrderPrefix(prev, i + 1, |prev|);
    assert prev[..|prev|] == prev;
  }

  lemma KeyOrderEarlierPrefix(prev: seq<Component>, i1: nat, i2: nat)
    requires i1 < i2 <= |prev|
    requires !HasKey(prev[..i1], Key(prev[i1]))
    ensures |KeyOrder(prev[..i1])| < |KeyOrder(prev[..i2])|
  {
    var q := prev[..i2];
    assert q[..i1] == prev[..i1] && q[i1] == prev[i1];
    KeyOrderFirstAppearance(q, i1);
  }

  /** Keys are ordered by their first appearance in the previous list. */
  lemma KeyOrderFollowsFirstAppearance(prev: seq<Component>, i1: nat, i2: nat)
    requires i1 < i2 < |prev|
    requires !HasKey(prev[..i1], Key(prev[i1])) && !HasKey(prev[..i2], Key(prev[i2]))
    ensures |KeyOrder(prev[..i1])| < |KeyOrder(prev[..i2])| < |KeyOrder(prev)|
    ensures KeyOrder(prev)[|KeyOrder(prev[..i1])|] == Key(prev[i1])
    ensures KeyOrder(prev)[|KeyOrder(prev[..i2])|] == Key(prev[i2])
  {
    KeyOrderEarlierPrefix(prev, i1, i2);
    KeyOrderFirstAppearance(prev, i1);
    KeyOrderFirstAppearance(prev, i2);
  }

  // ---------------------------------------------------------------------------
  // the two passes
  // ---------------------------------------------------------------------------

  /** The entry (if any) that one current component produces against previousMap. */
  function Classify(c: Component, pm: map<string, Component>): (r: seq<ComponentDiff>)
    ensures |r| <= 1
  {
    var k := Key(c);
    if k !in pm then [ComponentDiff(Added, c, None)]
    else if pm[k].version != c.version then [ComponentDiff(Updated, c, Some(pm[k].version))]
    else []
  }

  /** The added/updated entries, in the order of the current list. */
  function CurrentEntries(cur: seq<Component>, pm: map<string, Component>): (r: seq<ComponentDiff>)
    ensures |r| <= |cur|
  {
    if cur == [] then []
    else CurrentEntries(cur[..|cur| - 1], pm) + Classify(cur[|cur| - 1], pm)
  }

  /** processedKeys after the current list has been consumed. */
  function CurrentKeys(cur: seq<Component>): (keys: set<string>)
  {
    if cur == [] then {}
    else CurrentKeys(cur[..|cur| - 1]) + {Key(cur[|cur| - 1])}
  }

  /** processedKeys holds exactly the keys of the current list. */
  lemma {:induction false} CurrentKeysContents(cur: seq<Component>)
    ensures forall k :: k in CurrentKeys(cur) <==> HasKey(cur, k)
  {
    if cur != [] {
      var p := cur[..|cur| - 1];
      CurrentKeysContents(p);
      assert forall i :: 0 <= i < |p| ==> p[i] == cur[i];
      assert Key(cur[|cur| - 1]) in CurrentKeys(cur);
      forall k | HasKey(cur, k) ensures k in CurrentKeys(cur) {
        var i :| 0 <= i < |cur| && Key(cur[i]) == k;
        if i < |p| { assert HasKey(p, k); }
      }
    }
  }

  /** The removed entries: the keys of `order` never seen, in that order, each with the component stored under it. */
  function RemovedEntries(order: seq<string>, pm: map<string, Component>, seen: set<string>): (r: seq<ComponentDiff>)
    requires forall k :: k in order ==> k in pm
    ensures |r| <= |order|
  {
    if order == [] then []
    else
      var k := order[|order| - 1];
      RemovedEntries(order[..|order| - 1], pm, seen) + (if k in seen then [] else [ComponentDiff(Removed, pm[k], None)])
  }

  /** Every removed entry is the component stored under a key of `order` that was not seen. */
  lemma {:induction false} RemovedEntryOrigin(order: seq<string>, pm: map<string, Component>, seen: set<string>, d: ComponentDiff)
    requires forall k :: k in order ==> k in pm
    requires d in RemovedEntries(order, pm, seen)
    ensures d.changeType == Removed && d.previousVersion == None
    ensures exists k :: k in order && k !in seen && d.component == pm[k]
  {
    var o := order[..|order| - 1];
    var last := order[|order| - 1];
    if d in RemovedEntries(o, pm, seen) {
      RemovedEntryOrigin(o, pm, seen, d);
      var k :| k in o && k !in seen && d.component == pm[k];
      assert k in order;
    } else {
      assert last in order;
    }
  }

  /** What compareSBOMs returns. */
  function Diff(cur: seq<Component>, prev: seq<Component>): seq<ComponentDiff>
  {
    var pm := PreviousMap(prev);
    CurrentEntries(cur, pm) + RemovedEntries(KeyOrder(prev), pm, CurrentKeys(cur))
  }

  /** compareSBOMs: previousMap is kept as its key order and its key/value map. */
  method CompareSboms(current: seq<Component>, previous: seq<Component>) returns (diffs: seq<ComponentDiff>)
    ensures diffs == Diff(current, previous)
  {
    var order: seq<string> := [];
    var previousMap: map<string, Component> := map[];
    for i := 0 to |previous|
      invariant order == KeyOrder(previous[..i])
      invariant previousMap == PreviousMap(previous[..i])
    {
      PreviousStep(previous, i);
      var key := Key(previous[i]);
      if key !in previousMap {
        order := order + [key];
      }
      previousMap := previousMap[key := previous[i]];
    }
    assert previous[..|previous|] == previous;

    diffs := [];
    var processedKeys: set<string> := {};
    for i := 0 to |current|
      invariant processedKeys == CurrentKeys(current[..i])
      invariant diffs == CurrentEntries(current[..i], previousMap)
    {
      CurrentStep(current, i, previousMap);
      var currentComponent := current[i];
      var key := Key(currentComponent);
      processedKeys := processedKeys + {key};
      if key !in previousMap {
        diffs := diffs + [ComponentDiff(Added, currentComponent, None)];
      } else if previousMap[key].version != currentComponent.version {
        diffs := diffs + [ComponentDiff(Updated, currentComponent, Some(previousMap[key].version))];
      }
    }
    assert current[..|current|] == current;

    diffs := AppendRemoved(diffs, order, previousMap, processedKeys);
  }

  /** The last pass of compareSBOMs: push a removed entry for each key of the map, in its
      insertion order, that the current list did not have. */
  method AppendRemoved(added: seq<ComponentDiff>, order: seq<string>, previousMap: map<string, Component>,
                       processedKeys: set<string>) returns (diffs: seq<ComponentDiff>)
    requires forall k :: k in order ==> k in previousMap
    ensures diffs == added + RemovedEntries(order, previousMap, processedKeys)
  {
    diffs := added;
    for j := 0 to |order|
      invariant diffs == added + RemovedEntries(order[..j], previousMap, processedKeys)
    {
      RemovedStep(order, j, previousMap, processedKeys);
      var key := order[j];
      if key !in processedKeys {
        diffs := diffs + [ComponentDiff(Removed, previousMap[key], None)];
      }
    }
    assert order[..|order|] == order;
  }

  /** One iteration of the loop over previousMap's entries. */
  lemma RemovedStep(order: seq<string>, j: nat, pm: map<string, Component>, seen: set<string>)
    requires j < |order|
    requires forall k :: k in order ==> k in pm
    ensures RemovedEntries(order[..j + 1], pm, seen) == RemovedEntries(order[..j], pm, seen)
      + (if order[j] in seen then [] else [ComponentDiff(Removed, pm[order[j]], None)])
  {
    var q := order[..j + 1];
    assert q[..j] == order[..j] && q[j] == order[j];
  }

  /** One iteration of the loop that fills previousMap. */
  lemma PreviousStep(prev: seq<Component>, i: nat)
    requires i < |prev|
    ensures PreviousMap(prev[..i + 1]) == PreviousMap(prev[..i])[Key(prev[i]) := prev[i]]
    ensures KeyOrder(prev[..i + 1]) ==
      if Key(prev[i]) in PreviousMap(prev[..i]) then KeyOrder(prev[..i]) else KeyOrder(prev[..i]) + [Key(prev[i])]
  {
    var q := prev[..i + 1];
    assert q[..i] == prev[..i] && q[i] == prev[i];
  }

  /** One iteration of the loop over the current list. */
  lemma CurrentStep(cur: seq<Component>, i: nat, pm: map<string, Component>)
    requires i < |cur|
    ensures CurrentKeys(cur[..i + 1]) == CurrentKeys(cur[..i]) + {Key(cur[i])}
    ensures CurrentEntries(cur[..i + 1], pm) == CurrentEntries(cur[..i], pm) + Classify(cur[i], pm)
  {
    var q := cur[..i + 1];
    assert q[..i] == cur[..i] && q[i] == cur[i];
  }

  // ---------------------------------------------------------------------------
  // properties of the diff
  // ---------------------------------------------------------------------------

  /** A current component whose key is absent from the previous list is reported as added;
      otherwise, against the last previous component under its key, as updated when the
      version strings differ and not at all when they are equal. */
  lemma ClassifyAgainstPrevious(c: Component, prev: seq<Component>)
    ensures !HasKey(prev, Key(c)) ==> Classify(c, PreviousMap(prev)) == [ComponentDiff(Added, c, None)]
    ensures forall i :: LastWithKey(prev, Key(c), i) && prev[i].version != c.version ==>
      Classify(c, PreviousMap(prev)) == [ComponentDiff(Updated, c, Some(prev[i].version))]
    ensures forall i :: LastWithKey(prev, Key(c), i) && prev[i].version == c.version ==>
      Classify(c, PreviousMap(prev)) == []
  {
    var pm := PreviousMap(prev);
    PreviousMapContents(prev);
    if Key(c) in pm {
      var i :| LastWithKey(prev, Key(c), i) && pm[Key(c)] == prev[i];
      forall i' | LastWithKey(prev, Key(c), i') ensures i' == i {
        assert !(i < i') && !(i' < i);
      }
    }
  }

  /** The added/updated entries follow the current list: splitting it splits them. */
  lemma {:induction false} CurrentEntriesAppend(a: seq<Component>, b: seq<Component>, pm: map<string, Component>)
    ensures CurrentEntries(a + b, pm) == CurrentEntries(a, pm) + CurrentEntries(b, pm)
    decreases |b|
  {
    if b == [] {
      assert a + b == a;
    } else {
      var b0, c := b[..|b| - 1], b[|b| - 1];
      var ab := a + b;
      assert ab[..|ab| - 1] == a + b0 && ab[|ab| - 1] == c;
      assert CurrentEntries(ab, pm) == CurrentEntries(a + b0, pm) + Classify(c, pm);
      CurrentEntriesAppend(a, b0, pm);
      assert CurrentEntries(b, pm) == CurrentEntries(b0, pm) + Classify(c, pm);
      Text.SeqAppendAssociative(CurrentEntries(a, pm), CurrentEntries(b0, pm), Classify(c, pm));
    }
  }

  /** The first pass only produces added and updated entries, each for a component of the current list. */
  lemma {:induction false} CurrentEntriesNotRemoved(cur: seq<Component>, pm: map<string, Component>, d: ComponentDiff)
    ensures d in CurrentEntries(cur, pm) ==> d.changeType != Removed && d.component in cur
  {
    if cur != [] {
      var p := cur[..|cur| - 1];
      CurrentEntriesNotRemoved(p, pm, d);
      assert forall c :: c in p ==> c in cur;
    }
  }

  /** The number of removed entries whose component has key `k`. */
  function CountRemoved(ds: seq<ComponentDiff>, k: string): nat
  {
    if ds == [] then 0
    else CountRemoved(ds[..|ds| - 1], k) + (if ds[|ds| - 1].changeType == Removed && Key(ds[|ds| - 1].component) == k then 1 else 0)
  }

  lemma {:induction false} CountRemovedAppend(a: seq<ComponentDiff>, b: seq<ComponentDiff>, k: string)
    ensures CountRemoved(a + b, k) == CountRemoved(a, k) + CountRemoved(b, k)
    decreases |b|
  {
    if b == [] {
      assert a + b == a;
    } else {
      var b0 := b[..|b| - 1];
      assert (a + b)[..|a + b| - 1] == a + b0;
      CountRemovedAppend(a, b0, k);
    }
  }

  /** The first pass produces no removed entries. */
  lemma {:induction false} CountRemovedCurrent(cur: seq<Component>, pm: map<string, Component>, k: string)
    ensures CountRemoved(CurrentEntries(cur, pm), k) == 0
  {
    if cur != [] {
      var p := cur[..|cur| - 1];
      CountRemovedCurrent(p, pm, k);
      var tail := Classify(cur[|cur| - 1], pm);
      CountRemovedAppend(CurrentEntries(p, pm), tail, k);
      if tail != [] {
        assert tail[..0] == [];
      }
    }
  }

  lemma {:induction false} CountRemovedEntries(order: seq<string>, pm: map<string, Component>, seen: set<string>, k: string)
    requires forall x :: x in order ==> x in pm && Key(pm[x]) == x
    requires forall x, y :: 0 <= x < y < |order| ==> order[x] != order[y]
    ensures CountRemoved(RemovedEntries(order, pm, seen), k) == if k in order && k !in seen then 1 else 0
  {
    if order != [] {
      var o := order[..|order| - 1];
      var last := order[|order| - 1];
      CountRemovedEntries(o, pm, seen, k);
      var tail: seq<ComponentDiff> := if last in seen then [] else [ComponentDiff(Removed, pm[last], None)];
      CountRemovedAppend(RemovedEntries(o, pm, seen), tail, k);
      assert CountRemoved(tail, k) == if last !in seen && last == k then 1 else 0 by {
        if tail != [] {
          assert tail[..0] == [];
        }
      }
      assert k in order <==> k in o || k == last;
      assert last !in o;
    }
  }

  /** Each previous key absent from the current list yields exactly one removed entry, and
      every other key none. */
  lemma RemovedExactlyOnce(cur: seq<Component>, prev: seq<Component>, k: string)
    ensures CountRemoved(Diff(cur, prev), k) == if HasKey(prev, k) && !HasKey(cur, k) then 1 else 0
  {
    var pm := PreviousMap(prev);
    PreviousMapContents(prev);
    CurrentKeysContents(cur);
    CountRemovedEntries(KeyOrder(prev), pm, CurrentKeys(cur), k);
    CountRemovedCurrent(cur, pm, k);
    CountRemovedAppend(CurrentEntries(cur, pm), RemovedEntries(KeyOrder(prev), pm, CurrentKeys(cur)), k);
  }

  /** A removed entry carries the last previous component stored under a key that the current list lacks. */
  lemma RemovedCarriesLastComponent(cur: seq<Component>, prev: seq<Component>, d: ComponentDiff)
    requires d in Diff(cur, prev) && d.changeType == Removed
    ensures d.previousVersion == None
    ensures exists i :: LastWithKey(prev, Key(d.component), i) && d.component == prev[i] && !HasKey(cur, Key(d.component))
  {
    var pm := PreviousMap(prev);
    PreviousMapContents(prev);
    CurrentKeysContents(cur);
    var removed := RemovedEntries(KeyOrder(prev), pm, CurrentKeys(cur));
    CurrentEntriesNotRemoved(cur, pm, d);
    assert d in removed;
    RemovedEntryOrigin(KeyOrder(prev), pm, CurrentKeys(cur), d);
    var k :| k in KeyOrder(prev) && k !in CurrentKeys(cur) && d.component == pm[k];
    var i :| LastWithKey(prev, k, i) && pm[k] == prev[i];
  }

  /** At most one entry per current component plus one per distinct previous key. */
  lemma DiffLength(cur: seq<Component>, prev: seq<Component>)
    ensures |Diff(cur, prev)| <= |cur| + |KeyOrder(prev)|
  {
  }

  /** Against an empty previous list every current component is added, in order. */
  lemma {:induction false} AllAddedWhenNoPrevious(cur: seq<Component>)
    ensures CurrentEntries(cur, map[]) == seq(|cur|, i requires 0 <= i < |cur| => ComponentDiff(Added, cur[i], None))
  {
    if cur != [] {
      AllAddedWhenNoPrevious(cur[..|cur| - 1]);
    }
  }

  lemma EmptyPrevious(cur: seq<Component>)
    ensures Diff(cur, []) == seq(|cur|, i requires 0 <= i < |cur| => ComponentDiff(Added, cur[i], None))
  {
    AllAddedWhenNoPrevious(cur);
    assert KeyOrder([]) == [];
  }

  lemma BothEmpty()
    ensures Diff([], []) == []
  {
  }

  /** Against an empty current list every distinct previous key is removed, in key order. */
  lemma {:induction false} AllRemovedWhenNoCurrent(order: seq<string>, pm: map<string, Component>)
    requires forall k :: k in order ==> k in pm
    ensures var r := RemovedEntries(order, pm, {});
      |r| == |order| && forall i :: 0 <= i < |order| ==> r[i] == ComponentDiff(Removed, pm[order[i]], None)
  {
    if order != [] {
      var front := order[..|order| - 1];
      AllRemovedWhenNoCurrent(front, pm);
      assert forall i :: 0 <= i < |front| ==> front[i] == order[i];
    }
  }

  lemma EmptyCurrent(prev: seq<Component>)
    ensures var order := KeyOrder(prev);
      var d := Diff([], prev);
      |d| == |order| && forall i :: 0 <= i < |order| ==> d[i] == ComponentDiff(Removed, PreviousMap(prev)[order[i]], None)
  {
    var pm := PreviousMap(prev);
    assert CurrentEntries([], pm) == [] && CurrentKeys([]) == {};
    AllRemovedWhenNoCurrent(KeyOrder(prev), pm);
    assert Diff([], prev) == RemovedEntries(KeyOrder(prev), pm, {});
  }

  /** A component listed twice in the current list is classified at each occurrence, in place:
      two entries when it is added or updated, none when it is unchanged. */
  lemma DuplicatesEachReported(x: seq<Component>, c: Component, y: seq<Component>, z: seq<Component>, prev: seq<Component>)
    ensures var pm := PreviousMap(prev);
      var cur := x + [c] + y + [c] + z;
      Diff(cur, prev) == CurrentEntries(x, pm) + Classify(c, pm) + CurrentEntries(y, pm) + Classify(c, pm)
        + CurrentEntries(z, pm) + RemovedEntries(KeyOrder(prev), pm, CurrentKeys(cur))
  {
    var pm := PreviousMap(prev);
    assert [c][..0] == [];
    assert CurrentEntries([c], pm) == Classify(c, pm);
    CurrentEntriesAppend(x + [c] + y + [c], z, pm);
    CurrentEntriesAppend(x + [c] + y, [c], pm);
    CurrentEntriesAppend(x + [c], y, pm);
    CurrentEntriesAppend(x, [c], pm);
  }

  /** The same component twice against an empty previous list is reported as added twice. */
  lemma DuplicateAddedTwice(c: Component)
    ensures Diff([c, c], []) == [ComponentDiff(Added, c, None), ComponentDiff(Added, c, None)]
  {
    EmptyPrevious([c, c]);
  }

  // ---------------------------------------------------------------------------
  // the format check made before comparing
  // ---------------------------------------------------------------------------

  /** The `components` member of a parsed SBOM: an array, or a value of another JavaScript type. */
  datatype ComponentsField = ComponentArray(items: seq<Component>) | NotArray(typeName: string)

  /** A parsed SBOM file as far as validation looks at it. */
  datatype RawSbom = RawSbom(bomFormat: Option<string>, components: ComponentsField)

  function FormatText(f: Option<string>): string
  {
    if f.Some? then f.value else "undefined"
  }

  /** The message for a `bomFormat` other than CycloneDX; `which` is "current" or "previous". */
  function FormatError(which: string, f: Option<string>): string
  {
    "Invalid " + which + " SBOM format. Expected 'CycloneDX', got: '" + FormatText(f) + "'"
  }

  /** The message for a `components` member that is not an array. */
  function ComponentsError(which: string, typeName: string): string
  {
    "Invalid " + which + " SBOM: 'components' must be an array. Got: " + typeName
  }

  /** The four checks, in source order: current format, previous format, current components,
      previous components; on success the two component lists. */
  function Validate(current: RawSbom, previous: RawSbom): (r: Result<(seq<Component>, seq<Component>), string>)
    ensures r.Success? <==>
      current.bomFormat == Some("CycloneDX") && previous.bomFormat == Some("CycloneDX")
      && current.components.ComponentArray? && previous.components.ComponentArray?
    ensures r.Success? ==> r.value == (current.components.items, previous.components.items)
    ensures current.bomFormat != Some("CycloneDX") ==> r == Failure(FormatError("current", current.bomFormat))
    ensures current.bomFormat == Some("CycloneDX") && previous.bomFormat != Some("CycloneDX") ==>
      r == Failure(FormatError("previous", previous.bomFormat))
    ensures (current.bomFormat == Some("CycloneDX") && previous.bomFormat == Some("CycloneDX")
             && current.components.NotArray?) ==>
      r == Failure(ComponentsError("current", current.components.typeName))
    ensures (current.bomFormat == Some("CycloneDX") && previous.bomFormat == Some("CycloneDX")
             && current.components.ComponentArray? && previous.components.NotArray?) ==>
      r == Failure(ComponentsError("previous", previous.components.typeName))
  {
    if current.bomFormat != Some("CycloneDX") then Failure(FormatError("current", current.bomFormat))
    else if previous.bomFormat != Some("CycloneDX") then Failure(FormatError("previous", previous.bomFormat))
    else if current.components.NotArray? then Failure(ComponentsError("current", current.components.typeName))
    else if previous.components.NotArray? then Failure(ComponentsError("previous", previous.components.typeName))
    else Success((current.components.items, previous.components.items))
  }
}

=== FILE: issue_creator.dfy ===
/**
 * scripts/issue-creator.ts: the review issue form, as the list of body items it holds before
 * it is dumped as YAML, and the Markdown of the approval issue.
 */
module IssueCreator {

  import opened Types
  import opened Text

  // ---------------------------------------------------------------------------
  // helpers
  // ---------------------------------------------------------------------------

  /** The license names a license entry carries: its expression, id and name, when non-empty. */
  function LicenseNames(l: License): set<string>
  {
    (if Truthy(l.expression) then {l.expression.value} else {})
    + (if l.license.Some? && Truthy(l.license.value.id) then {l.license.value.id.value} else {})
    + (if l.license.Some? && Truthy(l.license.value.name) then {l.license.value.name.value} else {})
  }

  /** getLicenseId: the first license's expression, else its id, else its name, skipping empty
      strings; `Unknown` when there is nothing to take. */
  function LicenseId(c: Component): (r: string)
    ensures r != ""
  {
    if c.licenses.None? || |c.licenses.value| == 0 then "Unknown"
    else
      var first := c.licenses.value[0];
      if Truthy(first.expression) then first.expression.value
      else if first.license.Some? && Truthy(first.license.value.id) then first.license.value.id.value
      else if first.license.Some? && Truthy(first.license.value.name) then first.license.value.name.value
      else "Unknown"
  }

  /** The license id is `Unknown` or a name the first license carries. */
  lemma LicenseIdSource(c: Component)
    ensures (c.licenses.None? || |c.licenses.value| == 0) ==> LicenseId(c) == "Unknown"
    ensures LicenseId(c) == "Unknown" || (c.licenses.Some? && |c.licenses.value| > 0 && LicenseId(c) in LicenseNames(c.licenses.value[0]))
  {
  }

  /** The expression wins over the id, and the id over the name. */
  lemma LicenseIdPrecedence(c: Component)
    requires c.licenses.Some? && |c.licenses.value| > 0
    ensures var first := c.licenses.value[0];
      && (Truthy(first.expression) ==> LicenseId(c) == first.expression.value)
      && (!Truthy(first.expression) && first.license.Some? && Truthy(first.license.value.id)
          ==> LicenseId(c) == first.license.value.id.value)
      && (LicenseNames(first) == {} ==> LicenseId(c) == "Unknown")
  {
  }

  /** What escapeMarkdown does to one character: `|` is escaped as `\|`, a line feed becomes a
      space, a carriage return is dropped. */
  function EscapeChar(ch: char): string
  {
    if ch == '|' then "\\|" else if ch == '\n' then " " else if ch == '\r' then "" else [ch]
  }

  /** Escaping, character by character. */
  function EscapeText(s: string): (r: string)
    ensures '\n' !in r && '\r' !in r
  {
    if s == [] then [] else EscapeChar(s[0]) + EscapeText(s[1..])
  }

  /** escapeMarkdown: null becomes the empty string, anything else is escaped. */
  function EscapeMarkdown(text: Option<string>): (r: string)
    ensures '\n' !in r && '\r' !in r
    ensures text.None? ==> r == ""
  {
    if text.None? then "" else EscapeText(text.value)
  }

  /** Escaping works character by character, so it distributes over concatenation. */
  lemma {:induction false} EscapeTextConcat(a: string, b: string)
    ensures EscapeText(a + b) == EscapeText(a) + EscapeText(b)
    decreases |a|
  {
    if a == [] {
      assert a + b == b;
    } else {
      assert (a + b)[0] == a[0] && (a + b)[1..] == a[1..] + b;
      EscapeTextConcat(a[1..], b);
    }
  }

  /** escapeMarkdown as written: three global replacements, of `|`, then of line feeds, then of
      carriage returns. */
  function ReplacePasses(s: string): string
  {
    ReplaceChar(ReplaceChar(ReplaceChar(s, '|', "\\|"), '\n', " "), '\r', "")
  }

  /** The three passes, applied to a single character. */
  lemma EscapeCharPasses(c: char)
    ensures ReplacePasses([c]) == EscapeChar(c)
  {
    assert [c][1..] == [];
    var p1 := ReplaceChar([c], '|', "\\|");
    assert ReplaceChar([], '|', "\\|") == [];
    if c == '|' {
      assert p1 == "\\|";
      ReplaceCharAbsent(p1, '\n', " ");
      ReplaceCharAbsent(p1, '\r', "");
    } else if c == '\n' {
      assert p1 == [c];
      assert ReplaceChar(p1, '\n', " ") == " ";
      ReplaceCharAbsent(" ", '\r', "");
    } else {
      assert p1 == [c];
      ReplaceCharAbsent(p1, '\n', " ");
      assert ReplaceChar([], '\r', "") == [];
      assert ReplaceChar([c], '\r', "") == (if c == '\r' then "" else [c]);
    }
  }

  /** The three passes escape each character on its own: they agree with escaping character by character. */
  lemma {:induction false} EscapeMarkdownPasses(s: string)
    ensures EscapeMarkdown(Some(s)) == ReplacePasses(s)
  {
    if s != [] {
      var c, rest := s[0], s[1..];
      assert s == [c] + rest;
      ReplaceCharConcat([c], rest, '|', "\\|");
      var p1, q1 := ReplaceChar([c], '|', "\\|"), ReplaceChar(rest, '|', "\\|");
      ReplaceCharConcat(p1, q1, '\n', " ");
      var p2, q2 := ReplaceChar(p1, '\n', " "), ReplaceChar(q1, '\n', " ");
      ReplaceCharConcat(p2, q2, '\r', "");
      EscapeMarkdownPasses(rest);
      EscapeCharPasses(c);
    }
  }

  /** Every `|` of the text is preceded by a backslash. */
  predicate PipesEscaped(s: string)
  {
    forall i :: 0 <= i < |s| && s[i] == '|' ==> 0 < i && s[i - 1] == '\\'
  }

  /** Escaped text has every pipe escaped, so a table cell cannot end early on it. */
  lemma {:induction false} EscapedPipes(s: string)
    ensures PipesEscaped(EscapeText(s))
  {
    if s != [] {
      EscapedPipes(s[1..]);
      var e, rest := EscapeChar(s[0]), EscapeText(s[1..]);
      var t := e + rest;
      forall i | 0 <= i < |t| && t[i] == '|' ensures 0 < i && t[i - 1] == '\\' {
        if i < |e| {
          assert e == "\\|" && i == 1;
        } else {
          assert rest[i - |e|] == '|';
        }
      }
    }
  }

  /** A character escaping leaves as it is. */
  predicate PlainChar(ch: char)
  {
    ch != '|' && ch != '\n' && ch != '\r'
  }

  lemma {:induction false} EscapePlain(s: string)
    requires forall k :: 0 <= k < |s| ==> PlainChar(s[k])
    ensures EscapeText(s) == s
  {
    if s != [] {
      assert forall k :: 0 <= k < |s| - 1 ==> s[1..][k] == s[k + 1];
      EscapePlain(s[1..]);
      assert [s[0]] + s[1..] == s;
    }
  }

  /** Text without pipes or line breaks is left as it is. */
  lemma EscapeClean(s: string)
    requires '|' !in s && '\n' !in s && '\r' !in s
    ensures EscapeMarkdown(Some(s)) == s
  {
    forall k | 0 <= k < |s| ensures PlainChar(s[k]) {
      assert s[k] in s;
    }
    EscapePlain(s);
  }

  const AddedMarker: string := "\U{1F195}"
  const UpdatedMarker: string := "\U{1F504}"
  const RemovedMarker: string := "\U{1F5D1}\U{FE0F}"
  const UnknownMarker: string := "\U{2753}"

  /** getChangeEmoji, on the change type's wire name. */
  function ChangeEmoji(changeType: string): string
  {
    if changeType == "added" then AddedMarker
    else if changeType == "updated" then UpdatedMarker
    else if changeType == "removed" then RemovedMarker
    else UnknownMarker
  }

  /** The three change types get three different markers, none of them the fallback. */
  lemma ChangeEmojiDistinct()
    ensures ChangeEmoji(ChangeTypeName(Added)) == AddedMarker
    ensures ChangeEmoji(ChangeTypeName(Updated)) == UpdatedMarker
    ensures ChangeEmoji(ChangeTypeName(Removed)) == RemovedMarker
    ensures |{AddedMarker, UpdatedMarker, RemovedMarker, UnknownMarker}| == 4
  {
    assert AddedMarker[0] != UpdatedMarker[0];
  }

  // ---------------------------------------------------------------------------
  // review issue: the diff table
  // ---------------------------------------------------------------------------

  const TableHeaderLine: string := "| 変更 | OSS名 | バージョン | ライセンス |"
  const TableSeparatorLine: string := "|------|-------|-----------|----------|"
  const VersionArrow: string := " → "

  /** The name cell: `group:name` when the escaped group is non-empty, else the name. */
  function NameCell(c: Component): string
  {
    var componentName := EscapeMarkdown(Some(c.name));
    var group := if Truthy(c.group) then EscapeMarkdown(c.group) else "";
    if group != "" then group + ":" + componentName else componentName
  }

  /** The version cell: `prev → cur` for an update with a non-empty previous version. */
  function VersionCell(d: ComponentDiff): string
  {
    var current := EscapeMarkdown(Some(d.component.version));
    if d.changeType == Updated && Truthy(d.previousVersion) then EscapeMarkdown(d.previousVersion) + VersionArrow + current
    else current
  }

  /** One table row, `| marker | name | version | license |`, without its line feed. */
  function TableRowLine(d: ComponentDiff): string
  {
    Row([ChangeEmoji(ChangeTypeName(d.changeType)), NameCell(d.component), VersionCell(d), EscapeMarkdown(Some(LicenseId(d.component)))])
  }

  lemma ChangeEmojiNoLineFeed(changeType: string)
    ensures '\n' !in ChangeEmoji(changeType)
  {
  }

  lemma TableRowLineNoLineFeed(d: ComponentDiff)
    ensures '\n' !in TableRowLine(d)
  {
    ChangeEmojiNoLineFeed(ChangeTypeName(d.changeType));
    var cells := [ChangeEmoji(ChangeTypeName(d.changeType)), NameCell(d.component), VersionCell(d), EscapeMarkdown(Some(LicenseId(d.component)))];
    assert NoLineFeeds(cells);
    RowNoLineFeed(cells);
  }

  function TableRowLines(diffs: seq<ComponentDiff>): seq<string>
  {
    Map(diffs, TableRowLine)
  }

  /** The table: an empty line, the header, the separator and one row per diff, each ended by a line feed. */
  function TableMarkdown(diffs: seq<ComponentDiff>): string
  {
    LinesText(["", TableHeaderLine, TableSeparatorLine] + TableRowLines(diffs))
  }

  /** Read back line by line, the table is the header, the separator and exactly one row per diff, in order. */
  lemma TableLines(diffs: seq<ComponentDiff>)
    ensures Split(TableMarkdown(diffs), "\n") == ["", TableHeaderLine, TableSeparatorLine] + TableRowLines(diffs) + [""]
  {
    var lines := ["", TableHeaderLine, TableSeparatorLine] + TableRowLines(diffs);
    assert '\n' !in TableHeaderLine && '\n' !in TableSeparatorLine;
    forall k | 0 <= k < |diffs| ensures '\n' !in TableRowLines(diffs)[k] {
      TableRowLineNoLineFeed(diffs[k]);
    }
    assert NoLineFeeds(lines);
    SplitLines(lines, "");
    assert LinesText(lines) + "" == LinesText(lines);
    SplitFree("", "\n");
  }

  // ---------------------------------------------------------------------------
  // review issue: the form
  // ---------------------------------------------------------------------------

  datatype CheckboxOption = CheckboxOption(optionLabel: string, required: bool)

  /** The body items of an issue form. A dropdown's `options` are called `choices` here, since a
      checkbox group's options are records. Every field but a Markdown block has an id. */
  datatype BodyItem =
    | Markdown(value: string)
    | Checkboxes(id: string, fieldLabel: string, description: Option<string>, options: seq<CheckboxOption>)
    | Input(id: string, fieldLabel: string, description: Option<string>, placeholder: string, required: bool)
    | Dropdown(id: string, fieldLabel: string, description: Option<string>, choices: seq<string>, required: bool)

  datatype IssueForm = IssueForm(name: string, description: string, title: string, labels: seq<string>, body: seq<BodyItem>)

  const DiffHeaderItem: BodyItem :=
    Markdown("## \U{1F50D} 差分一覧とガイドライン\n\n前回リリースとの差分が検出されました。以下の内容を確認してください。")

  const CommonChecksItem: BodyItem :=
    Checkboxes("common-checks", "共通チェック事項", None, [
      CheckboxOption("すべての新規OSSについて、ライセンス種別に誤りがないことを確認した", true),
      CheckboxOption("意図しないバージョンアップが含まれていないことを確認した", true)])

  /** The label of a guideline checkbox's only option. */
  const DoneLabel: string := "対応済み"

  const ApprovalRequestLabel: string := "管理者に承認を依頼する"

  const ApprovalRequestItem: BodyItem :=
    Checkboxes("approval-request", "承認依頼", None, [CheckboxOption(ApprovalRequestLabel, false)])

  function SbomLinkItem(sbomArtifactUrl: string): BodyItem
  {
    Markdown("\n---\n\n\U{1F4E6} [SBOM をダウンロード](" + sbomArtifactUrl + ")")
  }

  /** `guidelinesMap.get(licenseId) || []`. */
  function GuidelinesFor(licenseId: string, guidelinesMap: map<string, seq<Guideline>>): seq<Guideline>
  {
    if licenseId in guidelinesMap then guidelinesMap[licenseId] else []
  }

  /** The section title's component name: `group:name` when the group is non-empty. */
  function SectionName(c: Component): string
  {
    if Truthy(c.group) then c.group.value + ":" + c.name else c.name
  }

  function SectionHeader(c: Component, licenseId: string): BodyItem
  {
    Markdown("\n### " + EscapeMarkdown(Some(SectionName(c))) + " (" + EscapeMarkdown(Some(licenseId)) + ")")
  }

  predicate IsIdChar(ch: char)
  {
    'a' <= ch <= 'z' || 'A' <= ch <= 'Z' || '0' <= ch <= '9'
  }

  /** What `name.replace(/[^a-zA-Z0-9]/g, '-')` makes of one character. Without the `u` flag the
      pattern sees UTF-16 code units, so a character outside the Basic Multilingual Plane, stored
      as a surrogate pair, becomes two dashes. */
  function IdUnits(ch: char): (r: string)
    ensures |r| == CodeUnits(ch)
  {
    if IsIdChar(ch) then [ch] else if ch as int > 0xFFFF then "--" else "-"
  }

  /** `name.replace(/[^a-zA-Z0-9]/g, '-')`: one character per UTF-16 code unit of the name, each a
      letter, a digit or a dash. */
  function IdPrefix(name: string): (r: string)
    ensures |r| == CodeUnitLength(name)
    ensures forall k :: 0 <= k < |r| ==> IsIdChar(r[k]) || r[k] == '-'
  {
    if name == [] then [] else IdUnits(name[0]) + IdPrefix(name[1..])
  }

  /** Replacing distributes over concatenation of names. */
  lemma {:induction false} IdPrefixConcat(a: string, b: string)
    ensures IdPrefix(a + b) == IdPrefix(a) + IdPrefix(b)
  {
    if a != [] {
      assert (a + b)[0] == a[0] && (a + b)[1..] == a[1..] + b;
      IdPrefixConcat(a[1..], b);
      SeqAppendAssociative(IdUnits(a[0]), IdPrefix(a[1..]), IdPrefix(b));
    } else {
      assert a + b == b;
    }
  }

  /** A name within the Basic Multilingual Plane keeps its length: each letter or digit stays and
      every other character becomes one dash. */
  lemma {:induction false} IdPrefixBmp(name: string)
    requires forall k :: 0 <= k < |name| ==> name[k] as int <= 0xFFFF
    ensures |IdPrefix(name)| == |name|
    ensures forall k :: 0 <= k < |name| ==> IdPrefix(name)[k] == if IsIdChar(name[k]) then name[k] else '-'
  {
    if name != [] {
      var rest := name[1..];
      assert forall k :: 0 <= k < |rest| ==> rest[k] == name[k + 1];
      IdPrefixBmp(rest);
      assert IdPrefix(name) == IdUnits(name[0]) + IdPrefix(rest);
    }
  }

  /** A supplementary-plane character gives two dashes: the field ids of `a😀` start `a---`. */
  lemma SurrogatePairTwoDashes()
    ensures IdPrefix("a\U{1F600}") == "a--"
    ensures FieldId("a\U{1F600}", 0) == "a---0"
  {
    var name := "a\U{1F600}";
    assert name[1..] == "\U{1F600}" && name[1..][1..] == [];
    assert IdPrefix(name) == IdUnits('a') + (IdUnits('\U{1F600}') + IdPrefix([]));
  }

  /** The id of the `index`-th guideline field of a component. */
  function FieldId(name: string, index: nat): string
  {
    IdPrefix(name) + "-" + NatToString(index)
  }

  /** Within one component, different guideline positions give different field ids. */
  lemma FieldIdInjective(name: string, i: nat, j: nat)
    requires FieldId(name, i) == FieldId(name, j)
    ensures i == j
  {
    var p := IdPrefix(name) + "-";
    assert FieldId(name, i)[|p|..] == NatToString(i);
    assert FieldId(name, j)[|p|..] == NatToString(j);
    NatToStringInjective(i, j);
  }

  /** Field ids can collide across components: `a.b` and `a-b` share their first field id. */
  lemma FieldIdsCollideAcrossComponents()
    ensures FieldId("a.b", 0) == FieldId("a-b", 0)
  {
    assert IdPrefix("a.b") == "a-b" == IdPrefix("a-b");
  }

  /** The field a guideline asks for: a checkbox, a text input, or a dropdown of its options;
      a `select` without options, or any other input type, asks for nothing. */
  function GuidelineField(g: Guideline, id: string): (items: seq<BodyItem>)
    ensures |items| <= 1
    ensures items != [] ==>
      !items[0].Markdown? && items[0].id == id && items[0].fieldLabel == g.fieldLabel && items[0].description == Some(g.message)
    ensures items == [] <==> !(g.inputType == "checkbox" || g.inputType == "text" || (g.inputType == "select" && g.options.Some?))
  {
    if g.inputType == "checkbox" then
      [Checkboxes(id, g.fieldLabel, Some(g.message), [CheckboxOption(DoneLabel, false)])]
    else if g.inputType == "text" then
      [Input(id, g.fieldLabel, Some(g.message), "対応内容を記入してください", true)]
    else if g.inputType == "select" && g.options.Some? then
      [Dropdown(id, g.fieldLabel, Some(g.message), g.options.value, true)]
    else []
  }

  /** The fields of a component's guidelines, the `i`-th guideline's field with id `name-i`. */
  function GuidelineFields(name: string, guidelines: seq<Guideline>): (items: seq<BodyItem>)
    ensures |items| <= |guidelines|
  {
    if guidelines == [] then []
    else
      var n := |guidelines| - 1;
      GuidelineFields(name, guidelines[..n]) + GuidelineField(guidelines[n], FieldId(name, n))
  }

  /** Every item is a field whose id is that of a guideline position below `n`. */
  predicate IdsBelow(items: seq<BodyItem>, name: string, n: nat)
  {
    forall k :: 0 <= k < |items| ==> !items[k].Markdown? && exists i :: 0 <= i < n && items[k].id == FieldId(name, i)
  }

  /** Every field of a component carries the id of one of its guideline positions. */
  lemma {:induction false} GuidelineFieldIdsBelow(name: string, guidelines: seq<Guideline>)
    ensures IdsBelow(GuidelineFields(name, guidelines), name, |guidelines|)
  {
    if guidelines != [] {
      var n := |guidelines| - 1;
      var front := GuidelineFields(name, guidelines[..n]);
      var last := GuidelineField(guidelines[n], FieldId(name, n));
      GuidelineFieldIdsBelow(name, guidelines[..n]);
      var items := front + last;
      forall k | 0 <= k < |items|
        ensures !items[k].Markdown? && exists i :: 0 <= i < n + 1 && items[k].id == FieldId(name, i)
      {
        if k < |front| {
          assert items[k] == front[k];
          var i :| 0 <= i < n && front[k].id == FieldId(name, i);
        } else {
          assert items[k] == last[0];
        }
      }
    }
  }

  /** No two fields of a component share an id. */
  lemma {:induction false} GuidelineFieldIdsDistinct(name: string, guidelines: seq<Guideline>)
    ensures var items := GuidelineFields(name, guidelines);
      IdsBelow(items, name, |guidelines|) && forall k, l :: 0 <= k < l < |items| ==> items[k].id != items[l].id
  {
    GuidelineFieldIdsBelow(name, guidelines);
    if guidelines != [] {
      var n := |guidelines| - 1;
      var front := GuidelineFields(name, guidelines[..n]);
      var last := GuidelineField(guidelines[n], FieldId(name, n));
      GuidelineFieldIdsDistinct(name, guidelines[..n]);
      GuidelineFieldIdsBelow(name, guidelines[..n]);
      var items := front + last;
      forall k, l | 0 <= k < l < |items| ensures items[k].id != items[l].id {
        if l < |front| {
          assert items[k] == front[k] && items[l] == front[l];
        } else {
          assert items[l] == last[0] && items[k] == front[k];
          var i :| 0 <= i < n && front[k].id == FieldId(name, i);
          if FieldId(name, i) == FieldId(name, n) {
            FieldIdInjective(name, i, n);
          }
        }
      }
    }
  }

  /** The section of one diff: nothing when its license has no guidelines, else a title and the fields. */
  function ComponentSection(d: ComponentDiff, guidelinesMap: map<string, seq<Guideline>>): (items: seq<BodyItem>)
    ensures items == [] <==> GuidelinesFor(LicenseId(d.component), guidelinesMap) == []
  {
    var licenseId := LicenseId(d.component);
    var guidelines := GuidelinesFor(licenseId, guidelinesMap);
    if |guidelines| == 0 then [] else [SectionHeader(d.component, licenseId)] + GuidelineFields(d.component.name, guidelines)
  }

  /** The sections of all diffs, in diff order. */
  function Sections(diffs: seq<ComponentDiff>, guidelinesMap: map<string, seq<Guideline>>): seq<BodyItem>
  {
    FlatMap(diffs, (d: ComponentDiff) => ComponentSection(d, guidelinesMap))
  }

  /** The sections follow the diffs: splitting the diffs splits the sections. */
  lemma SectionsAppend(a: seq<ComponentDiff>, b: seq<ComponentDiff>, guidelinesMap: map<string, seq<Guideline>>)
    ensures Sections(a + b, guidelinesMap) == Sections(a, guidelinesMap) + Sections(b, guidelinesMap)
  {
    FlatMapAppend(a, b, (d: ComponentDiff) => ComponentSection(d, guidelinesMap));
  }

  /** Sections appear exactly when some diff's license has a non-empty guideline list. */
  lemma SectionsPresent(diffs: seq<ComponentDiff>, guidelinesMap: map<string, seq<Guideline>>)
    ensures Sections(diffs, guidelinesMap) == [] <==>
      forall k :: 0 <= k < |diffs| ==> GuidelinesFor(LicenseId(diffs[k].component), guidelinesMap) == []
  {
    FlatMapEmpty(diffs, (d: ComponentDiff) => ComponentSection(d, guidelinesMap));
  }




  /** The whole body: the diff header, the table, the common checks, the sections, the SBOM link
      and the approval request. */
  function ReviewBody(diffs: seq<ComponentDiff>, guidelinesMap: map<string, seq<Guideline>>, sbomArtifactUrl: string): seq<BodyItem>
  {
    [DiffHeaderItem, Markdown(TableMarkdown(diffs)), CommonChecksItem] + Sections(diffs, guidelinesMap)
    + [SbomLinkItem(sbomArtifactUrl), ApprovalRequestItem]
  }

  function ReviewIssueForm(version: string, diffs: seq<ComponentDiff>, guidelinesMap: map<string, seq<Guideline>>, sbomArtifactUrl: string): IssueForm
  {
    IssueForm("OSS利用見直しタスク", "リリース前のOSS利用見直し", "[Review] OSS利用見直し " + version, ["oss-review"],
              ReviewBody(diffs, guidelinesMap, sbomArtifactUrl))
  }

  /** The table text before any row is added. */
  lemma TableStart()
    ensures "\n" + TableHeaderLine + "\n" + TableSeparatorLine + "\n" == TableMarkdown([])
  {
    var lines := ["", TableHeaderLine, TableSeparatorLine];
    assert lines + TableRowLines([]) == lines;
    assert lines[1..] == [TableHeaderLine, TableSeparatorLine] && lines[1..][1..] == [TableSeparatorLine];
    assert LinesText([TableSeparatorLine]) == TableSeparatorLine + "\n" + [];
    assert LinesText(lines[1..]) == TableHeaderLine + "\n" + (TableSeparatorLine + "\n");
  }

  /** Adding a diff adds its row, with its line feed, to the end of the table. */
  lemma TableStep(diffs: seq<ComponentDiff>, i: nat)
    requires i < |diffs|
    ensures TableMarkdown(diffs[..i + 1]) == TableMarkdown(diffs[..i]) + TableRowLine(diffs[i]) + "\n"
  {
    LinesTextMapStep(["", TableHeaderLine, TableSeparatorLine], diffs, i, TableRowLine);
  }

  lemma FieldsStep(name: string, guidelines: seq<Guideline>, j: nat)
    requires j < |guidelines|
    ensures GuidelineFields(name, guidelines[..j + 1]) == GuidelineFields(name, guidelines[..j]) + GuidelineField(guidelines[j], FieldId(name, j))
  {
    assert guidelines[..j + 1][..j] == guidelines[..j];
  }

  /** generateReviewIssueForm, up to the YAML dump: the table and the body are built in loops. */
  method GenerateReviewIssueForm(version: string, diffs: seq<ComponentDiff>, guidelinesMap: map<string, seq<Guideline>>, sbomArtifactUrl: string)
    returns (form: IssueForm)
    ensures form == ReviewIssueForm(version, diffs, guidelinesMap, sbomArtifactUrl)
  {
    var body := [DiffHeaderItem];
    var table := BuildTable(diffs);
    body := body + [Markdown(table), CommonChecksItem];
    assert body == [DiffHeaderItem, Markdown(TableMarkdown(diffs)), CommonChecksItem];

    ghost var fixed := body;
    for i := 0 to |diffs|
      invariant body == fixed + Sections(diffs[..i], guidelinesMap)
    {
      var section := BuildSection(diffs[i], guidelinesMap);
      FlatMapStep(diffs, i, (d: ComponentDiff) => ComponentSection(d, guidelinesMap));
      SeqAppendAssociative(fixed, Sections(diffs[..i], guidelinesMap), section);
      body := body + section;
    }
    assert diffs[..|diffs|] == diffs;

    body := body + [SbomLinkItem(sbomArtifactUrl), ApprovalRequestItem];
    assert body == ReviewBody(diffs, guidelinesMap, sbomArtifactUrl);
    form := IssueForm("OSS利用見直しタスク", "リリース前のOSS利用見直し", "[Review] OSS利用見直し " + version, ["oss-review"], body);
  }

  /** The diff table, one row appended per diff. */
  method BuildTable(diffs: seq<ComponentDiff>) returns (table: string)
    ensures table == TableMarkdown(diffs)
  {
    table := "\n" + TableHeaderLine + "\n" + TableSeparatorLine + "\n";
    TableStart();
    for i := 0 to |diffs|
      invariant table == TableMarkdown(diffs[..i])
    {
      TableStep(diffs, i);
      table := table + TableRowLine(diffs[i]) + "\n";
    }
    assert diffs[..|diffs|] == diffs;
  }

  /** The section of one diff, one field appended per guideline of its license. */
  method BuildSection(diff: ComponentDiff, guidelinesMap: map<string, seq<Guideline>>) returns (section: seq<BodyItem>)
    ensures section == ComponentSection(diff, guidelinesMap)
  {
    var licenseId := LicenseId(diff.component);
    var guidelines := GuidelinesFor(licenseId, guidelinesMap);
    section := [];
    if |guidelines| > 0 {
      var name := diff.component.name;
      section := [SectionHeader(diff.component, licenseId)];
      for j := 0 to |guidelines|
        invariant section == [SectionHeader(diff.component, licenseId)] + GuidelineFields(name, guidelines[..j])
      {
        var field := GuidelineField(guidelines[j], FieldId(name, j));
        FieldsStep(name, guidelines, j);
        SeqAppendAssociative([SectionHeader(diff.component, licenseId)], GuidelineFields(name, guidelines[..j]), field);
        section := section + field;
      }
      assert guidelines[..|guidelines|] == guidelines;
    }
  }

  /** The fixed blocks are always there, even without diffs, and the approval request comes last. */
  lemma ReviewFormFixedBlocks(version: string, diffs: seq<ComponentDiff>, guidelinesMap: map<string, seq<Guideline>>, sbomArtifactUrl: string)
    ensures var body := ReviewIssueForm(version, diffs, guidelinesMap, sbomArtifactUrl).body;
      && |body| == 5 + |Sections(diffs, guidelinesMap)|
      && body[0] == DiffHeaderItem && body[1] == Markdown(TableMarkdown(diffs)) && body[2] == CommonChecksItem
      && body[|body| - 2] == SbomLinkItem(sbomArtifactUrl) && body[|body| - 1] == ApprovalRequestItem
      && body[3..|body| - 2] == Sections(diffs, guidelinesMap)
  {
  }

  /** With no diffs, the form is exactly the fixed blocks around an empty table. */
  lemma ReviewFormWithoutDiffs(version: string, guidelinesMap: map<string, seq<Guideline>>, sbomArtifactUrl: string)
    ensures ReviewIssueForm(version, [], guidelinesMap, sbomArtifactUrl).body
      == [DiffHeaderItem, Markdown(TableMarkdown([])), CommonChecksItem, SbomLinkItem(sbomArtifactUrl), ApprovalRequestItem]
  {
  }

  // ---------------------------------------------------------------------------
  // approval issue
  // ---------------------------------------------------------------------------

  const ApprovalLabel: string := "上記の内容を確認し、Dependency-Trackへの登録を承認します"

  /** The approval checkbox line, unchecked. */
  const ApprovalCheckboxLine: string := "- [ ] " + ApprovalLabel

  function ApprovalPreamble(version: string): string
  {
    "## \U{2705} OSS利用承認タスク\n\n"
    + "リリースバージョン: **" + version + "**\n\n"
    + "見直し担当者による確認が完了しました。以下の内容を確認し、承認してください。\n\n"
    + "### 見直し結果一覧\n\n"
    + "| OSS名 | バージョン | ライセンス | 対応状況 |\n"
    + "|-------|-----------|-----------|----------|\n"
  }

  const DetailsHeading: string := "\n### 詳細な見直し結果\n\n"

  function ApprovalFooter(sbomArtifactUrl: string, reviewResultsArtifactUrl: string): string
  {
    "---\n\n"
    + "\U{1F4E6} [SBOM をダウンロード](" + sbomArtifactUrl + ")\n\n"
    + "\U{1F4C4} [見直し結果JSON をダウンロード](" + reviewResultsArtifactUrl + ")\n\n"
    + "### 承認\n\n"
    + ApprovalCheckboxLine + "\n"
  }

  /** The summary of a result's actions. */
  function ActionSummary(count: nat): (r: string)
    ensures r == "対応なし" <==> count == 0
  {
    if count > 0 then NatToString(count) + "件の対応" else "対応なし"
  }

  /** The summary table's name cell: each part escaped, `group:name` when the group is non-empty. */
  function SummaryNameCell(c: ComponentRef): string
  {
    if Truthy(c.group) then EscapeMarkdown(c.group) + ":" + EscapeMarkdown(Some(c.name)) else EscapeMarkdown(Some(c.name))
  }

  /** One summary row, `| name | version | license | summary |`, without its line feed. */
  function SummaryLine(r: ComponentReviewResult): string
  {
    Row([SummaryNameCell(r.component), EscapeMarkdown(Some(r.component.version)), EscapeMarkdown(Some(r.license)), ActionSummary(|r.actions|)])
  }

  lemma SummaryLineNoLineFeed(r: ComponentReviewResult)
    ensures '\n' !in SummaryLine(r)
  {
    var cells := [SummaryNameCell(r.component), EscapeMarkdown(Some(r.component.version)), EscapeMarkdown(Some(r.license)), ActionSummary(|r.actions|)];
    assert '\n' !in ActionSummary(|r.actions|);
    assert NoLineFeeds(cells);
    RowNoLineFeed(cells);
  }

  function SummaryLines(results: seq<ComponentReviewResult>): seq<string>
  {
    Map(results, SummaryLine)
  }

  /** The summary table has exactly one row per result, in order. */
  lemma SummaryRows(results: seq<ComponentReviewResult>)
    ensures Split(LinesText(SummaryLines(results)), "\n") == SummaryLines(results) + [""]
  {
    forall k | 0 <= k < |results| ensures '\n' !in SummaryLines(results)[k] {
      SummaryLineNoLineFeed(results[k]);
    }
    SplitLines(SummaryLines(results), "");
    assert LinesText(SummaryLines(results)) + "" == LinesText(SummaryLines(results));
    SplitFree("", "\n");
  }

  /** The detail heading's component name: `group:name` when the group is non-empty, escaped as a whole. */
  function DetailName(c: ComponentRef): string
  {
    if Truthy(c.group) then c.group.value + ":" + c.name else c.name
  }

  function ActionLine(action: (string, string)): (line: string)
    ensures '\n' !in line
  {
    "- **" + EscapeMarkdown(Some(action.0)) + "**: " + EscapeMarkdown(Some(action.1))
  }

  function ActionLines(actions: Actions): seq<string>
  {
    Map(actions, ActionLine)
  }

  /** A result's detail heading and the empty line after it. */
  function DetailHeading(r: ComponentReviewResult): string
  {
    "#### " + EscapeMarkdown(Some(DetailName(r.component))) + " (" + EscapeMarkdown(Some(r.license)) + ")\n\n"
  }

  /** A result's detail block: its heading, then `対応事項なし` or one line per action. */
  function DetailBlock(r: ComponentReviewResult): string
  {
    DetailHeading(r) + (if |r.actions| == 0 then "対応事項なし\n\n" else LinesText(ActionLines(r.actions)) + "\n")
  }

  /** A block with actions lists exactly one line per action, in order. */
  lemma ActionBlockLines(actions: Actions)
    requires |actions| > 0
    ensures Split(LinesText(ActionLines(actions)) + "\n", "\n") == ActionLines(actions) + ["", ""]
  {
    SplitLines(ActionLines(actions), "\n");
    SplitInTwo("", "\n", "");
    assert "" + "\n" + "" == "\n";
  }

  /** The detail blocks of the results, in order. */
  function Details(results: seq<ComponentReviewResult>): string
  {
    FlatMap(results, DetailBlock)
  }

  /** The detail blocks follow the results: splitting the results splits the blocks. */
  lemma DetailsAppend(a: seq<ComponentReviewResult>, b: seq<ComponentReviewResult>)
    ensures Details(a + b) == Details(a) + Details(b)
  {
    FlatMapAppend(a, b, DetailBlock);
  }

  function ApprovalMarkdown(version: string, results: seq<ComponentReviewResult>, sbomArtifactUrl: string, reviewResultsArtifactUrl: string): string
  {
    ApprovalPreamble(version) + LinesText(SummaryLines(results)) + DetailsHeading + Details(results)
    + ApprovalFooter(sbomArtifactUrl, reviewResultsArtifactUrl)
  }

  /** generateApprovalIssue: the summary rows, then the detail blocks, appended in loops. */
  method GenerateApprovalIssue(version: string, reviewResults: seq<ComponentReviewResult>, sbomArtifactUrl: string, reviewResultsArtifactUrl: string)
    returns (markdown: string)
    ensures markdown == ApprovalMarkdown(version, reviewResults, sbomArtifactUrl, reviewResultsArtifactUrl)
  {
    markdown := ApprovalPreamble(version);
    ghost var preamble := markdown;
    for i := 0 to |reviewResults|
      invariant markdown == preamble + LinesText(SummaryLines(reviewResults[..i]))
    {
      var line := SummaryLine(reviewResults[i]);
      AppendMappedLine(preamble, reviewResults, i, SummaryLine);
      markdown := markdown + line + "\n";
    }
    assert reviewResults[..|reviewResults|] == reviewResults;
    markdown := markdown + DetailsHeading;

    ghost var head := markdown;
    for i := 0 to |reviewResults|
      invariant markdown == head + Details(reviewResults[..i])
    {
      var block := AppendDetailBlock(reviewResults[i]);
      FlatMapStep(reviewResults, i, DetailBlock);
      SeqAppendAssociative(head, Details(reviewResults[..i]), block);
      markdown := markdown + block;
    }
    assert reviewResults[..|reviewResults|] == reviewResults;

    markdown := markdown + ApprovalFooter(sbomArtifactUrl, reviewResultsArtifactUrl);
  }

  /** One detail block, its action lines appended in a loop. */
  method AppendDetailBlock(result: ComponentReviewResult) returns (block: string)
    ensures block == DetailBlock(result)
  {
    block := "#### " + EscapeMarkdown(Some(DetailName(result.component))) + " (" + EscapeMarkdown(Some(result.license)) + ")\n\n";
    ghost var heading := block;
    if |result.actions| == 0 {
      block := block + "対応事項なし\n\n";
    } else {
      for k := 0 to |result.actions|
        invariant block == heading + LinesText(ActionLines(result.actions[..k]))
      {
        var line := ActionLine(result.actions[k]);
        AppendMappedLine(heading, result.actions, k, ActionLine);
        block := block + line + "\n";
      }
      assert result.actions[..|result.actions|] == result.actions;
      SeqAppendAssociative(heading, LinesText(ActionLines(result.actions)), "\n");
      block := block + "\n";
    }
  }

  /** The last two lines of the approval issue: an empty line, then the unchecked approval checkbox. */
  const ApprovalTail: string := "\n" + ApprovalCheckboxLine + "\n"

  lemma FooterEndsUnchecked(sbomArtifactUrl: string, reviewResultsArtifactUrl: string)
    ensures EndsWith(ApprovalFooter(sbomArtifactUrl, reviewResultsArtifactUrl), ApprovalTail)
  {
    var links := "---\n\n" + "\U{1F4E6} [SBOM をダウンロード](" + sbomArtifactUrl + ")\n\n"
      + "\U{1F4C4} [見直し結果JSON をダウンロード](" + reviewResultsArtifactUrl + ")\n\n";
    assert "### 承認\n\n" == "### 承認\n" + "\n";
    assert ApprovalFooter(sbomArtifactUrl, reviewResultsArtifactUrl) == links + "### 承認\n" + ApprovalTail;
    assert EndsWith(ApprovalTail, ApprovalTail);
    EndsWithConcat(links + "### 承認\n", ApprovalTail, ApprovalTail);
  }

  /** The approval issue ends with the unchecked approval checkbox on a line of its own. */
  lemma ApprovalEndsUnchecked(version: string, results: seq<ComponentReviewResult>, sbomArtifactUrl: string, reviewResultsArtifactUrl: string)
    ensures EndsWith(ApprovalMarkdown(version, results, sbomArtifactUrl, reviewResultsArtifactUrl), ApprovalTail)
  {
    FooterEndsUnchecked(sbomArtifactUrl, reviewResultsArtifactUrl);
    EndsWithConcat(ApprovalPreamble(version) + LinesText(SummaryLines(results)) + DetailsHeading + Details(results),
                   ApprovalFooter(sbomArtifactUrl, reviewResultsArtifactUrl), ApprovalTail);
  }
}

=== FILE: issue_parser.dfy ===
/**
 * Reading a review or approval issue back into data (scripts/issue-parser.ts): the diff
 * table, the per-component guideline sections, and checkbox states.
 *
 * The source uses regular expressions; each one is modelled here by a scanner that
 * follows the expression's own search order (first start position, greedy `\s*` that
 * gives characters back only when the rest fails, lazy `*?` that stops at the first
 * position where the lookahead holds).
 */
module IssueParser {

  import opened Types
  import opened Text

  // ---------------------------------------------------------------------------
  // escapeRegex
  // ---------------------------------------------------------------------------

  /** The characters `escapeRegex` puts a backslash in front of. */
  predicate IsRegexSpecial(c: char)
  {
    c in ".*+?^${}()|[]\\"
  }

  /** `escapeRegex`: a backslash before every special character, everything else kept. */
  function EscapeRegex(s: string): (r: string)
    ensures |s| <= |r| <= 2 * |s|
  {
    if s == [] then []
    else (if IsRegexSpecial(s[0]) then ['\\', s[0]] else [s[0]]) + EscapeRegex(s[1..])
  }

  /**
   * The one text matched by a pattern made only of ordinary characters and backslash-escaped
   * special characters; `None` for a pattern with an unescaped special character or any
   * other escape, whose meaning is not a plain literal.
   */
  function LiteralPatternText(p: string): (r: Option<string>)
    decreases |p|
  {
    if p == [] then Some([])
    else if p[0] == '\\' then
      if |p| >= 2 && IsRegexSpecial(p[1]) then
        match LiteralPatternText(p[2..])
        case Some(t) => Some([p[1]] + t)
        case None => None
      else None
    else if IsRegexSpecial(p[0]) then None
    else
      match LiteralPatternText(p[1..])
      case Some(t) => Some([p[0]] + t)
      case None => None
  }

  /** The escaped text, used as a pattern, matches exactly the original text. */
  lemma {:induction false} EscapeRegexLiteral(s: string)
    ensures LiteralPatternText(EscapeRegex(s)) == Some(s)
    decreases |s|
  {
    if s != [] {
      var rest := EscapeRegex(s[1..]);
      EscapeRegexLiteral(s[1..]);
      if IsRegexSpecial(s[0]) {
        var p := ['\\', s[0]] + rest;
        assert p[2..] == rest;
      } else {
        var p := [s[0]] + rest;
        assert p[1..] == rest;
      }
      assert [s[0]] + s[1..] == s;
    }
  }

  /** Escaping works character by character. */
  lemma {:induction false} EscapeRegexConcat(a: string, b: string)
    ensures EscapeRegex(a + b) == EscapeRegex(a) + EscapeRegex(b)
    decreases |a|
  {
    if a != [] {
      assert (a + b)[0] == a[0];
      assert (a + b)[1..] == a[1..] + b;
      EscapeRegexConcat(a[1..], b);
    } else {
      assert a + b == b;
    }
  }

  /** A special character gets a backslash in front; any other character stays as it is. */
  lemma EscapeRegexChar(c: char)
    ensures IsRegexSpecial(c) ==> EscapeRegex([c]) == ['\\', c]
    ensures !IsRegexSpecial(c) ==> EscapeRegex([c]) == [c]
  {
    assert [c][1..] == [];
  }

  // ---------------------------------------------------------------------------
  // parseCheckboxState: /^\s*-\s*\[([ xX])\]\s*LABEL\s*$/m
  // ---------------------------------------------------------------------------

  predicate IsCheckMark(c: char)
  {
    c == ' ' || c == 'x' || c == 'X'
  }

  /** `^` in multiline mode: the start of the text or just after a line terminator. */
  predicate LineStart(t: string, p: nat)
    requires p <= |t|
  {
    p == 0 || IsLineTerminator(t[p - 1])
  }

  /** `\s*$` in multiline mode at `k`: whitespace up to a line terminator or the end. */
  predicate LineEndsAfter(t: string, k: nat)
    requires k <= |t|
    decreases |t| - k
  {
    k == |t| || IsLineTerminator(t[k]) || (IsWhitespace(t[k]) && LineEndsAfter(t, k + 1))
  }

  /** `\s*LABEL\s*$` at `j`, with the label after any prefix of the whitespace run. */
  predicate LabelLineAt(t: string, labelText: string, j: nat)
    requires j <= |t|
    decreases |t| - j
  {
    || (OccursAt(t, labelText, j) && LineEndsAfter(t, j + |labelText|))
    || (j < |t| && IsWhitespace(t[j]) && LabelLineAt(t, labelText, j + 1))
  }

  /** The character the checkbox pattern captures when a match starts at `p`, if one does. */
  function CheckboxAt(t: string, labelText: string, p: nat): (r: Option<char>)
    requires p <= |t|
    ensures r.Some? ==> IsCheckMark(r.value)
  {
    var a := SkipWhitespace(t, p);
    if a < |t| && t[a] == '-' then
      var b := SkipWhitespace(t, a + 1);
      if b + 3 <= |t| && t[b] == '[' && IsCheckMark(t[b + 1]) && t[b + 2] == ']'
         && LabelLineAt(t, labelText, b + 3)
      then Some(t[b + 1])
      else None
    else None
  }

  /** The first line start at or after `p` where the checkbox pattern matches. */
  function FirstCheckboxFrom(t: string, labelText: string, p: nat): (r: Option<nat>)
    requires p <= |t|
    ensures r.Some? ==> p <= r.value <= |t| && LineStart(t, r.value) && CheckboxAt(t, labelText, r.value).Some?
    ensures r.Some? ==> forall q :: p <= q < r.value && LineStart(t, q) ==> CheckboxAt(t, labelText, q).None?
    ensures r.None? ==> forall q :: p <= q <= |t| && LineStart(t, q) ==> CheckboxAt(t, labelText, q).None?
    decreases |t| - p
  {
    if LineStart(t, p) && CheckboxAt(t, labelText, p).Some? then Some(p)
    else if p == |t| then None
    else FirstCheckboxFrom(t, labelText, p + 1)
  }

  /** `parseCheckboxState`: the first matching checkbox line decides; no such line means unchecked. */
  predicate ParseCheckboxState(text: string, labelText: string)
  {
    match FirstCheckboxFrom(text, labelText, 0)
    case None => false
    case Some(p) => CheckboxAt(text, labelText, p).value in {'x', 'X'}
  }

  /** A checkbox line of the given label, with its mark. */
  predicate CheckboxLineAt(t: string, labelText: string, p: nat, c: char)
    requires p <= |t|
  {
    LineStart(t, p) && CheckboxAt(t, labelText, p) == Some(c)
  }

  /** Checked exactly when the first checkbox line with the label carries `x` or `X`. */
  lemma ParseCheckboxStateFirst(text: string, labelText: string)
    ensures ParseCheckboxState(text, labelText) <==>
      exists p: nat, c :: p <= |text| && CheckboxLineAt(text, labelText, p, c) && c in {'x', 'X'} &&
        forall q: nat :: q < p && LineStart(text, q) ==> CheckboxAt(text, labelText, q).None?
  {
    var r := FirstCheckboxFrom(text, labelText, 0);
    if r.Some? {
      var p := r.value;
      var c := CheckboxAt(text, labelText, p).value;
      assert CheckboxLineAt(text, labelText, p, c);
      forall p': nat, c' | p' <= |text| && CheckboxLineAt(text, labelText, p', c') &&
        (forall q: nat :: q < p' && LineStart(text, q) ==> CheckboxAt(text, labelText, q).None?)
        ensures p' == p && c' == c
      {
      }
    }
  }

  /** With no checkbox line of the label anywhere, the state is unchecked. */
  lemma NoCheckboxUnchecked(text: string, labelText: string)
    requires forall p: nat :: p <= |text| && LineStart(text, p) ==> CheckboxAt(text, labelText, p).None?
    ensures !ParseCheckboxState(text, labelText)
  {
    var r := FirstCheckboxFrom(text, labelText, 0);
  }

  /** The label after `- [c] ` at the first non-blank position, ending its line. */
  lemma CheckboxFirstLine(pre: string, c: char, labelText: string, post: string)
    requires AllWhitespace(pre) && IsCheckMark(c)
    ensures ParseCheckboxState(pre + "- [" + [c] + "] " + labelText + "\n" + post, labelText) <==> c in {'x', 'X'}
  {
    var m := "- [" + [c] + "] " + labelText + "\n" + post;
    var t := pre + m;
    assert t == pre + "- [" + [c] + "] " + labelText + "\n" + post;
    CheckboxLineParts(c, labelText, post);
    ShiftedParts(pre, m, 6 + |labelText|);
    assert OccursAt(t, labelText, |pre| + 6) by {
      assert t[|pre| + 6..|pre| + 6 + |labelText|] == m[6..6 + |labelText|];
    }
    CheckboxAtParts(t, labelText, 0, |pre|);
    assert FirstCheckboxFrom(t, labelText, 0) == Some(0);
  }

  /** Where the parts of a checkbox line sit. */
  lemma CheckboxLineParts(c: char, labelText: string, post: string)
    ensures var m := "- [" + [c] + "] " + labelText + "\n" + post;
      && |m| > 6 + |labelText|
      && m[0] == '-' && m[1] == ' ' && m[2] == '[' && m[3] == c && m[4] == ']' && m[5] == ' '
      && m[6..6 + |labelText|] == labelText && m[6 + |labelText|] == '\n'
  {
  }

  /** The characters of `m` keep their order after a prefix. */
  lemma ShiftedParts(pre: string, m: string, n: nat)
    requires n < |m|
    ensures forall k :: 0 <= k <= n ==> (pre + m)[|pre| + k] == m[k]
    ensures forall k :: 0 <= k < |pre| ==> (pre + m)[k] == pre[k]
  {
  }

  /** A checkbox line whose parts sit at known positions after whitespace matches from `p`. */
  lemma CheckboxAtParts(t: string, labelText: string, p: nat, a: nat)
    requires p <= a && a + 7 + |labelText| <= |t|
    requires forall k :: p <= k < a ==> IsWhitespace(t[k])
    requires t[a] == '-' && t[a + 1] == ' ' && t[a + 2] == '[' && IsCheckMark(t[a + 3]) && t[a + 4] == ']'
    requires t[a + 5] == ' ' && OccursAt(t, labelText, a + 6) && t[a + 6 + |labelText|] == '\n'
    ensures CheckboxAt(t, labelText, p) == Some(t[a + 3])
  {
    SkipWhitespaceTo(t, p, a);
    SkipWhitespaceTo(t, a + 1, a + 2);
    assert LineEndsAfter(t, a + 6 + |labelText|);
    assert LabelLineAt(t, labelText, a + 6);
    assert LabelLineAt(t, labelText, a + 5);
  }

  /** The whitespace skip from `i` stops at `j` when only whitespace lies between and `t[j]` is not whitespace. */
  lemma {:induction false} SkipWhitespaceTo(t: string, i: nat, j: nat)
    requires i <= j < |t| && !IsWhitespace(t[j])
    requires forall k :: i <= k < j ==> IsWhitespace(t[k])
    ensures SkipWhitespace(t, i) == j
    decreases j - i
  {
    if i < j {
      SkipWhitespaceTo(t, i + 1, j);
    }
  }

  /**
   * When the label occurs in the text only at `at`, right after `] `, every match of the
   * checkbox pattern is that one line's, so it captures the character before the `]`.
   */
  lemma OnlyOccurrenceCapture(t: string, labelText: string, at: nat, p: nat)
    requires 3 <= at <= |t| && t[at - 2] == ']' && t[at - 1] == ' '
    requires forall j :: OccursAt(t, labelText, j) ==> j == at
    requires p <= |t| && CheckboxAt(t, labelText, p).Some?
    ensures CheckboxAt(t, labelText, p) == Some(t[at - 3])
  {
    var a := SkipWhitespace(t, p);
    var b := SkipWhitespace(t, a + 1);
    var j := LabelRunEnd(t, labelText, b + 3);
    assert j == at;
    assert !IsWhitespace(t[at - 2]);
  }

  /** The position after the whitespace prefix at which the label of a matching line starts. */
  lemma {:induction false} LabelRunEnd(t: string, labelText: string, i: nat) returns (j: nat)
    requires i <= |t| && LabelLineAt(t, labelText, i)
    ensures i <= j && OccursAt(t, labelText, j)
    ensures forall k :: i <= k < j ==> IsWhitespace(t[k])
    decreases |t| - i
  {
    if OccursAt(t, labelText, i) && LineEndsAfter(t, i + |labelText|) {
      j := i;
    } else {
      j := LabelRunEnd(t, labelText, i + 1);
    }
  }

  /**
   * A text in which the label occurs once, after `[c] `, reads as checked exactly when `c`
   * is `x` or `X` (and that line is a checkbox line at all).
   */
  lemma OnlyOccurrenceState(t: string, labelText: string, at: nat)
    requires 3 <= at <= |t| && t[at - 2] == ']' && t[at - 1] == ' '
    requires forall j :: OccursAt(t, labelText, j) ==> j == at
    ensures ParseCheckboxState(t, labelText) ==> t[at - 3] in {'x', 'X'}
    ensures t[at - 3] == ' ' ==> !ParseCheckboxState(t, labelText)
  {
    var r := FirstCheckboxFrom(t, labelText, 0);
    if r.Some? {
      OnlyOccurrenceCapture(t, labelText, at, r.value);
    }
  }

  // ---------------------------------------------------------------------------
  // parseComponentFromTable
  // ---------------------------------------------------------------------------

  /** A table row read back; `group` is absent when the name has no group part. */
  datatype ParsedComponent = ParsedComponent(
    group: Option<string>,
    name: string,
    version: string,
    license: string,
    changeType: string)

  /** `.filter((p) => p)`: the non-empty strings, in order. */
  function NonEmptyParts(parts: seq<string>): (r: seq<string>)
    ensures |r| <= |parts|
    ensures forall k :: 0 <= k < |r| ==> r[k] != []
  {
    if parts == [] then []
    else (if parts[0] == [] then [] else [parts[0]]) + NonEmptyParts(parts[1..])
  }

  /** The cells of a row: split at every `|`, trimmed, empty ones dropped. */
  function RowFields(row: string): seq<string>
  {
    NonEmptyParts(Map(Split(row, "|"), Trim))
  }

  /** `group:name` split at the first `:`; an empty group part counts as no group. */
  function SplitFullName(fullName: string): (r: (Option<string>, string))
    ensures r.0.Some? ==> r.0.value != [] && ':' !in r.0.value && r.0.value + ":" + r.1 == fullName
    ensures r.0.None? ==> (':' !in fullName && r.1 == fullName) || ":" + r.1 == fullName
  {
    match IndexOf(fullName, ":")
    case None =>
      assert ':' !in fullName by {
        forall k | 0 <= k < |fullName| ensures fullName[k] != ':' {
          assert !OccursAt(fullName, ":", k);
          assert fullName[k..k + 1] == [fullName[k]];
        }
      }
      (None, fullName)
    case Some(i) =>
      assert fullName[..i] + ":" + fullName[i + 1..] == fullName by {
        assert fullName[i..i + 1] == ":";
      }
      assert ':' !in fullName[..i] by {
        forall k | 0 <= k < i ensures fullName[k] != ':' {
          assert !OccursAt(fullName, ":", k);
          assert fullName[k..k + 1] == [fullName[k]];
        }
      }
      (if i == 0 then None else Some(fullName[..i]), fullName[i + 1..])
  }

  /** The version after the first `→` (trimmed), or the whole cell. */
  function ParseVersion(versionCell: string): string
  {
    match IndexOf(versionCell, "→")
    case None => versionCell
    case Some(i) => Trim(versionCell[i + 1..])
  }

  /** The change type named by the marker the cell contains. */
  function ChangeTypeOf(marker: string): (r: string)
    ensures r in {"added", "updated", "removed", "unknown"}
  {
    if Contains(marker, "\U{1F195}") then "added"
    else if Contains(marker, "\U{1F504}") then "updated"
    else if Contains(marker, "\U{1F5D1}\U{FE0F}") then "removed"
    else "unknown"
  }

  /** `parseComponentFromTable`: `None` for a row with fewer than four non-empty cells. */
  function ParseComponentFromTable(row: string): (r: Option<ParsedComponent>)
    ensures r.None? <==> |RowFields(row)| < 4
    ensures r.Some? ==> r.value.license == RowFields(row)[3] && r.value.license != []
  {
    var parts := RowFields(row);
    if |parts| < 4 then None
    else
      var (group, name) := SplitFullName(parts[1]);
      Some(ParsedComponent(group, name, ParseVersion(parts[2]), parts[3], ChangeTypeOf(parts[0])))
  }

  /** Without a `:` the whole cell is the name; with one, the part before it (if any) is the group. */
  lemma SplitFullNameCases(fullName: string)
    ensures ':' !in fullName ==> SplitFullName(fullName) == (None, fullName)
    ensures forall g, n :: g != [] && ':' !in g && fullName == g + ":" + n ==>
      SplitFullName(fullName) == (Some(g), n)
    ensures forall n :: fullName == ":" + n ==> SplitFullName(fullName) == (None, n)
  {
    if ':' !in fullName {
      NotContainsFirstAbsent(fullName, ":");
    }
    forall g, n | g != [] && ':' !in g && fullName == g + ":" + n
      ensures SplitFullName(fullName) == (Some(g), n)
    {
      IndexOfAfterFree(g, ":", n);
      assert fullName[..|g|] == g;
      assert fullName[|g| + 1..] == n;
    }
    forall n | fullName == ":" + n ensures SplitFullName(fullName) == (None, n) {
      IndexOfAfterFree([], ":", n);
      assert [] + ":" + n == fullName;
      assert fullName[1..] == n;
    }
  }

  /** A cell without `→` is the version itself; otherwise the version follows the first arrow. */
  lemma ParseVersionCases(cell: string)
    ensures '→' !in cell ==> ParseVersion(cell) == cell
    ensures forall a, b :: '→' !in a && cell == a + "→" + b ==> ParseVersion(cell) == Trim(b)
  {
    if '→' !in cell {
      NotContainsFirstAbsent(cell, "→");
    }
    forall a, b | '→' !in a && cell == a + "→" + b
      ensures ParseVersion(cell) == Trim(b)
    {
      IndexOfAfterFree(a, "→", b);
      assert cell[|a| + 1..] == b;
    }
  }

  // ---------------------------------------------------------------------------
  // parseComponentsFromTable
  // ---------------------------------------------------------------------------

  /** The header row names all four columns. */
  predicate IsHeaderLine(line: string)
  {
    Contains(line, "変更") && Contains(line, "OSS名") && Contains(line, "バージョン") && Contains(line, "ライセンス")
  }

  predicate IsSeparatorLine(line: string)
  {
    Contains(line, "---")
  }

  /** A blank line or a heading ends the table. */
  predicate EndsTable(line: string)
  {
    Trim(line) == [] || (line != [] && line[0] == '#')
  }

  /** The rows read from `lines`, given whether the header has been seen. */
  function TableComponents(lines: seq<string>, inTable: bool): seq<ParsedComponent>
  {
    if lines == [] then []
    else
      var line := lines[0];
      if IsHeaderLine(line) then TableComponents(lines[1..], true)
      else if inTable && IsSeparatorLine(line) then TableComponents(lines[1..], inTable)
      else if inTable && EndsTable(line) then []
      else if inTable && Contains(line, "|") then
        (match ParseComponentFromTable(line) case Some(c) => [c] case None => [])
        + TableComponents(lines[1..], inTable)
      else TableComponents(lines[1..], inTable)
  }

  /** The rows of the diff table in an issue body. */
  function TableComponentsOf(issueBody: string): seq<ParsedComponent>
  {
    TableComponents(Split(issueBody, "\n"), false)
  }

  /** `parseComponentsFromTable`: one pass over the lines with an in-table flag. */
  method ParseComponentsFromTable(issueBody: string) returns (components: seq<ParsedComponent>)
    ensures components == TableComponentsOf(issueBody)
  {
    var lines := Split(issueBody, "\n");
    components := [];
    var inTable := false;
    var i := 0;
    while i < |lines|
      invariant i <= |lines|
      invariant components + TableComponents(lines[i..], inTable) == TableComponents(lines, false)
    {
      var line := lines[i];
      ghost var rest := TableComponents(lines[i + 1..], inTable);
      assert lines[i..][0] == line && lines[i..][1..] == lines[i + 1..];
      if IsHeaderLine(line) {
        assert TableComponents(lines[i..], inTable) == TableComponents(lines[i + 1..], true);
        inTable := true;
      } else if inTable && IsSeparatorLine(line) {
        assert TableComponents(lines[i..], inTable) == rest;
      } else if inTable && EndsTable(line) {
        assert TableComponents(lines[i..], inTable) == [];
        assert components + [] == components;
        break;
      } else if inTable && Contains(line, "|") {
        var component := ParseComponentFromTable(line);
        var parsed := if component.Some? then [component.value] else [];
        assert TableComponents(lines[i..], inTable) == parsed + rest;
        SeqAppendAssociative(components, parsed, rest);
        components := components + parsed;
      } else {
        assert TableComponents(lines[i..], inTable) == rest;
      }
      i := i + 1;
    }
  }

  /** Before a header line nothing is read, whatever the lines contain. */
  lemma {:induction false} NoHeaderNoRows(lines: seq<string>)
    requires forall k :: 0 <= k < |lines| ==> !IsHeaderLine(lines[k])
    ensures TableComponents(lines, false) == []
  {
    if lines != [] {
      NoHeaderNoRows(lines[1..]);
    }
  }

  /** Lines before the first header are ignored; reading starts after it. */
  lemma {:induction false} RowsAfterHeader(before: seq<string>, header: string, after: seq<string>)
    requires forall k :: 0 <= k < |before| ==> !IsHeaderLine(before[k])
    requires IsHeaderLine(header)
    ensures TableComponents(before + [header] + after, false) == TableComponents(after, true)
    decreases |before|
  {
    if before == [] {
      assert before + [header] + after == [header] + after;
    } else {
      assert (before + [header] + after)[1..] == before[1..] + [header] + after;
      RowsAfterHeader(before[1..], header, after);
    }
  }

  /** An issue body none of whose lines is a table header yields no rows. */
  lemma NoHeaderBody(issueBody: string)
    requires forall k :: 0 <= k < |Split(issueBody, "\n")| ==> !IsHeaderLine(Split(issueBody, "\n")[k])
    ensures TableComponentsOf(issueBody) == []
  {
    NoHeaderNoRows(Split(issueBody, "\n"));
  }

  /** In particular a body without `変`, such as the empty body, yields no rows. */
  lemma NoHeaderWordBody(issueBody: string)
    requires '変' !in issueBody
    ensures TableComponentsOf(issueBody) == []
  {
    var lines := Split(issueBody, "\n");
    forall k | 0 <= k < |lines| ensures !IsHeaderLine(lines[k]) {
      SplitPartLacks(issueBody, "\n", '変', k);
      NotContainsFirstAbsent(lines[k], "変更");
    }
    NoHeaderNoRows(lines);
  }

  /** A part of a split text lacks any character the text lacks. */
  lemma {:induction false} SplitPartLacks(s: string, sep: string, ch: char, k: nat)
    requires sep != [] && ch !in s && k < |Split(s, sep)|
    ensures ch !in Split(s, sep)[k]
    decreases |s|
  {
    match IndexOf(s, sep)
    case None =>
    case Some(i) =>
      var rest := s[i + |sep|..];
      assert Split(s, sep) == [s[..i]] + Split(rest, sep);
      if k > 0 {
        assert ch !in rest;
        SplitPartLacks(rest, sep, ch, k - 1);
      }
  }

  // ---------------------------------------------------------------------------
  // parseReviewIssue: /###\s*NAME\s*\(LICENSE\)([\s\S]*?)(?=\n###|\n##|---)/
  // ---------------------------------------------------------------------------

  /** The name a section heading shows: `group:name` when the group is non-empty. */
  function ComponentName(comp: ParsedComponent): string
  {
    if Truthy(comp.group) then comp.group.value + ":" + comp.name else comp.name
  }

  /** The lazy capture's end: the first position from `c` where `\n##` (so also `\n###`) or `---` follows. */
  function SectionEnd(t: string, c: nat): (r: Option<nat>)
    requires c <= |t|
    ensures r.Some? ==> c <= r.value <= |t|
    decreases |t| - c
  {
    if OccursAt(t, "\n##", c) || OccursAt(t, "---", c) then Some(c)
    else if c == |t| then None
    else SectionEnd(t, c + 1)
  }

  /** `\s*\(LICENSE\)` and the captured content, once the name has ended at `k`. */
  function SectionAfterName(t: string, license: string, k: nat): Option<string>
    requires k <= |t|
  {
    var b := SkipWhitespace(t, k);
    var c := b + 2 + |license|;
    if b < |t| && t[b] == '(' && OccursAt(t, license, b + 1) && c <= |t| && t[c - 1] == ')' then
      match SectionEnd(t, c)
      case Some(q) => Some(t[c..q])
      case None => None
    else None
  }

  /**
   * `\s*NAME…` with the whitespace run ending at `j`, then at `j - 1` and so on down to
   * `lo`: the order in which the greedy `\s*` gives characters back.
   */
  function SectionWithName(t: string, name: string, license: string, lo: nat, j: nat): Option<string>
    requires lo <= j <= |t|
    decreases j - lo
  {
    var here := if OccursAt(t, name, j) then SectionAfterName(t, license, j + |name|) else None;
    if here.Some? || j == lo then here else SectionWithName(t, name, license, lo, j - 1)
  }

  /** The section pattern tried at start position `s`. */
  function SectionAt(t: string, name: string, license: string, s: nat): Option<string>
    requires s <= |t|
  {
    if OccursAt(t, "###", s) then SectionWithName(t, name, license, s + 3, SkipWhitespace(t, s + 3))
    else None
  }

  /** `issueBody.match(sectionRegex)`: the content captured at the first start position that matches. */
  function FindSection(t: string, name: string, license: string, s: nat): Option<string>
    requires s <= |t|
    decreases |t| - s
  {
    var here := SectionAt(t, name, license, s);
    if here.Some? || s == |t| then here else FindSection(t, name, license, s + 1)
  }

  /** Without any `###` in the body no section is found. */
  lemma {:induction false} NoHeadingNoSection(t: string, name: string, license: string, s: nat)
    requires s <= |t| && !Contains(t, "###")
    ensures FindSection(t, name, license, s).None?
    decreases |t| - s
  {
    assert !OccursAt(t, "###", s);
    if s < |t| {
      NoHeadingNoSection(t, name, license, s + 1);
    }
  }

  // ---------------------------------------------------------------------------
  // The fields of a section: /####\s*([^\n]+)\n+([\s\S]*?)(?=\n####|$)/g
  // ---------------------------------------------------------------------------

  /** The first line feed at or after `i`, or the end of the text. */
  function NextLineFeed(t: string, i: nat): (r: nat)
    requires i <= |t|
    ensures i <= r <= |t|
    ensures r < |t| ==> t[r] == '\n'
    decreases |t| - i
  {
    if i == |t| || t[i] == '\n' then i else NextLineFeed(t, i + 1)
  }

  /** The end of the run of line feeds starting at `i`. */
  function SkipLineFeeds(t: string, i: nat): (r: nat)
    requires i <= |t|
    ensures i <= r <= |t|
    decreases |t| - i
  {
    if i < |t| && t[i] == '\n' then SkipLineFeeds(t, i + 1) else i
  }

  /** The lazy body's end: the first position from `f` where `\n####` follows, or the end. */
  function FieldBodyEnd(t: string, f: nat): (r: nat)
    requires f <= |t|
    ensures f <= r <= |t|
    decreases |t| - f
  {
    if f == |t| || OccursAt(t, "\n####", f) then f else FieldBodyEnd(t, f + 1)
  }

  /**
   * `\s*([^\n]+)\n` with the whitespace run ending at `i`, then shorter runs down to `lo`:
   * the heading text runs from the returned start to the returned line feed.
   */
  function FieldHeadingAt(t: string, lo: nat, i: nat): (r: Option<(nat, nat)>)
    requires lo <= i <= |t|
    ensures r.Some? ==> lo <= r.value.0 < r.value.1 < |t| && t[r.value.1] == '\n'
    decreases i - lo
  {
    var n := NextLineFeed(t, i);
    if i < n < |t| then Some((i, n))
    else if i == lo then None
    else FieldHeadingAt(t, lo, i - 1)
  }

  /** One field match: the raw heading text, the raw body, and where the match ends. */
  datatype FieldMatch = FieldMatch(heading: string, body: string, end: nat)

  /** The field pattern tried at start position `s`. */
  function FieldAt(t: string, s: nat): (r: Option<FieldMatch>)
    requires s <= |t|
    ensures r.Some? ==> s < r.value.end <= |t|
  {
    if OccursAt(t, "####", s) then
      match FieldHeadingAt(t, s + 4, SkipWhitespace(t, s + 4))
      case None => None
      case Some((i, n)) =>
        var f := SkipLineFeeds(t, n + 1);
        var q := FieldBodyEnd(t, f);
        Some(FieldMatch(t[i..n], t[f..q], q))
    else None
  }

  /** `matchAll` from position `s`: each match, then the search goes on where it ended. */
  function FieldsFrom(t: string, s: nat): seq<(string, string)>
    requires s <= |t|
    decreases |t| - s
  {
    match FieldAt(t, s)
    case Some(m) => [(m.heading, m.body)] + FieldsFrom(t, m.end)
    case None => if s == |t| then [] else FieldsFrom(t, s + 1)
  }

  /** A section without any `####` has no fields. */
  lemma {:induction false} NoFieldHeadingNoFields(t: string, s: nat)
    requires s <= |t| && !Contains(t, "####")
    ensures FieldsFrom(t, s) == []
    decreases |t| - s
  {
    assert !OccursAt(t, "####", s);
    if s < |t| {
      NoFieldHeadingNoFields(t, s + 1);
    }
  }

  // ---------------------------------------------------------------------------
  // The actions record
  // ---------------------------------------------------------------------------

  /** The value read from `actions[key]`. */
  function Lookup(actions: Actions, key: string): Option<string>
  {
    if actions == [] then None
    else if actions[0].0 == key then Some(actions[0].1)
    else Lookup(actions[1..], key)
  }

  /** `actions[key] = value`: an existing key keeps its place and takes the new value; a new key goes last. */
  function Put(actions: Actions, key: string, value: string): Actions
  {
    if actions == [] then [(key, value)]
    else if actions[0].0 == key then [(key, value)] + actions[1..]
    else [actions[0]] + Put(actions[1..], key, value)
  }

  /** Each key at most once. */
  predicate DistinctKeys(actions: Actions)
  {
    forall i, j :: 0 <= i < j < |actions| ==> actions[i].0 != actions[j].0
  }

  /** After `actions[key] = value` the key reads `value` and every other key reads as before. */
  lemma {:induction false} PutLookup(actions: Actions, key: string, value: string, other: string)
    ensures Lookup(Put(actions, key, value), key) == Some(value)
    ensures other != key ==> Lookup(Put(actions, key, value), other) == Lookup(actions, other)
  {
    if actions != [] && actions[0].0 != key {
      PutLookup(actions[1..], key, value, other);
    }
  }

  /** A new key is appended; an existing key stays where it was, so the key order is kept. */
  lemma {:induction false} PutOrder(actions: Actions, key: string, value: string)
    ensures Lookup(actions, key).None? ==> Put(actions, key, value) == actions + [(key, value)]
    ensures Lookup(actions, key).Some? ==>
      |Put(actions, key, value)| == |actions| &&
      forall k :: 0 <= k < |actions| ==> Put(actions, key, value)[k].0 == actions[k].0
  {
    if actions != [] && actions[0].0 != key {
      PutOrder(actions[1..], key, value);
      assert [actions[0]] + (actions[1..] + [(key, value)]) == actions + [(key, value)];
    }
  }

  /** Assignment never makes a key appear twice. */
  lemma PutDistinct(actions: Actions, key: string, value: string)
    requires DistinctKeys(actions)
    ensures DistinctKeys(Put(actions, key, value))
  {
    PutOrder(actions, key, value);
    if Lookup(actions, key).None? {
      LookupNone(actions, key);
    }
  }

  /** A key that reads as absent is at no position. */
  lemma {:induction false} LookupNone(actions: Actions, key: string)
    requires Lookup(actions, key).None?
    ensures forall k :: 0 <= k < |actions| ==> actions[k].0 != key
  {
    if actions != [] {
      LookupNone(actions[1..], key);
      assert forall k :: 1 <= k < |actions| ==> actions[k] == actions[1..][k - 1];
    }
  }

  const DoneValue: string := "対応済み"
  const PendingValue: string := "未対応"

  /** One field into the record: a checkbox field gives done or pending, another field its text unless empty. */
  function RecordField(actions: Actions, heading: string, body: string): Actions
  {
    var key := Trim(heading);
    var content := Trim(body);
    if Contains(content, "- [") then
      Put(actions, key, if ParseCheckboxState(content, DoneValue) then DoneValue else PendingValue)
    else if content != [] && content != "No response" && content != "_No response_" then
      Put(actions, key, content)
    else actions
  }

  /** All fields of a section, in order, into an empty record. */
  function RecordFields(fields: seq<(string, string)>): Actions
  {
    if fields == [] then []
    else
      var last := fields[|fields| - 1];
      RecordField(RecordFields(fields[..|fields| - 1]), last.0, last.1)
  }

  /** What may be recorded: non-empty trimmed text other than the "no response" placeholders. */
  predicate RecordedValue(v: string)
  {
    v != [] && IsTrimmed(v) && v != "No response" && v != "_No response_"
  }

  /** The record keeps each key once and holds only recorded values. */
  predicate WellFormedActions(actions: Actions)
  {
    DistinctKeys(actions) && forall k :: 0 <= k < |actions| ==> RecordedValue(actions[k].1)
  }

  /** The value a field gives, when it gives one. */
  function FieldValue(body: string): string
  {
    var content := Trim(body);
    if Contains(content, "- [") then
      (if ParseCheckboxState(content, DoneValue) then DoneValue else PendingValue)
    else content
  }

  /** Whether a field is recorded at all. */
  predicate FieldRecorded(body: string)
  {
    Contains(Trim(body), "- [") || RecordedValue(Trim(body))
  }

  lemma RecordFieldPut(actions: Actions, heading: string, body: string)
    ensures FieldRecorded(body) ==> RecordField(actions, heading, body) == Put(actions, Trim(heading), FieldValue(body))
    ensures !FieldRecorded(body) ==> RecordField(actions, heading, body) == actions
  {
  }

  /** Recording one field keeps the record well formed. */
  lemma RecordFieldWellFormed(actions: Actions, heading: string, body: string)
    requires WellFormedActions(actions)
    ensures WellFormedActions(RecordField(actions, heading, body))
  {
    RecordFieldPut(actions, heading, body);
    if FieldRecorded(body) {
      var key := Trim(heading);
      var v := FieldValue(body);
      assert RecordedValue(v);
      PutDistinct(actions, key, v);
      PutValues(actions, key, v);
    }
  }

  /**
   * After a field is recorded its heading reads: done or pending for a checkbox field
   * (done exactly when its `対応済み` box is checked), the trimmed text for another
   * non-empty field; an empty or "no response" field changes nothing.
   */
  lemma RecordFieldReading(actions: Actions, heading: string, body: string)
    ensures var content := Trim(body);
      Contains(content, "- [") ==>
        Lookup(RecordField(actions, heading, body), Trim(heading)) ==
          Some(if ParseCheckboxState(content, DoneValue) then DoneValue else PendingValue)
    ensures var content := Trim(body);
      !Contains(content, "- [") && RecordedValue(content) ==>
        Lookup(RecordField(actions, heading, body), Trim(heading)) == Some(content)
    ensures !FieldRecorded(body) ==> RecordField(actions, heading, body) == actions
  {
    RecordFieldPut(actions, heading, body);
    PutLookup(actions, Trim(heading), FieldValue(body), Trim(heading));
  }

  /** Every value after an assignment is an old value or the new one. */
  lemma {:induction false} PutValues(actions: Actions, key: string, value: string)
    ensures forall k :: 0 <= k < |Put(actions, key, value)| ==>
      Put(actions, key, value)[k].1 == value || exists m :: 0 <= m < |actions| && Put(actions, key, value)[k].1 == actions[m].1
  {
    if actions != [] && actions[0].0 != key {
      PutValues(actions[1..], key, value);
      var r := Put(actions, key, value);
      forall k | 0 <= k < |r|
        ensures r[k].1 == value || exists m :: 0 <= m < |actions| && r[k].1 == actions[m].1
      {
        if k > 0 {
          assert r[k] == Put(actions[1..], key, value)[k - 1];
          if r[k].1 != value {
            var m :| 0 <= m < |actions[1..]| && r[k].1 == actions[1..][m].1;
            assert r[k].1 == actions[m + 1].1;
          }
        } else {
          assert r[k].1 == actions[0].1;
        }
      }
    } else if actions != [] {
      var r := Put(actions, key, value);
      forall k | 0 <= k < |r|
        ensures r[k].1 == value || exists m :: 0 <= m < |actions| && r[k].1 == actions[m].1
      {
        if k > 0 {
          assert r[k].1 == actions[k].1;
        }
      }
    }
  }

  /** Whatever the section holds, the record it gives is well formed. */
  lemma {:induction false} RecordFieldsWellFormed(fields: seq<(string, string)>)
    ensures WellFormedActions(RecordFields(fields))
  {
    if fields != [] {
      var last := fields[|fields| - 1];
      RecordFieldsWellFormed(fields[..|fields| - 1]);
      RecordFieldWellFormed(RecordFields(fields[..|fields| - 1]), last.0, last.1);
    }
  }

  // ---------------------------------------------------------------------------
  // The review results document
  // ---------------------------------------------------------------------------

  /** The actions read for one component: empty when its section is not found. */
  function SectionActions(issueBody: string, comp: ParsedComponent): Actions
  {
    match FindSection(issueBody, ComponentName(comp), comp.license, 0)
    case None => []
    case Some(content) => RecordFields(FieldsFrom(content, 0))
  }

  function ReviewResult(issueBody: string, comp: ParsedComponent): ComponentReviewResult
  {
    ComponentReviewResult(
      ComponentRef(comp.group, comp.name, comp.version), comp.license, SectionActions(issueBody, comp))
  }

  /** The document `parseReviewIssue` returns, with the clock reading passed in as `reviewedAt`. */
  function ReviewDocument(issueBody: string, reviewer: string, version: string, reviewedAt: string): ReviewResultsDocument
  {
    ReviewResultsDocument(version, reviewedAt, reviewer,
      Map(TableComponentsOf(issueBody), (comp: ParsedComponent) => ReviewResult(issueBody, comp)))
  }

  /** The record of one component, filled field by field. */
  method CollectActions(issueBody: string, comp: ParsedComponent) returns (actions: Actions)
    ensures actions == SectionActions(issueBody, comp)
  {
    actions := [];
    var section := FindSection(issueBody, ComponentName(comp), comp.license, 0);
    if section.Some? {
      var fields := FieldsFrom(section.value, 0);
      for k := 0 to |fields|
        invariant actions == RecordFields(fields[..k])
      {
        assert fields[..k + 1][..k] == fields[..k];
        actions := RecordField(actions, fields[k].0, fields[k].1);
      }
      assert fields[..|fields|] == fields;
    }
  }

  /** `parseReviewIssue`: one result per table row, in table order. */
  method ParseReviewIssue(issueBody: string, reviewer: string, version: string, reviewedAt: string)
    returns (doc: ReviewResultsDocument)
    ensures doc == ReviewDocument(issueBody, reviewer, version, reviewedAt)
  {
    var components := ParseComponentsFromTable(issueBody);
    var results: seq<ComponentReviewResult> := [];
    for i := 0 to |components|
      invariant |results| == i
      invariant forall k :: 0 <= k < i ==> results[k] == ReviewResult(issueBody, components[k])
    {
      var comp := components[i];
      var actions := CollectActions(issueBody, comp);
      var result := ComponentReviewResult(ComponentRef(comp.group, comp.name, comp.version), comp.license, actions);
      assert result == ReviewResult(issueBody, comp);
      results := results + [result];
    }
    doc := ReviewResultsDocument(version, reviewedAt, reviewer, results);
  }

  /**
   * The document passes `reviewer` and `version` through and has one result per table row,
   * in order, carrying that row's name, version and license and a well-formed record.
   */
  lemma ReviewDocumentShape(issueBody: string, reviewer: string, version: string, reviewedAt: string)
    ensures var doc := ReviewDocument(issueBody, reviewer, version, reviewedAt);
      var rows := TableComponentsOf(issueBody);
      && doc.version == version && doc.reviewer == reviewer && doc.reviewedAt == reviewedAt
      && |doc.results| == |rows|
      && forall k :: 0 <= k < |rows| ==>
        && doc.results[k].component == ComponentRef(rows[k].group, rows[k].name, rows[k].version)
        && doc.results[k].license == rows[k].license
        && WellFormedActions(doc.results[k].actions)
  {
    var rows := TableComponentsOf(issueBody);
    forall k | 0 <= k < |rows| ensures WellFormedActions(SectionActions(issueBody, rows[k])) {
      var comp := rows[k];
      match FindSection(issueBody, ComponentName(comp), comp.license, 0)
      case None =>
      case Some(content) => RecordFieldsWellFormed(FieldsFrom(content, 0));
    }
  }

  /** A body without any `###` heading gives every component an empty record. */
  lemma NoHeadingEmptyActions(issueBody: string, comp: ParsedComponent)
    requires !Contains(issueBody, "###")
    ensures SectionActions(issueBody, comp) == []
  {
    NoHeadingNoSection(issueBody, ComponentName(comp), comp.license, 0);
  }

  // ---------------------------------------------------------------------------
  // parseApprovalIssue / parseApprovalRequest
  // ---------------------------------------------------------------------------

  const ApprovalCheckboxLabel: string := "上記の内容を確認し、Dependency-Trackへの登録を承認します"
  const ApprovalRequestCheckboxLabel: string := "管理者に承認を依頼する"

  predicate ParseApprovalIssue(issueBody: string)
  {
    ParseCheckboxState(issueBody, ApprovalCheckboxLabel)
  }

  predicate ParseApprovalRequest(issueBody: string)
  {
    ParseCheckboxState(issueBody, ApprovalRequestCheckboxLabel)
  }

  /** Each reads its own checkbox: checked with `x` or `X`, unchecked with a space. */
  lemma ApprovalCheckboxes(pre: string, c: char, post: string)
    requires AllWhitespace(pre) && IsCheckMark(c)
    ensures ParseApprovalIssue(pre + "- [" + [c] + "] " + ApprovalCheckboxLabel + "\n" + post) <==> c in {'x', 'X'}
    ensures ParseApprovalRequest(pre + "- [" + [c] + "] " + ApprovalRequestCheckboxLabel + "\n" + post) <==> c in {'x', 'X'}
  {
    CheckboxFirstLine(pre, c, ApprovalCheckboxLabel, post);
    CheckboxFirstLine(pre, c, ApprovalRequestCheckboxLabel, post);
  }

  /** A text without any `-` has no checkbox line, so nothing reads as checked. */
  lemma NoDashUnchecked(text: string, labelText: string)
    requires '-' !in text
    ensures !ParseCheckboxState(text, labelText)
  {
    forall p: nat | p <= |text| && LineStart(text, p) ensures CheckboxAt(text, labelText, p).None? {
    }
    NoCheckboxUnchecked(text, labelText);
  }
}

=== FILE: license_guide_provider.dfy ===
/**
 * scripts/license-guide-provider.ts: the license guidelines shown for a
 * component, chosen by exact license id from the guideline configuration and
 * filtered by a small condition language over the component's context.
 *
 * The configuration file is read through a `FileSystem` parameter (the
 * contents found at each path at the time of the read), so the provider's
 * lazy, repeated loading is kept.
 */
module LicenseGuideProvider {

  import opened Types
  import opened Text

  /** DEFAULT_GUIDELINE: returned when no configuration or no matching entry exists. */
  const DefaultGuideline: Guideline := Guideline(
    "always",
    "このライセンスのガイドラインが定義されていません。法務担当に相談してください。",
    "text",
    "対応内容",
    None)

  // ---------------------------------------------------------------------------
  // evaluateCondition
  // ---------------------------------------------------------------------------

  /** The fixed tests of the condition language. An attribute test holds only when the attribute
      has exactly the value the test names, so an absent attribute fails both a test and its negation. */
  datatype FixedTest = Always | ModifiedIs(modified: bool) | LinkTypeIs(linkType: LinkType) | DistributedIs(distributed: bool)

  function TestHolds(test: FixedTest, ctx: ComponentContext): bool
  {
    match test
    case Always => true
    case ModifiedIs(b) => ctx.isModified == Some(b)
    case LinkTypeIs(l) => ctx.linkType == Some(l)
    case DistributedIs(b) => ctx.isDistributed == Some(b)
  }

  /** The spellings of the fixed tests, in the order evaluateCondition checks them. */
  const FixedTests: seq<(string, FixedTest)> := AlwaysSpellings + ModifiedSpellings + LinkTypeSpellings + DistributedSpellings

  const AlwaysSpellings: seq<(string, FixedTest)> := [("always", Always)]

  const ModifiedSpellings: seq<(string, FixedTest)> := [
    ("is_modified == true", ModifiedIs(true)),
    ("is_modified", ModifiedIs(true)),
    ("is_modified == false", ModifiedIs(false)),
    ("!is_modified", ModifiedIs(false))
  ]

  const LinkTypeSpellings: seq<(string, FixedTest)> := [
    ("link_type == \"static\"", LinkTypeIs(Static)),
    ("link_type == 'static'", LinkTypeIs(Static)),
    ("link_type == \"dynamic\"", LinkTypeIs(Dynamic)),
    ("link_type == 'dynamic'", LinkTypeIs(Dynamic))
  ]

  const DistributedSpellings: seq<(string, FixedTest)> := [
    ("is_distributed == true", DistributedIs(true)),
    ("is_distributed", DistributedIs(true)),
    ("is_distributed == false", DistributedIs(false)),
    ("!is_distributed", DistributedIs(false))
  ]

  /** The fixed test spelled exactly `t`, searching the table from position `i`. */
  function FindFixedTest(t: string, i: nat): (r: Option<FixedTest>)
    requires i <= |FixedTests|
    ensures r.Some? ==> exists k :: i <= k < |FixedTests| && FixedTests[k] == (t, r.value)
    ensures r.None? ==> forall k :: i <= k < |FixedTests| ==> FixedTests[k].0 != t
    decreases |FixedTests| - i
  {
    if i == |FixedTests| then None
    else if |FixedTests[i].0| == |t| && FixedTests[i].0 == t then Some(FixedTests[i].1)
    else FindFixedTest(t, i + 1)
  }

  /** evaluateCondition: trim, then go on with the trimmed text. */
  function EvaluateCondition(condition: string, ctx: ComponentContext): bool
    decreases |condition|, 3
  {
    EvaluateTrimmed(Trim(condition), ctx, |condition|)
  }

  /** A fixed test; otherwise the compound forms. */
  function EvaluateTrimmed(t: string, ctx: ComponentContext, bound: nat): bool
    requires |t| <= bound
    decreases bound, 2
  {
    var test := FindFixedTest(t, 0);
    if test.Some? then TestHolds(test.value, ctx) else EvaluateCompound(t, ctx, bound)
  }

  /** Every `&&`-part must hold; otherwise some `||`-part must hold; otherwise false. Each part is
      strictly shorter than the condition. */
  function EvaluateCompound(t: string, ctx: ComponentContext, bound: nat): bool
    requires |t| <= bound
    decreases bound, 1
  {
    if Contains(t, "&&") then AllPartsHold(Split(t, "&&"), ctx, bound)
    else if Contains(t, "||") then SomePartHolds(Split(t, "||"), ctx, bound)
    else false
  }

  /** `parts.map(trim).every(evaluateCondition)`, for parts shorter than `bound`. */
  function AllPartsHold(parts: seq<string>, ctx: ComponentContext, bound: nat): bool
    requires forall k :: 0 <= k < |parts| ==> |parts[k]| < bound
    decreases bound, 0, |parts|
  {
    parts == [] || (EvaluateCondition(Trim(parts[0]), ctx) && AllPartsHold(parts[1..], ctx, bound))
  }

  /** `parts.map(trim).some(evaluateCondition)`, for parts shorter than `bound`. */
  function SomePartHolds(parts: seq<string>, ctx: ComponentContext, bound: nat): bool
    requires forall k :: 0 <= k < |parts| ==> |parts[k]| < bound
    decreases bound, 0, |parts|
  {
    parts != [] && (EvaluateCondition(Trim(parts[0]), ctx) || SomePartHolds(parts[1..], ctx, bound))
  }

  /** No fixed test is spelled with '&' or '|'. */
  predicate OperatorFree(spellings: seq<(string, FixedTest)>)
  {
    forall k :: 0 <= k < |spellings| ==> '&' !in spellings[k].0 && '|' !in spellings[k].0
  }

  lemma ModifiedSpellingsOperatorFree()
    ensures OperatorFree(ModifiedSpellings)
  {
  }

  lemma LinkTypeSpellingsOperatorFree()
    ensures OperatorFree(LinkTypeSpellings)
  {
  }

  lemma DistributedSpellingsOperatorFree()
    ensures OperatorFree(DistributedSpellings)
  {
  }

  lemma SpellingLacksOperators(k: nat)
    requires k < |FixedTests|
    ensures '&' !in FixedTests[k].0 && '|' !in FixedTests[k].0
  {
    ModifiedSpellingsOperatorFree();
    LinkTypeSpellingsOperatorFree();
    DistributedSpellingsOperatorFree();
    assert OperatorFree(AlwaysSpellings);
    var a, m, l := AlwaysSpellings, ModifiedSpellings, LinkTypeSpellings;
    if k < |a| {
    } else if k < |a| + |m| {
      assert FixedTests[k] == m[k - |a|];
    } else if k < |a| + |m| + |l| {
      assert FixedTests[k] == l[k - |a| - |m|];
    } else {
      assert FixedTests[k] == DistributedSpellings[k - |a| - |m| - |l|];
    }
  }

  lemma FixedTestsLackOperators(t: string)
    requires '&' in t || '|' in t
    ensures FindFixedTest(t, 0).None?
  {
    forall k | 0 <= k < |FixedTests| ensures FixedTests[k].0 != t {
      SpellingLacksOperators(k);
    }
  }

  /** A condition that trims to a spelling of a fixed test means that test. */
  lemma PaddedFixedTest(w1: string, spelling: string, w2: string, test: FixedTest, ctx: ComponentContext)
    requires AllWhitespace(w1) && AllWhitespace(w2) && IsTrimmed(spelling) && spelling != []
    requires FindFixedTest(spelling, 0) == Some(test)
    ensures EvaluateCondition(w1 + spelling + w2, ctx) == TestHolds(test, ctx)
  {
    TrimPadded(w1, spelling, w2);
  }

  /** `always` holds whatever surrounds it as whitespace. */
  lemma AlwaysHolds(w1: string, w2: string, ctx: ComponentContext)
    requires AllWhitespace(w1) && AllWhitespace(w2)
    ensures EvaluateCondition(w1 + "always" + w2, ctx)
  {
    PaddedFixedTest(w1, "always", w2, Always, ctx);
  }

  /** Each fixed test holds exactly when the attribute has the value the test names; both spellings of a
      test agree, whatever whitespace surrounds them. */
  lemma ModifiedTests(w1: string, w2: string, ctx: ComponentContext)
    requires AllWhitespace(w1) && AllWhitespace(w2)
    ensures EvaluateCondition(w1 + "is_modified" + w2, ctx) <==> ctx.isModified == Some(true)
    ensures EvaluateCondition(w1 + "is_modified == true" + w2, ctx) <==> ctx.isModified == Some(true)
  {
    BareModifiedTest(w1, w2, ctx);
    PaddedFixedTest(w1, "is_modified == true", w2, ModifiedIs(true), ctx);
  }

  lemma BareModifiedTest(w1: string, w2: string, ctx: ComponentContext)
    requires AllWhitespace(w1) && AllWhitespace(w2)
    ensures EvaluateCondition(w1 + "is_modified" + w2, ctx) == TestHolds(ModifiedIs(true), ctx)
  {
    PaddedFixedTest(w1, "is_modified", w2, ModifiedIs(true), ctx);
  }

  lemma NegatedModifiedTests(w1: string, w2: string, ctx: ComponentContext)
    requires AllWhitespace(w1) && AllWhitespace(w2)
    ensures EvaluateCondition(w1 + "!is_modified" + w2, ctx) <==> ctx.isModified == Some(false)
    ensures EvaluateCondition(w1 + "is_modified == false" + w2, ctx) <==> ctx.isModified == Some(false)
  {
    BangModifiedTest(w1, w2, ctx);
    PaddedFixedTest(w1, "is_modified == false", w2, ModifiedIs(false), ctx);
  }

  lemma BangModifiedTest(w1: string, w2: string, ctx: ComponentContext)
    requires AllWhitespace(w1) && AllWhitespace(w2)
    ensures EvaluateCondition(w1 + "!is_modified" + w2, ctx) == TestHolds(ModifiedIs(false), ctx)
  {
    PaddedFixedTest(w1, "!is_modified", w2, ModifiedIs(false), ctx);
  }

  lemma StaticLinkTests(w1: string, w2: string, ctx: ComponentContext)
    requires AllWhitespace(w1) && AllWhitespace(w2)
    ensures EvaluateCondition(w1 + "link_type == \"static\"" + w2, ctx) <==> ctx.linkType == Some(Static)
    ensures EvaluateCondition(w1 + "link_type == 'static'" + w2, ctx) <==> ctx.linkType == Some(Static)
  {
    DoubleQuotedStaticTest(w1, w2, ctx);
    PaddedFixedTest(w1, "link_type == 'static'", w2, LinkTypeIs(Static), ctx);
  }

  lemma DoubleQuotedStaticTest(w1: string, w2: string, ctx: ComponentContext)
    requires AllWhitespace(w1) && AllWhitespace(w2)
    ensures EvaluateCondition(w1 + "link_type == \"static\"" + w2, ctx) == TestHolds(LinkTypeIs(Static), ctx)
  {
    PaddedFixedTest(w1, "link_type == \"static\"", w2, LinkTypeIs(Static), ctx);
  }

  lemma DynamicLinkTests(w1: string, w2: string, ctx: ComponentContext)
    requires AllWhitespace(w1) && AllWhitespace(w2)
    ensures EvaluateCondition(w1 + "link_type == \"dynamic\"" + w2, ctx) <==> ctx.linkType == Some(Dynamic)
    ensures EvaluateCondition(w1 + "link_type == 'dynamic'" + w2, ctx) <==> ctx.linkType == Some(Dynamic)
  {
    DoubleQuotedDynamicTest(w1, w2, ctx);
    PaddedFixedTest(w1, "link_type == 'dynamic'", w2, LinkTypeIs(Dynamic), ctx);
  }

  lemma DoubleQuotedDynamicTest(w1: string, w2: string, ctx: ComponentContext)
    requires AllWhitespace(w1) && AllWhitespace(w2)
    ensures EvaluateCondition(w1 + "link_type == \"dynamic\"" + w2, ctx) == TestHolds(LinkTypeIs(Dynamic), ctx)
  {
    PaddedFixedTest(w1, "link_type == \"dynamic\"", w2, LinkTypeIs(Dynamic), ctx);
  }

  lemma DistributedTests(w1: string, w2: string, ctx: ComponentContext)
    requires AllWhitespace(w1) && AllWhitespace(w2)
    ensures EvaluateCondition(w1 + "is_distributed" + w2, ctx) <==> ctx.isDistributed == Some(true)
    ensures EvaluateCondition(w1 + "is_distributed == true" + w2, ctx) <==> ctx.isDistributed == Some(true)
  {
    BareDistributedTest(w1, w2, ctx);
    PaddedFixedTest(w1, "is_distributed == true", w2, DistributedIs(true), ctx);
  }

  lemma BareDistributedTest(w1: string, w2: string, ctx: ComponentContext)
    requires AllWhitespace(w1) && AllWhitespace(w2)
    ensures EvaluateCondition(w1 + "is_distributed" + w2, ctx) == TestHolds(DistributedIs(true), ctx)
  {
    PaddedFixedTest(w1, "is_distributed", w2, DistributedIs(true), ctx);
  }

  lemma NegatedDistributedTests(w1: string, w2: string, ctx: ComponentContext)
    requires AllWhitespace(w1) && AllWhitespace(w2)
    ensures EvaluateCondition(w1 + "!is_distributed" + w2, ctx) <==> ctx.isDistributed == Some(false)
    ensures EvaluateCondition(w1 + "is_distributed == false" + w2, ctx) <==> ctx.isDistributed == Some(false)
  {
    BangDistributedTest(w1, w2, ctx);
    PaddedFixedTest(w1, "is_distributed == false", w2, DistributedIs(false), ctx);
  }

  lemma BangDistributedTest(w1: string, w2: string, ctx: ComponentContext)
    requires AllWhitespace(w1) && AllWhitespace(w2)
    ensures EvaluateCondition(w1 + "!is_distributed" + w2, ctx) == TestHolds(DistributedIs(false), ctx)
  {
    PaddedFixedTest(w1, "!is_distributed", w2, DistributedIs(false), ctx);
  }

  /** With an attribute absent, neither its positive nor its negated test holds. */
  lemma AbsentAttributeFailsBothTests(w1: string, w2: string, ctx: ComponentContext)
    requires AllWhitespace(w1) && AllWhitespace(w2)
    requires ctx.isModified.None? && ctx.linkType.None? && ctx.isDistributed.None?
    ensures !EvaluateCondition(w1 + "is_modified" + w2, ctx) && !EvaluateCondition(w1 + "!is_modified" + w2, ctx)
    ensures !EvaluateCondition(w1 + "link_type == 'static'" + w2, ctx) && !EvaluateCondition(w1 + "link_type == 'dynamic'" + w2, ctx)
    ensures !EvaluateCondition(w1 + "is_distributed" + w2, ctx) && !EvaluateCondition(w1 + "!is_distributed" + w2, ctx)
  {
    ModifiedTests(w1, w2, ctx);
    NegatedModifiedTests(w1, w2, ctx);
    StaticLinkTests(w1, w2, ctx);
    DynamicLinkTests(w1, w2, ctx);
    DistributedTests(w1, w2, ctx);
    NegatedDistributedTests(w1, w2, ctx);
  }

  /** Two trimmed parts: all hold iff both do. */
  lemma BothPartsHold(a: string, b: string, ctx: ComponentContext, bound: nat)
    requires IsTrimmed(a) && IsTrimmed(b) && |a| < bound && |b| < bound
    ensures AllPartsHold([a, b], ctx, bound) == (EvaluateCondition(a, ctx) && EvaluateCondition(b, ctx))
  {
    TrimTrimmed(a);
    TrimTrimmed(b);
    var parts := [a, b];
    assert parts[1..] == [b] && parts[1..][1..] == [];
    assert AllPartsHold(parts[1..], ctx, bound) == EvaluateCondition(b, ctx);
  }

  /** Two trimmed parts: some holds iff either does. */
  lemma EitherPartHolds(a: string, b: string, ctx: ComponentContext, bound: nat)
    requires IsTrimmed(a) && IsTrimmed(b) && |a| < bound && |b| < bound
    ensures SomePartHolds([a, b], ctx, bound) == (EvaluateCondition(a, ctx) || EvaluateCondition(b, ctx))
  {
    TrimTrimmed(a);
    TrimTrimmed(b);
    var parts := [a, b];
    assert parts[1..] == [b] && parts[1..][1..] == [];
    assert SomePartHolds(parts[1..], ctx, bound) == EvaluateCondition(b, ctx);
  }

  /** A trimmed condition that is no fixed test is evaluated as a compound. */
  lemma TrimmedCompound(t: string, ctx: ComponentContext)
    requires IsTrimmed(t) && ('&' in t || '|' in t)
    ensures EvaluateCondition(t, ctx) == EvaluateCompound(t, ctx, |t|)
  {
    TrimTrimmed(t);
    FixedTestsLackOperators(t);
  }

  /** `a && b` holds iff both parts hold (for trimmed parts without '&'). */
  lemma AndSplits(a: string, b: string, ctx: ComponentContext)
    requires IsTrimmed(a) && IsTrimmed(b) && '&' !in a && '&' !in b
    ensures EvaluateCondition(a + "&&" + b, ctx) == (EvaluateCondition(a, ctx) && EvaluateCondition(b, ctx))
  {
    var t := a + "&&" + b;
    TrimmedConcat(a, "&&", b);
    assert t[|a|] == '&';
    TrimmedCompound(t, ctx);
    SplitInTwo(a, "&&", b);
    BothPartsHold(a, b, ctx, |t|);
  }

  /** `a || b` holds iff some part holds (for trimmed parts without '&' or '|'). */
  lemma OrSplits(a: string, b: string, ctx: ComponentContext)
    requires IsTrimmed(a) && IsTrimmed(b)
    requires '&' !in a && '&' !in b && '|' !in a && '|' !in b
    ensures EvaluateCondition(a + "||" + b, ctx) == (EvaluateCondition(a, ctx) || EvaluateCondition(b, ctx))
  {
    var t := a + "||" + b;
    TrimmedConcat(a, "||", b);
    assert t[|a|] == '|';
    TrimmedCompound(t, ctx);
    assert '&' !in t;
    NotContainsFirstAbsent(t, "&&");
    SplitInTwo(a, "||", b);
    EitherPartHolds(a, b, ctx, |t|);
  }

  /** `every` over the parts: all hold iff each trimmed part holds. */
  lemma {:induction false} AllPartsHoldEach(parts: seq<string>, ctx: ComponentContext, bound: nat)
    requires forall k :: 0 <= k < |parts| ==> |parts[k]| < bound
    ensures AllPartsHold(parts, ctx, bound) <==> forall k :: 0 <= k < |parts| ==> EvaluateCondition(Trim(parts[k]), ctx)
    decreases |parts|
  {
    if parts != [] {
      var rest := parts[1..];
      assert forall k :: 0 <= k < |rest| ==> rest[k] == parts[k + 1];
      AllPartsHoldEach(rest, ctx, bound);
    }
  }

  /** `some` over the parts: some holds iff some trimmed part holds. */
  lemma {:induction false} SomePartHoldsAny(parts: seq<string>, ctx: ComponentContext, bound: nat)
    requires forall k :: 0 <= k < |parts| ==> |parts[k]| < bound
    ensures SomePartHolds(parts, ctx, bound) <==> exists k :: 0 <= k < |parts| && EvaluateCondition(Trim(parts[k]), ctx)
    decreases |parts|
  {
    if parts != [] {
      var rest := parts[1..];
      assert forall k :: 0 <= k < |rest| ==> rest[k] == parts[k + 1];
      SomePartHoldsAny(rest, ctx, bound);
    }
  }

  /** A trimmed text holding an operator is no fixed test. */
  lemma OperatorNotFixed(t: string, op: string)
    requires op == "&&" || op == "||"
    requires Contains(t, op)
    ensures FindFixedTest(t, 0).None?
  {
    var i := IndexOf(t, op).value;
    assert t[i..i + 2] == op;
    assert t[i] == op[0];
    FixedTestsLackOperators(t);
  }

  /** With `&&` in the trimmed text, the condition is the conjunction over its `&&`-parts. */
  lemma EvaluatesAsAnd(condition: string, ctx: ComponentContext)
    requires Contains(Trim(condition), "&&")
    ensures EvaluateCondition(condition, ctx) == AllPartsHold(Split(Trim(condition), "&&"), ctx, |condition|)
  {
    var t := Trim(condition);
    OperatorNotFixed(t, "&&");
    assert EvaluateCondition(condition, ctx) == EvaluateTrimmed(t, ctx, |condition|);
    assert EvaluateTrimmed(t, ctx, |condition|) == EvaluateCompound(t, ctx, |condition|);
  }

  /** Without `&&` but with `||`, the condition is the disjunction over its `||`-parts. */
  lemma EvaluatesAsOr(condition: string, ctx: ComponentContext)
    requires !Contains(Trim(condition), "&&") && Contains(Trim(condition), "||")
    ensures EvaluateCondition(condition, ctx) == SomePartHolds(Split(Trim(condition), "||"), ctx, |condition|)
  {
    var t := Trim(condition);
    OperatorNotFixed(t, "||");
    assert EvaluateCondition(condition, ctx) == EvaluateTrimmed(t, ctx, |condition|);
    assert EvaluateTrimmed(t, ctx, |condition|) == EvaluateCompound(t, ctx, |condition|);
  }

  /** A condition whose trimmed text holds `&&` holds iff every trimmed `&&`-part holds, whatever
      the number of parts and the whitespace around them. */
  lemma AndCompound(condition: string, ctx: ComponentContext)
    requires Contains(Trim(condition), "&&")
    ensures var parts := Split(Trim(condition), "&&");
      EvaluateCondition(condition, ctx) <==> forall k :: 0 <= k < |parts| ==> EvaluateCondition(Trim(parts[k]), ctx)
  {
    EvaluatesAsAnd(condition, ctx);
    AllPartsHoldEach(Split(Trim(condition), "&&"), ctx, |condition|);
  }

  /** A condition whose trimmed text holds `||` but no `&&` holds iff some trimmed `||`-part holds. */
  lemma OrCompound(condition: string, ctx: ComponentContext)
    requires !Contains(Trim(condition), "&&") && Contains(Trim(condition), "||")
    ensures var parts := Split(Trim(condition), "||");
      EvaluateCondition(condition, ctx) <==> exists k :: 0 <= k < |parts| && EvaluateCondition(Trim(parts[k]), ctx)
  {
    EvaluatesAsOr(condition, ctx);
    SomePartHoldsAny(Split(Trim(condition), "||"), ctx, |condition|);
  }

  /** Because `&&` is split first, `a || b && c` means `(a || b) && c`. */
  lemma OrBindsTighterThanAnd(a: string, b: string, c: string, ctx: ComponentContext)
    requires IsTrimmed(a) && IsTrimmed(b) && IsTrimmed(c)
    requires '&' !in a && '&' !in b && '&' !in c && '|' !in a && '|' !in b
    ensures EvaluateCondition(a + "||" + b + "&&" + c, ctx)
         == ((EvaluateCondition(a, ctx) || EvaluateCondition(b, ctx)) && EvaluateCondition(c, ctx))
  {
    TrimmedConcat(a, "||", b);
    AndSplits(a + "||" + b, c, ctx);
    OrSplits(a, b, ctx);
  }

  /** An empty condition is no fixed test and no compound, so it never holds. */
  lemma EmptyConditionFails(ctx: ComponentContext)
    ensures !EvaluateCondition("", ctx)
  {
    assert FindFixedTest("", 0).None?;
    NotContainsShort("", "&&");
    NotContainsShort("", "||");
  }

  /** An empty part, as in a trailing `&&`, never holds, and so sinks the conjunction. */
  lemma EmptyPartFails(a: string, ctx: ComponentContext)
    requires IsTrimmed(a) && '&' !in a
    ensures !EvaluateCondition(a + "&&", ctx)
  {
    EmptyConditionFails(ctx);
    AndSplits(a, "", ctx);
    assert a + "&&" + "" == a + "&&";
  }

  /** An unrecognised condition, with no `&&` or `||`, is false. */
  lemma UnknownConditionFails(condition: string, ctx: ComponentContext)
    requires FindFixedTest(Trim(condition), 0).None?
    requires !Contains(Trim(condition), "&&") && !Contains(Trim(condition), "||")
    ensures !EvaluateCondition(condition, ctx)
  {
    assert !EvaluateCompound(Trim(condition), ctx, |condition|);
  }

  // ---------------------------------------------------------------------------
  // selection
  // ---------------------------------------------------------------------------

  /** ruleToGuideline: the rule's fields under the guideline's names, `input_type` unchecked. */
  function RuleToGuideline(rule: GuidelineRule): (g: Guideline)
    ensures g.condition == rule.condition && g.message == rule.message && g.inputType == rule.inputType
    ensures g.fieldLabel == rule.fieldLabel && g.options == rule.options
  {
    Guideline(rule.condition, rule.message, rule.inputType, rule.fieldLabel, rule.options)
  }

  /** `rules.filter(evaluateCondition).map(ruleToGuideline)`. */
  function ApplicableRules(rules: seq<GuidelineRule>, ctx: ComponentContext): (r: seq<Guideline>)
    ensures |r| <= |rules|
  {
    if rules == [] then []
    else
      var rest := ApplicableRules(rules[1..], ctx);
      if EvaluateCondition(rules[0].condition, ctx) then [RuleToGuideline(rules[0])] + rest else rest
  }

  /** Exactly the rules whose condition holds are turned into guidelines. */
  lemma {:induction false} ApplicableRulesContents(rules: seq<GuidelineRule>, ctx: ComponentContext)
    ensures forall g :: g in ApplicableRules(rules, ctx) ==>
      exists rule :: rule in rules && EvaluateCondition(rule.condition, ctx) && g == RuleToGuideline(rule)
    ensures forall rule :: rule in rules && EvaluateCondition(rule.condition, ctx) ==> RuleToGuideline(rule) in ApplicableRules(rules, ctx)
  {
    if rules != [] {
      ApplicableRulesContents(rules[1..], ctx);
      assert forall rule :: rule in rules[1..] ==> rule in rules;
      assert forall rule :: rule in rules ==> rule == rules[0] || rule in rules[1..];
    }
  }

  /** The filter keeps config order: the rules of a concatenation give the concatenation of their guidelines. */
  lemma {:induction false} ApplicableRulesAppend(a: seq<GuidelineRule>, b: seq<GuidelineRule>, ctx: ComponentContext)
    ensures ApplicableRules(a + b, ctx) == ApplicableRules(a, ctx) + ApplicableRules(b, ctx)
  {
    if a != [] {
      assert (a + b)[1..] == a[1..] + b;
      ApplicableRulesAppend(a[1..], b, ctx);
    } else {
      assert a + b == b;
    }
  }

  /** `guidelines.find(g => g.license_id === licenseId)`, as an index. */
  function FindEntry(entries: seq<LicenseGuideline>, licenseId: string): (r: Option<nat>)
    ensures r.Some? ==> r.value < |entries| && entries[r.value].licenseId == licenseId
    ensures r.Some? ==> forall j :: 0 <= j < r.value ==> entries[j].licenseId != licenseId
    ensures r.None? ==> forall j :: 0 <= j < |entries| ==> entries[j].licenseId != licenseId
  {
    if entries == [] then None
    else if entries[0].licenseId == licenseId then Some(0)
    else
      var r := FindEntry(entries[1..], licenseId);
      if r.Some? then Some(r.value + 1) else None
  }

  /** getGuidelines on a loaded configuration (`None` when none could be loaded). */
  function Guidelines(config: Option<GuidelineConfig>, licenseId: string, ctx: ComponentContext): (r: seq<Guideline>)
    ensures config.None? ==> r == [DefaultGuideline]
    ensures config.Some? && (forall j :: 0 <= j < |config.value.guidelines| ==> config.value.guidelines[j].licenseId != licenseId)
      ==> r == [DefaultGuideline]
    ensures forall i ::
      (config.Some? && 0 <= i < |config.value.guidelines| && config.value.guidelines[i].licenseId == licenseId
       && (forall j :: 0 <= j < i ==> config.value.guidelines[j].licenseId != licenseId))
      ==> r == ApplicableRules(config.value.guidelines[i].rules, ctx)
  {
    if config.None? then [DefaultGuideline]
    else
      match FindEntry(config.value.guidelines, licenseId)
      case None => [DefaultGuideline]
      case Some(i) => ApplicableRules(config.value.guidelines[i].rules, ctx)
  }

  /** When no rule's condition holds, nothing is selected. */
  lemma {:induction false} NoRuleHolds(rules: seq<GuidelineRule>, ctx: ComponentContext)
    requires forall k :: 0 <= k < |rules| ==> !EvaluateCondition(rules[k].condition, ctx)
    ensures ApplicableRules(rules, ctx) == []
  {
    if rules != [] {
      assert forall k :: 0 <= k < |rules| - 1 ==> rules[1..][k] == rules[k + 1];
      NoRuleHolds(rules[1..], ctx);
    }
  }

  /** A matched entry whose rules all fail gives no guideline at all, not the default. */
  lemma MatchedEntryMayGiveNothing(config: GuidelineConfig, licenseId: string, ctx: ComponentContext)
    requires FindEntry(config.guidelines, licenseId).Some?
    requires var rules := config.guidelines[FindEntry(config.guidelines, licenseId).value].rules;
      forall k :: 0 <= k < |rules| ==> !EvaluateCondition(rules[k].condition, ctx)
    ensures Guidelines(Some(config), licenseId, ctx) == []
  {
    NoRuleHolds(config.guidelines[FindEntry(config.guidelines, licenseId).value].rules, ctx);
  }

  /** getLicenseIds on a loaded configuration. */
  function LicenseIds(config: Option<GuidelineConfig>): (ids: seq<string>)
    ensures config.None? ==> ids == []
    ensures config.Some? ==>
      (|ids| == |config.value.guidelines| && forall i :: 0 <= i < |ids| ==> ids[i] == config.value.guidelines[i].licenseId)
  {
    if config.None? then []
    else seq(|config.value.guidelines|, i requires 0 <= i < |config.value.guidelines| => config.value.guidelines[i].licenseId)
  }

  /** getCommonInstructions on a loaded configuration: the first matching entry's instructions
      when they are a non-empty string. */
  function CommonInstructions(config: Option<GuidelineConfig>, licenseId: string): (r: Option<string>)
    ensures r.Some? ==> r.value != ""
    ensures r.Some? <==>
      (config.Some? && FindEntry(config.value.guidelines, licenseId).Some?
       && Truthy(config.value.guidelines[FindEntry(config.value.guidelines, licenseId).value].commonInstructions))
    ensures r.Some? ==> r == config.value.guidelines[FindEntry(config.value.guidelines, licenseId).value].commonInstructions
  {
    if config.None? then None
    else
      match FindEntry(config.value.guidelines, licenseId)
      case None => None
      case Some(i) =>
        var ci := config.value.guidelines[i].commonInstructions;
        if Truthy(ci) then ci else None
  }

  // ---------------------------------------------------------------------------
  // loading
  // ---------------------------------------------------------------------------

  /** What reading the configuration path yields: no file, a YAML syntax error, a document that
      is not a (truthy) object, or an object with its `version` and `guidelines` members
      (`None` for a missing version or a guidelines member that is not an array). */
  datatype ConfigFile =
    | Missing
    | Unparsable
    | NotAnObject
    | Document(version: Option<string>, guidelines: Option<seq<LicenseGuideline>>)

  type FileSystem = string -> ConfigFile

  /** The structural check of loadConfig: a configuration only from an object with a non-empty
      `version` and an array of guidelines. */
  function AcceptConfig(file: ConfigFile): (r: Option<GuidelineConfig>)
    ensures r.Some? <==> file.Document? && Truthy(file.version) && file.guidelines.Some?
    ensures r.Some? ==> r.value == GuidelineConfig(file.version.value, file.guidelines.value)
  {
    match file
    case Document(version, guidelines) =>
      if Truthy(version) && guidelines.Some? then Some(GuidelineConfig(version.value, guidelines.value)) else None
    case _ => None
  }

  /** The provider: a configuration path and the configuration loaded from it, if any. */
  class Provider {
    const configPath: string
    var config: Option<GuidelineConfig>

    constructor(configPath: string)
      ensures this.configPath == configPath && config.None?
    {
      this.configPath := configPath;
      config := None;
    }

    /** loadConfig: replaces the configuration with what the file now holds, or none. */
    method LoadConfig(files: FileSystem)
      modifies this
      ensures config == AcceptConfig(files(configPath))
    {
      var file := files(configPath);
      if file.Missing? {
        config := None;
        return;
      }
      if !(file.Document? && Truthy(file.version) && file.guidelines.Some?) {
        config := None;
        return;
      }
      config := Some(GuidelineConfig(file.version.value, file.guidelines.value));
    }

    /** Loads the configuration when none is held, as the three queries do first. */
    method EnsureLoaded(files: FileSystem)
      modifies this
      ensures config == if old(config).None? then AcceptConfig(files(configPath)) else old(config)
    {
      if config.None? {
        LoadConfig(files);
      }
    }

    method GetGuidelines(files: FileSystem, licenseId: string, ctx: ComponentContext) returns (guidelines: seq<Guideline>)
      modifies this
      ensures config == if old(config).None? then AcceptConfig(files(configPath)) else old(config)
      ensures guidelines == Guidelines(config, licenseId, ctx)
    {
      EnsureLoaded(files);
      if config.None? {
        return [DefaultGuideline];
      }
      var found := FindEntry(config.value.guidelines, licenseId);
      if found.None? {
        return [DefaultGuideline];
      }
      guidelines := ApplicableRules(config.value.guidelines[found.value].rules, ctx);
    }

    method GetLicenseIds(files: FileSystem) returns (ids: seq<string>)
      modifies this
      ensures config == if old(config).None? then AcceptConfig(files(configPath)) else old(config)
      ensures ids == LicenseIds(config)
    {
      EnsureLoaded(files);
      if config.None? {
        return [];
      }
      ids := LicenseIds(config);
    }

    method GetCommonInstructions(files: FileSystem, licenseId: string) returns (instructions: Option<string>)
      modifies this
      ensures config == if old(config).None? then AcceptConfig(files(configPath)) else old(config)
      ensures instructions == CommonInstructions(config, licenseId)
    {
      EnsureLoaded(files);
      if config.None? {
        return None;
      }
      instructions := CommonInstructions(config, licenseId);
    }
  }
}

=== FILE: pr_commenter.dfy ===
/**
 * The pull-request comment listing the SBOM differences (scripts/pr-commenter.ts): a
 * header, the diff table, the guideline messages per license, and the SBOM link, as
 * lines joined with line feeds.
 *
 * The change marker, the name cell and the escaping are the same code as in the review
 * issue and are taken from `IssueCreator`; the license id and the version display are
 * written differently here and are proved to agree with the review issue's.
 */
module PrCommenter {

  import opened Types
  import opened Text
  import opened IssueCreator

  /** getLicenseId as written here: expression, then the license object's id or name. */
  function LicenseId(diff: ComponentDiff): (r: string)
  {
    var component := diff.component;
    if component.licenses.None? || |component.licenses.value| == 0 then "Unknown"
    else if Truthy(component.licenses.value[0].expression) then component.licenses.value[0].expression.value
    else if component.licenses.value[0].license.Some? then
      var l := component.licenses.value[0].license.value;
      if Truthy(l.id) then l.id.value else if Truthy(l.name) then l.name.value else "Unknown"
    else "Unknown"
  }

  /** The comment and the review issue name the same license for every component. */
  lemma LicenseIdAgrees(diff: ComponentDiff)
    ensures LicenseId(diff) == IssueCreator.LicenseId(diff.component)
  {
  }

  /** `version || 'unknown'`. */
  function OrUnknown(version: string): string
  {
    if version == "" then "unknown" else version
  }

  /** formatVersion: `prev → cur` for an update with a non-empty previous version, else the version. */
  function FormatVersion(diff: ComponentDiff): string
  {
    if diff.changeType == Updated && Truthy(diff.previousVersion) then
      diff.previousVersion.value + VersionArrow + OrUnknown(diff.component.version)
    else OrUnknown(diff.component.version)
  }

  /**
   * The display is never empty; it shows the previous version only for an update that has
   * one, and then ends with the current version (or `unknown`).
   */
  lemma FormatVersionCases(diff: ComponentDiff)
    ensures FormatVersion(diff) != ""
    ensures diff.changeType == Updated && Truthy(diff.previousVersion) ==>
      FormatVersion(diff) == diff.previousVersion.value + VersionArrow + OrUnknown(diff.component.version)
    ensures !(diff.changeType == Updated && Truthy(diff.previousVersion)) ==>
      FormatVersion(diff) == (if diff.component.version == "" then "unknown" else diff.component.version)
    ensures EndsWith(FormatVersion(diff), OrUnknown(diff.component.version))
  {
    var cur := OrUnknown(diff.component.version);
    if diff.changeType == Updated && Truthy(diff.previousVersion) {
      var v := diff.previousVersion.value + VersionArrow + cur;
      assert v[|v| - |cur|..] == cur;
    } else {
      assert cur[|cur| - |cur|..] == cur;
    }
  }

  // ---------------------------------------------------------------------------
  // The comment
  // ---------------------------------------------------------------------------

  /** The lines before the table rows. */
  const CommentHeader: seq<string> := [
    "## \U{1F50D} OSS差分検出",
    "",
    "前回リリースとの差分が検出されました。",
    "",
    "### 差分一覧",
    "",
    "| 変更 | OSS名 | バージョン | ライセンス |",
    "|------|-------|-----------|-----------|"]

  const GuidelinesHeading: string := "### ライセンスガイドライン"

  function SbomLine(sbomArtifactUrl: string): string
  {
    "\U{1F4E6} [SBOM をダウンロード](" + sbomArtifactUrl + ")"
  }

  /** The lines after the guidelines. */
  function CommentFooter(sbomArtifactUrl: string): seq<string>
  {
    ["---", "", SbomLine(sbomArtifactUrl)]
  }

  /** One table row: marker, name, version display and license, each escaped. */
  function CommentRow(diff: ComponentDiff): string
  {
    Row([ChangeEmoji(ChangeTypeName(diff.changeType)), NameCell(diff.component),
         EscapeMarkdown(Some(FormatVersion(diff))), EscapeMarkdown(Some(LicenseId(diff)))])
  }

  function GuidelineLine(g: Guideline): string
  {
    "- " + g.message
  }

  /** The bold line naming the license and the component, unescaped. */
  function GuidelineTitle(licenseId: string, c: Component): string
  {
    "**" + licenseId + " (" + SectionName(c) + ")**"
  }

  /** The guideline block of one diff: nothing when its license has no guidelines. */
  function GuidelineBlock(diff: ComponentDiff, guidelinesMap: map<string, seq<Guideline>>): seq<string>
  {
    var licenseId := LicenseId(diff);
    var guidelines := GuidelinesFor(licenseId, guidelinesMap);
    if |guidelines| == 0 then []
    else [GuidelineTitle(licenseId, diff.component)] + Map(guidelines, GuidelineLine) + [""]
  }

  /** The guideline part: a heading and the blocks, only when the map has any entry. */
  function GuidelinePart(diffs: seq<ComponentDiff>, guidelinesMap: map<string, seq<Guideline>>): seq<string>
  {
    if |guidelinesMap| == 0 then []
    else [GuidelinesHeading, ""] + FlatMap(diffs, (d: ComponentDiff) => GuidelineBlock(d, guidelinesMap))
  }

  function CommentLines(diffs: seq<ComponentDiff>, guidelinesMap: map<string, seq<Guideline>>, sbomArtifactUrl: string): seq<string>
  {
    CommentHeader + Map(diffs, CommentRow) + [""] + GuidelinePart(diffs, guidelinesMap) + CommentFooter(sbomArtifactUrl)
  }

  /** generateComment's result: the lines joined with line feeds. */
  function Comment(diffs: seq<ComponentDiff>, guidelinesMap: map<string, seq<Guideline>>, sbomArtifactUrl: string): string
  {
    Join(CommentLines(diffs, guidelinesMap, sbomArtifactUrl), "\n")
  }

  /** generateComment: lines pushed one by one in the source's order, then joined. */
  method GenerateComment(diffs: seq<ComponentDiff>, guidelinesMap: map<string, seq<Guideline>>, sbomArtifactUrl: string)
    returns (comment: string)
    ensures comment == Comment(diffs, guidelinesMap, sbomArtifactUrl)
  {
    var lines := CommentHeader;
    lines := PushRows(lines, diffs);
    lines := lines + [""];
    lines := PushGuidelines(lines, diffs, guidelinesMap);
    lines := lines + ["---", "", SbomLine(sbomArtifactUrl)];
    comment := Join(lines, "\n");
  }

  /** The table rows, pushed one per diff. */
  method PushRows(start: seq<string>, diffs: seq<ComponentDiff>) returns (lines: seq<string>)
    ensures lines == start + Map(diffs, CommentRow)
  {
    lines := start;
    for i := 0 to |diffs|
      invariant lines == start + Map(diffs[..i], CommentRow)
    {
      var diff := diffs[i];
      var emoji := ChangeEmoji(ChangeTypeName(diff.changeType));
      var fullName := NameCell(diff.component);
      var version := EscapeMarkdown(Some(FormatVersion(diff)));
      var license := EscapeMarkdown(Some(LicenseId(diff)));
      MapSnoc(diffs, i, CommentRow);
      lines := lines + [Row([emoji, fullName, version, license])];
    }
    assert diffs[..|diffs|] == diffs;
  }

  /** The guideline part, pushed only when the map has an entry. */
  method PushGuidelines(start: seq<string>, diffs: seq<ComponentDiff>, guidelinesMap: map<string, seq<Guideline>>)
    returns (lines: seq<string>)
    ensures lines == start + GuidelinePart(diffs, guidelinesMap)
  {
    lines := start;
    if |guidelinesMap| > 0 {
      lines := lines + [GuidelinesHeading, ""];
      ghost var blocksStart := lines;
      for i := 0 to |diffs|
        invariant lines == blocksStart + FlatMap(diffs[..i], (d: ComponentDiff) => GuidelineBlock(d, guidelinesMap))
      {
        var block := AppendGuidelineBlock(diffs[i], guidelinesMap);
        FlatMapStep(diffs, i, (d: ComponentDiff) => GuidelineBlock(d, guidelinesMap));
        SeqAppendAssociative(blocksStart, FlatMap(diffs[..i], (d: ComponentDiff) => GuidelineBlock(d, guidelinesMap)), block);
        lines := lines + block;
      }
      assert diffs[..|diffs|] == diffs;
      SeqAppendAssociative(start, [GuidelinesHeading, ""], FlatMap(diffs, (d: ComponentDiff) => GuidelineBlock(d, guidelinesMap)));
    } else {
      assert start + [] == start;
    }
  }

  /** The lines one diff adds to the guideline part, built as the source builds them. */
  method AppendGuidelineBlock(diff: ComponentDiff, guidelinesMap: map<string, seq<Guideline>>)
    returns (block: seq<string>)
    ensures block == GuidelineBlock(diff, guidelinesMap)
  {
    block := [];
    var licenseId := LicenseId(diff);
    var guidelines := GuidelinesFor(licenseId, guidelinesMap);
    if |guidelines| > 0 {
      block := [GuidelineTitle(licenseId, diff.component)];
      for j := 0 to |guidelines|
        invariant block == [GuidelineTitle(licenseId, diff.component)] + Map(guidelines[..j], GuidelineLine)
      {
        MapSnoc(guidelines, j, GuidelineLine);
        block := block + [GuidelineLine(guidelines[j])];
      }
      assert guidelines[..|guidelines|] == guidelines;
      block := block + [""];
    }
  }

  // ---------------------------------------------------------------------------
  // Properties
  // ---------------------------------------------------------------------------

  /**
   * Where everything sits: the eight header lines, one row per diff in order, an empty
   * line, the guideline part, and the three footer lines ending with the SBOM link.
   */
  lemma CommentLayout(diffs: seq<ComponentDiff>, guidelinesMap: map<string, seq<Guideline>>, sbomArtifactUrl: string)
    ensures var lines := CommentLines(diffs, guidelinesMap, sbomArtifactUrl);
      var n := |diffs|;
      var g := |GuidelinePart(diffs, guidelinesMap)|;
      && |lines| == 12 + n + g
      && lines[..8] == CommentHeader
      && (forall k :: 0 <= k < n ==> lines[8 + k] == CommentRow(diffs[k]))
      && lines[8 + n] == ""
      && lines[9 + n..9 + n + g] == GuidelinePart(diffs, guidelinesMap)
      && lines[9 + n + g..] == CommentFooter(sbomArtifactUrl)
  {
    var rows := Map(diffs, CommentRow);
    var part := GuidelinePart(diffs, guidelinesMap);
    var lines := CommentLines(diffs, guidelinesMap, sbomArtifactUrl);
    assert lines == CommentHeader + (rows + ([""] + (part + CommentFooter(sbomArtifactUrl))));
  }

  /**
   * The guideline heading appears exactly when the map has an entry, and then a diff
   * contributes a block exactly when its license has guidelines; a block is the title,
   * one `- message` line per guideline, and an empty line.
   */
  lemma GuidelinePartShape(diffs: seq<ComponentDiff>, guidelinesMap: map<string, seq<Guideline>>)
    ensures GuidelinePart(diffs, guidelinesMap) == [] <==> |guidelinesMap| == 0
    ensures |guidelinesMap| > 0 ==>
      (GuidelinePart(diffs, guidelinesMap) == [GuidelinesHeading, ""] <==>
        forall k :: 0 <= k < |diffs| ==> GuidelinesFor(LicenseId(diffs[k]), guidelinesMap) == [])
  {
    FlatMapEmpty(diffs, (d: ComponentDiff) => GuidelineBlock(d, guidelinesMap));
    if |guidelinesMap| > 0 {
      var blocks := FlatMap(diffs, (d: ComponentDiff) => GuidelineBlock(d, guidelinesMap));
      assert [GuidelinesHeading, ""] + blocks == [GuidelinesHeading, ""] <==> blocks == [] by {
        if [GuidelinesHeading, ""] + blocks == [GuidelinesHeading, ""] {
          assert |blocks| == 0;
        }
      }
    }
  }

  /** A block lists every guideline message of the diff's license, in order. */
  lemma GuidelineBlockLines(diff: ComponentDiff, guidelinesMap: map<string, seq<Guideline>>)
    ensures var guidelines := GuidelinesFor(LicenseId(diff), guidelinesMap);
      var block := GuidelineBlock(diff, guidelinesMap);
      && (guidelines == [] <==> block == [])
      && (guidelines != [] ==>
        && |block| == |guidelines| + 2
        && block[0] == GuidelineTitle(LicenseId(diff), diff.component)
        && (forall k :: 0 <= k < |guidelines| ==> block[k + 1] == "- " + guidelines[k].message)
        && block[|block| - 1] == "")
  {
  }

  /** Every table row is a single line. */
  lemma CommentRowNoLineFeed(diff: ComponentDiff)
    ensures '\n' !in CommentRow(diff)
  {
    ChangeEmojiNoLineFeed(ChangeTypeName(diff.changeType));
    var cells := [ChangeEmoji(ChangeTypeName(diff.changeType)), NameCell(diff.component),
                  EscapeMarkdown(Some(FormatVersion(diff))), EscapeMarkdown(Some(LicenseId(diff)))];
    assert NoLineFeeds(cells);
    RowNoLineFeed(cells);
  }

  lemma HeaderNoLineFeeds()
    ensures NoLineFeeds(CommentHeader)
  {
    assert '\n' !in CommentHeader[0];
    assert '\n' !in CommentHeader[1];
    assert '\n' !in CommentHeader[2];
    assert '\n' !in CommentHeader[3];
    assert '\n' !in CommentHeader[4];
    assert '\n' !in CommentHeader[5];
    assert '\n' !in CommentHeader[6];
    assert '\n' !in CommentHeader[7];
  }

  /**
   * When the guideline messages, the license ids and names they are shown with, and the
   * URL hold no line feed, splitting the comment at line feeds gives back its lines.
   */
  lemma CommentReadsBack(diffs: seq<ComponentDiff>, guidelinesMap: map<string, seq<Guideline>>, sbomArtifactUrl: string)
    requires NoLineFeeds(GuidelinePart(diffs, guidelinesMap)) && '\n' !in sbomArtifactUrl
    ensures Split(Comment(diffs, guidelinesMap, sbomArtifactUrl), "\n") == CommentLines(diffs, guidelinesMap, sbomArtifactUrl)
  {
    var rows := Map(diffs, CommentRow);
    forall k | 0 <= k < |rows| ensures '\n' !in rows[k] {
      CommentRowNoLineFeed(diffs[k]);
    }
    var head := CommentHeader + rows + [""];
    HeaderNoLineFeeds();
    NoLineFeedsConcat(CommentHeader, rows);
    NoLineFeedsConcat(CommentHeader + rows, [""]);
    NoLineFeedsConcat(head, GuidelinePart(diffs, guidelinesMap));
    NoLineFeedsConcat(head + GuidelinePart(diffs, guidelinesMap), CommentFooter(sbomArtifactUrl));
    var lines := CommentLines(diffs, guidelinesMap, sbomArtifactUrl);
    SplitJoin(lines);
  }

  /**
   * For a component with a version, the comment's row equals the review issue's row:
   * escaping the whole `prev → cur` display is escaping each version on its own.
   */
  lemma CommentRowAgrees(diff: ComponentDiff)
    requires diff.component.version != ""
    ensures CommentRow(diff) == TableRowLine(diff)
  {
    LicenseIdAgrees(diff);
    var cur := diff.component.version;
    if diff.changeType == Updated && Truthy(diff.previousVersion) {
      var prev := diff.previousVersion.value;
      EscapeTextConcat(prev, VersionArrow);
      EscapeTextConcat(prev + VersionArrow, cur);
      assert EscapeText(VersionArrow) == VersionArrow by {
        EscapeClean(VersionArrow);
      }
    }
  }

  /** The comment ends with the SBOM download link. */
  lemma CommentEndsWithLink(diffs: seq<ComponentDiff>, guidelinesMap: map<string, seq<Guideline>>, sbomArtifactUrl: string)
    ensures EndsWith(Comment(diffs, guidelinesMap, sbomArtifactUrl), "\n\n" + SbomLine(sbomArtifactUrl))
  {
    var lines := CommentLines(diffs, guidelinesMap, sbomArtifactUrl);
    var front := CommentHeader + Map(diffs, CommentRow) + [""] + GuidelinePart(diffs, guidelinesMap) + ["---"];
    assert lines == front + ["", SbomLine(sbomArtifactUrl)];
    JoinConcat(front, ["", SbomLine(sbomArtifactUrl)], "\n");
    var tail := Join(["", SbomLine(sbomArtifactUrl)], "\n");
    assert tail == "" + "\n" + SbomLine(sbomArtifactUrl);
    var text := Join(front, "\n") + "\n" + tail;
    assert text == Join(front, "\n") + ("\n\n" + SbomLine(sbomArtifactUrl));
    EndsWithConcat(Join(front, "\n"), "\n\n" + SbomLine(sbomArtifactUrl), "\n\n" + SbomLine(sbomArtifactUrl));
  }
}

=== FILE: round_trip.dfy ===
/**
 * What scripts/issue-creator.ts writes and scripts/issue-parser.ts reads back: the diff
 * table of the review issue, the change markers and the labels both sides spell out.
 */
module RoundTrip {

  import opened Types
  import opened Text
  import opened IssueCreator
  import opened IssueParser

  // ---------------------------------------------------------------------------
  // Labels and markers
  // ---------------------------------------------------------------------------

  /** The labels the parser looks for are the ones the creator writes. */
  lemma LabelsAgree()
    ensures DoneValue == DoneLabel
    ensures ApprovalCheckboxLabel == ApprovalLabel
    ensures ApprovalRequestCheckboxLabel == ApprovalRequestLabel
  {
  }

  /** A marker reads back as the change type it was written for; any other name as `unknown`. */
  lemma MarkerRoundTrip(changeType: string)
    ensures ChangeTypeOf(ChangeEmoji(changeType))
      == (if changeType in {"added", "updated", "removed"} then changeType else "unknown")
  {
    var m := ChangeEmoji(changeType);
    if changeType == "added" {
      ContainsAt(m, "\U{1F195}", 0);
    } else if changeType == "updated" {
      NotContainsFirstAbsent(m, "\U{1F195}");
      ContainsAt(m, "\U{1F504}", 0);
    } else if changeType == "removed" {
      NotContainsFirstAbsent(m, "\U{1F195}");
      NotContainsFirstAbsent(m, "\U{1F504}");
      ContainsAt(m, "\U{1F5D1}\U{FE0F}", 0);
    } else {
      NotContainsFirstAbsent(m, "\U{1F195}");
      NotContainsFirstAbsent(m, "\U{1F504}");
      NotContainsFirstAbsent(m, "\U{1F5D1}\U{FE0F}");
    }
  }

  // ---------------------------------------------------------------------------
  // Cells
  // ---------------------------------------------------------------------------

  /** A cell the reader gets back unchanged: non-empty, trimmed and free of `|`. */
  predicate CellReadable(cell: string)
  {
    cell != [] && IsTrimmed(cell) && '|' !in cell
  }

  lemma {:induction false} NonEmptyPartsConcat(a: seq<string>, b: seq<string>)
    ensures NonEmptyParts(a + b) == NonEmptyParts(a) + NonEmptyParts(b)
    decreases |a|
  {
    if a != [] {
      assert (a + b)[0] == a[0] && (a + b)[1..] == a[1..] + b;
      NonEmptyPartsConcat(a[1..], b);
    } else {
      assert a + b == b;
    }
  }

  lemma {:induction false} NonEmptyPartsAll(parts: seq<string>)
    requires forall k :: 0 <= k < |parts| ==> parts[k] != []
    ensures NonEmptyParts(parts) == parts
  {
    if parts != [] {
      assert forall k :: 0 <= k < |parts| - 1 ==> parts[1..][k] == parts[k + 1];
      NonEmptyPartsAll(parts[1..]);
    }
  }

  /** The empty parts at both ends of a split row are dropped, the non-empty cells kept. */
  lemma NonEmptyFrame(cells: seq<string>)
    requires forall k :: 0 <= k < |cells| ==> cells[k] != []
    ensures NonEmptyParts([""] + cells + [""]) == cells
  {
    NonEmptyPartsConcat([""] + cells, [""]);
    NonEmptyPartsConcat([""], cells);
    NonEmptyPartsAll(cells);
  }

  lemma MapFrame<T, U>(e: T, xs: seq<T>, f: T -> U)
    ensures Map([e] + xs + [e], f) == [f(e)] + Map(xs, f) + [f(e)]
  {
  }

  /** Trimming padded readable cells gives the cells back. */
  lemma TrimPaddedAll(cells: seq<string>)
    requires forall k :: 0 <= k < |cells| ==> CellReadable(cells[k])
    ensures Map(Map(cells, Padded), Trim) == cells
  {
    forall k | 0 <= k < |cells| ensures Trim(Padded(cells[k])) == cells[k] {
      TrimPadded(" ", cells[k], " ");
    }
  }

  /** A row of readable cells is read back as exactly those cells. */
  lemma RowFieldsOfRow(cells: seq<string>)
    requires forall k :: 0 <= k < |cells| ==> CellReadable(cells[k])
    ensures RowFields(Row(cells)) == cells
  {
    SplitRow(cells);
    MapFrame("", Map(cells, Padded), Trim);
    TrimPaddedAll(cells);
    assert Trim("") == "";
    NonEmptyFrame(cells);
  }

  // ---------------------------------------------------------------------------
  // Fields the table carries
  // ---------------------------------------------------------------------------

  /**
   * A field the table carries unchanged: non-empty, trimmed, free of what escaping rewrites
   * (`|` and line breaks), of the version arrow, of the header's first character and of the
   * separator row's `---`.
   */
  predicate Plain(s: string)
  {
    && s != [] && IsTrimmed(s)
    && '|' !in s && '\n' !in s && '\r' !in s
    && '→' !in s && '変' !in s
    && !Contains(s, "---")
  }

  /** The version cell shows the previous version. */
  predicate ShowsPrevious(d: ComponentDiff)
  {
    d.changeType == Updated && Truthy(d.previousVersion)
  }

  /** A diff whose row reads back: plain fields, and a `:` only as the group separator. */
  predicate Readable(d: ComponentDiff)
  {
    var c := d.component;
    && Plain(c.name) && Plain(c.version) && Plain(LicenseId(c))
    && (Truthy(c.group) ==> Plain(c.group.value) && ':' !in c.group.value)
    && (!Truthy(c.group) ==> ':' !in c.name)
    && (ShowsPrevious(d) ==> Plain(d.previousVersion.value))
  }

  /** What the reader should get back for a diff's row. */
  function Expected(d: ComponentDiff): ParsedComponent
  {
    var c := d.component;
    ParsedComponent(if Truthy(c.group) then c.group else None, c.name, c.version, LicenseId(c), ChangeTypeName(d.changeType))
  }

  /** Two texts free of `---`, joined where one side is not `-`, are free of it. */
  lemma NoRuleConcat(a: string, b: string)
    requires !Contains(a, "---") && !Contains(b, "---")
    requires (a != [] && a[|a| - 1] != '-') || (b != [] && b[0] != '-')
    ensures !Contains(a + b, "---")
  {
    NotContainsConcat(a, b, "---");
  }

  lemma MarkerCell(ct: ChangeType)
    ensures var m := ChangeEmoji(ChangeTypeName(ct));
      CellReadable(m) && '変' !in m && !Contains(m, "---")
  {
    var m := ChangeEmoji(ChangeTypeName(ct));
    NotContainsFirstAbsent(m, "---");
  }

  lemma NameCellPlain(c: Component)
    requires Plain(c.name)
    requires Truthy(c.group) ==> Plain(c.group.value) && ':' !in c.group.value
    requires !Truthy(c.group) ==> ':' !in c.name
    ensures CellReadable(NameCell(c)) && '変' !in NameCell(c) && !Contains(NameCell(c), "---")
    ensures SplitFullName(NameCell(c)) == (if Truthy(c.group) then c.group else None, c.name)
  {
    EscapeClean(c.name);
    if Truthy(c.group) {
      var g := c.group.value;
      EscapeClean(g);
      assert NameCell(c) == g + ":" + c.name;
      NotContainsFirstAbsent(":", "---");
      NoRuleConcat(g, ":");
      NoRuleConcat(g + ":", c.name);
      SplitFullNameCases(NameCell(c));
    } else {
      SplitFullNameCases(c.name);
    }
  }

  /** An update's version cell `prev → cur` is readable. */
  lemma ArrowCell(prev: string, cur: string)
    requires Plain(prev) && Plain(cur)
    ensures var cell := prev + VersionArrow + cur;
      CellReadable(cell) && '変' !in cell && !Contains(cell, "---")
  {
    var cell := prev + VersionArrow + cur;
    NotContainsFirstAbsent(VersionArrow, "---");
    NoRuleConcat(prev, VersionArrow);
    NoRuleConcat(prev + VersionArrow, cur);
    assert cell[0] == prev[0] && cell[|cell| - 1] == cur[|cur| - 1];
  }

  /** An update's version cell `prev → cur` reads back as `cur`. */
  lemma ArrowCellVersion(prev: string, cur: string)
    requires '→' !in prev && cur != [] && IsTrimmed(cur)
    ensures ParseVersion(prev + VersionArrow + cur) == cur
  {
    var cell := prev + VersionArrow + cur;
    assert cell == (prev + " ") + "→" + (" " + cur);
    ParseVersionCases(cell);
    TrimPadded(" ", cur, "");
    assert " " + cur + "" == " " + cur;
  }

  lemma VersionCellPlain(d: ComponentDiff)
    requires Plain(d.component.version)
    requires ShowsPrevious(d) ==> Plain(d.previousVersion.value)
    ensures CellReadable(VersionCell(d)) && '変' !in VersionCell(d) && !Contains(VersionCell(d), "---")
    ensures ParseVersion(VersionCell(d)) == d.component.version
  {
    var cur := d.component.version;
    EscapeClean(cur);
    if ShowsPrevious(d) {
      var prev := d.previousVersion.value;
      EscapeClean(prev);
      assert VersionCell(d) == prev + VersionArrow + cur;
      ArrowCell(prev, cur);
      ArrowCellVersion(prev, cur);
    } else {
      ParseVersionCases(cur);
    }
  }

  /** A four-cell row is free of `---` when its cells are. */
  lemma RowNoRule(a: string, b: string, c: string, d: string)
    requires !Contains(a, "---") && !Contains(b, "---") && !Contains(c, "---") && !Contains(d, "---")
    ensures !Contains(Row([a, b, c, d]), "---")
  {
    RowOfFour(a, b, c, d);
    NotContainsFirstAbsent("| ", "---");
    NotContainsFirstAbsent(" | ", "---");
    NotContainsFirstAbsent(" |", "---");
    NoRuleConcat("| ", a);
    NoRuleConcat("| " + a, " | ");
    NoRuleConcat("| " + a + " | ", b);
    NoRuleConcat("| " + a + " | " + b, " | ");
    NoRuleConcat("| " + a + " | " + b + " | ", c);
    NoRuleConcat("| " + a + " | " + b + " | " + c, " | ");
    NoRuleConcat("| " + a + " | " + b + " | " + c + " | ", d);
    NoRuleConcat("| " + a + " | " + b + " | " + c + " | " + d, " |");
  }

  /** Four readable cells are read back as themselves. */
  lemma RowFieldsOfFour(a: string, b: string, c: string, d: string)
    requires CellReadable(a) && CellReadable(b) && CellReadable(c) && CellReadable(d)
    ensures RowFields(Row([a, b, c, d])) == [a, b, c, d]
  {
    var cells := [a, b, c, d];
    forall k | 0 <= k < |cells| ensures CellReadable(cells[k]) {
      if k == 0 { assert cells[k] == a; }
      else if k == 1 { assert cells[k] == b; }
      else if k == 2 { assert cells[k] == c; }
      else { assert cells[k] == d; }
    }
    RowFieldsOfRow(cells);
  }

  /** A character other than `|` and space that no cell holds is not in the row. */
  lemma {:induction false} RowLacks(cells: seq<string>, ch: char)
    requires ch != '|' && ch != ' '
    requires forall k :: 0 <= k < |cells| ==> ch !in cells[k]
    ensures ch !in RowCells(cells) && ch !in Row(cells)
  {
    if cells != [] {
      assert forall k :: 0 <= k < |cells| - 1 ==> cells[1..][k] == cells[k + 1];
      RowLacks(cells[1..], ch);
      assert ch !in cells[0];
    }
  }

  lemma RowLacksFour(a: string, b: string, c: string, d: string, ch: char)
    requires ch != '|' && ch != ' '
    requires ch !in a && ch !in b && ch !in c && ch !in d
    ensures ch !in Row([a, b, c, d])
  {
    var cells := [a, b, c, d];
    forall k | 0 <= k < |cells| ensures ch !in cells[k] {
      if k == 0 { assert cells[k] == a; }
      else if k == 1 { assert cells[k] == b; }
      else if k == 2 { assert cells[k] == c; }
      else { assert cells[k] == d; }
    }
    RowLacks(cells, ch);
  }

  /** A readable diff's row is read back as the diff's group, name, version, license and change type. */
  lemma RowRoundTrip(d: ComponentDiff)
    requires Readable(d)
    ensures ParseComponentFromTable(TableRowLine(d)) == Some(Expected(d))
  {
    var c := d.component;
    var m, n, v, l := ChangeEmoji(ChangeTypeName(d.changeType)), NameCell(c), VersionCell(d), EscapeMarkdown(Some(LicenseId(c)));
    MarkerCell(d.changeType);
    NameCellPlain(c);
    VersionCellPlain(d);
    EscapeClean(LicenseId(c));
    RowFieldsOfFour(m, n, v, l);
    MarkerRoundTrip(ChangeTypeName(d.changeType));
  }

  /** A readable diff's row is a table row to the reader: no header, no separator, no end. */
  lemma RowIsTableRow(d: ComponentDiff)
    requires Readable(d)
    ensures var row := TableRowLine(d);
      !IsHeaderLine(row) && !IsSeparatorLine(row) && !EndsTable(row) && Contains(row, "|")
  {
    var c := d.component;
    var m, n, v, l := ChangeEmoji(ChangeTypeName(d.changeType)), NameCell(c), VersionCell(d), EscapeMarkdown(Some(LicenseId(c)));
    MarkerCell(d.changeType);
    NameCellPlain(c);
    VersionCellPlain(d);
    EscapeClean(LicenseId(c));
    var row := Row([m, n, v, l]);
    RowLacksFour(m, n, v, l, '変');
    NotContainsFirstAbsent(row, "変更");
    RowNoRule(m, n, v, l);
    assert row[0] == '|';
    TrimEmpty(row);
    ContainsAt(row, "|", 0);
  }

  // ---------------------------------------------------------------------------
  // The table
  // ---------------------------------------------------------------------------

  /** The header row names the four columns the reader looks for. */
  lemma HeaderRecognised()
    ensures IsHeaderLine(TableHeaderLine)
  {
    HeaderHasChange();
    HeaderHasName();
    HeaderHasVersion();
    HeaderHasLicense();
  }

  lemma HeaderHasChange()
    ensures Contains(TableHeaderLine, "変更")
  {
    var s := TableHeaderLine;
    assert s[2] == '変';
    assert s[3] == '更';
    assert s[2..4] == "変更";
    ContainsAt(s, "変更", 2);
  }

  lemma HeaderHasName()
    ensures Contains(TableHeaderLine, "OSS名")
  {
    var s := TableHeaderLine;
    assert s[7] == 'O';
    assert s[8] == 'S';
    assert s[9] == 'S';
    assert s[10] == '名';
    assert s[7..11] == "OSS名";
    ContainsAt(s, "OSS名", 7);
  }

  lemma HeaderHasVersion()
    ensures Contains(TableHeaderLine, "バージョン")
  {
    var s := TableHeaderLine;
    assert s[14] == 'バ';
    assert s[15] == 'ー';
    assert s[16] == 'ジ';
    assert s[17] == 'ョ';
    assert s[18] == 'ン';
    assert s[14..19] == "バージョン";
    ContainsAt(s, "バージョン", 14);
  }

  lemma HeaderHasLicense()
    ensures Contains(TableHeaderLine, "ライセンス")
  {
    var s := TableHeaderLine;
    assert s[22] == 'ラ';
    assert s[23] == 'イ';
    assert s[24] == 'セ';
    assert s[25] == 'ン';
    assert s[26] == 'ス';
    assert s[22..27] == "ライセンス";
    ContainsAt(s, "ライセンス", 22);
  }

  /** The separator row is not a header and is skipped inside the table. */
  lemma SeparatorRecognised()
    ensures !IsHeaderLine(TableSeparatorLine) && IsSeparatorLine(TableSeparatorLine)
  {
    SeparatorNotHeader();
    SeparatorHasRule();
  }

  lemma SeparatorNotHeader()
    ensures !IsHeaderLine(TableSeparatorLine)
  {
    NotContainsFirstAbsent(TableSeparatorLine, "変更");
  }

  lemma SeparatorHasRule()
    ensures IsSeparatorLine(TableSeparatorLine)
  {
    var s := TableSeparatorLine;
    assert s[1] == '-';
    assert s[2] == '-';
    assert s[3] == '-';
    assert s[1..4] == "---";
    ContainsAt(s, "---", 1);
  }

  /** The empty line is neither header nor separator, and ends the table. */
  lemma EmptyLineRecognised()
    ensures !IsHeaderLine("") && !IsSeparatorLine("") && EndsTable("")
  {
    NotContainsShort("", "変更");
    NotContainsShort("", "---");
  }

  /** Inside the table, a readable diff's row yields its component and reading goes on. */
  lemma FirstRowRead(d: ComponentDiff, rest: seq<string>)
    requires Readable(d)
    ensures TableComponents([TableRowLine(d)] + rest, true) == [Expected(d)] + TableComponents(rest, true)
  {
    RowIsTableRow(d);
    RowRoundTrip(d);
    assert ([TableRowLine(d)] + rest)[1..] == rest;
  }

  /** Inside the table, the rows of readable diffs and the empty line after them read as the diffs. */
  lemma {:induction false} RowsRead(diffs: seq<ComponentDiff>)
    requires forall k :: 0 <= k < |diffs| ==> Readable(diffs[k])
    ensures TableComponents(TableRowLines(diffs) + [""], true) == Map(diffs, Expected)
  {
    if diffs == [] {
      EmptyLineRecognised();
      assert TableRowLines(diffs) + [""] == [""];
    } else {
      var rest := TableRowLines(diffs[1..]) + [""];
      MapCons(diffs, TableRowLine);
      assert TableRowLines(diffs) + [""] == [TableRowLine(diffs[0])] + rest;
      FirstRowRead(diffs[0], rest);
      RowsRead(diffs[1..]);
      MapCons(diffs, Expected);
    }
  }

  lemma Regroup<T>(x: T, y: T, z: T, r: seq<T>, e: seq<T>)
    ensures [x, y, z] + r + e == [x] + [y] + ([z] + (r + e))
  {
  }

  /**
   * The table of readable diffs reads back as one component per diff, in order, with the
   * diff's group, name, current version, license and change type.
   */
  lemma TableRoundTrip(diffs: seq<ComponentDiff>)
    requires forall k :: 0 <= k < |diffs| ==> Readable(diffs[k])
    ensures TableComponentsOf(TableMarkdown(diffs)) == Map(diffs, Expected)
  {
    TableLines(diffs);
    EmptyLineRecognised();
    HeaderRecognised();
    SeparatorRecognised();
    var rest := TableRowLines(diffs) + [""];
    Regroup("", TableHeaderLine, TableSeparatorLine, TableRowLines(diffs), [""]);
    RowsAfterHeader([""], TableHeaderLine, [TableSeparatorLine] + rest);
    assert ([TableSeparatorLine] + rest)[1..] == rest;
    RowsRead(diffs);
  }

  // ---------------------------------------------------------------------------
  // The approval checkbox
  // ---------------------------------------------------------------------------

  lemma LabelHead()
    ensures |ApprovalCheckboxLabel| >= 2
    ensures ApprovalCheckboxLabel[0] == '上' && ApprovalCheckboxLabel[1] == '記'
  {
  }

  /** Where the parts of a checkbox line written after `front` sit. */
  lemma CheckboxLineLayout(front: string, c: char, labelText: string)
    ensures var t := front + "\n" + "- [" + [c] + "] " + labelText + "\n";
      var n := |front|;
      && |t| == n + 8 + |labelText|
      && (forall k :: 0 <= k < n ==> t[k] == front[k])
      && t[n] == '\n' && t[n + 1] == '-' && t[n + 2] == ' ' && t[n + 3] == '['
      && t[n + 4] == c && t[n + 5] == ']' && t[n + 6] == ' '
      && OccursAt(t, labelText, n + 7) && t[n + 7 + |labelText|] == '\n'
  {
    var m := "- [" + [c] + "] " + labelText + "\n" + "";
    var pre := front + "\n";
    var t := pre + m;
    assert t == front + "\n" + "- [" + [c] + "] " + labelText + "\n";
    CheckboxLineParts(c, labelText, "");
    ShiftedParts(pre, m, 6 + |labelText|);
    assert t[|front| + 7..|front| + 7 + |labelText|] == m[6..6 + |labelText|];
  }

  /**
   * A label whose first character is not in `front`, not in the checkbox syntax and not
   * repeated as its second character occurs only on the checkbox line.
   */
  lemma LabelOnlyOnLine(front: string, c: char, labelText: string)
    requires |labelText| >= 2 && labelText[0] != labelText[1]
    requires labelText[0] !in front && labelText[0] !in "\n-[] " && labelText[0] != c
    ensures var t := front + "\n" + "- [" + [c] + "] " + labelText + "\n";
      forall j: nat :: OccursAt(t, labelText, j) ==> j == |front| + 7
  {
    var t := front + "\n" + "- [" + [c] + "] " + labelText + "\n";
    var n := |front|;
    CheckboxLineLayout(front, c, labelText);
    forall j: nat | OccursAt(t, labelText, j) ensures j == n + 7 {
      assert t[j] == t[j..j + |labelText|][0] == labelText[0];
    }
  }

  /**
   * After any text that lacks the label's first character, the approval checkbox line
   * reads as approved exactly when its box holds `x` or `X`.
   */
  lemma CheckboxAfterFront(front: string, c: char)
    requires '上' !in front && IsCheckMark(c)
    ensures ParseApprovalIssue(front + "\n" + "- [" + [c] + "] " + ApprovalCheckboxLabel + "\n") <==> c in {'x', 'X'}
  {
    var L := ApprovalCheckboxLabel;
    var t := front + "\n" + "- [" + [c] + "] " + L + "\n";
    var n := |front|;
    LabelHead();
    CheckboxLineLayout(front, c, L);
    LabelOnlyOnLine(front, c, L);
    CheckboxAtParts(t, L, n + 1, n + 1);
    assert LineStart(t, n + 1);
    var r := FirstCheckboxFrom(t, L, 0);
    OnlyOccurrenceCapture(t, L, n + 7, r.value);
  }

  // ---------------------------------------------------------------------------
  // The approval issue
  // ---------------------------------------------------------------------------

  /** The approval footer's links and heading, up to the empty line before the checkbox. */
  function ApprovalLinks(sbomArtifactUrl: string, reviewResultsArtifactUrl: string): string
  {
    "---\n\n"
    + "\U{1F4E6} [SBOM をダウンロード](" + sbomArtifactUrl + ")\n\n"
    + "\U{1F4C4} [見直し結果JSON をダウンロード](" + reviewResultsArtifactUrl + ")\n\n"
    + "### 承認\n"
  }

  /** The approval issue up to the line break before its checkbox line. */
  function ApprovalFront(version: string, results: seq<ComponentReviewResult>, sbomArtifactUrl: string, reviewResultsArtifactUrl: string): string
  {
    ApprovalPreamble(version) + LinesText(SummaryLines(results)) + DetailsHeading + Details(results)
    + ApprovalLinks(sbomArtifactUrl, reviewResultsArtifactUrl)
  }

  /** The approval issue with its checkbox holding `c`, as the approver leaves it. */
  function MarkedApproval(version: string, results: seq<ComponentReviewResult>, sbomArtifactUrl: string, reviewResultsArtifactUrl: string, c: char): string
  {
    ApprovalFront(version, results, sbomArtifactUrl, reviewResultsArtifactUrl) + CheckboxText(c)
  }

  /** The line break before the checkbox line, and that line holding `c`. */
  function CheckboxText(c: char): string
  {
    "\n" + "- [" + [c] + "] " + ApprovalLabel + "\n"
  }

  /** Appending the checkbox text is appending its parts one by one. */
  lemma CheckboxTextParts<T>(front: seq<T>, a: seq<T>, b: seq<T>, c: seq<T>, d: seq<T>, l: seq<T>)
    ensures front + (a + b + c + d + l + a) == front + a + b + c + d + l + a
  {
  }

  lemma FooterLayout(sbomArtifactUrl: string, reviewResultsArtifactUrl: string)
    ensures ApprovalFooter(sbomArtifactUrl, reviewResultsArtifactUrl)
      == ApprovalLinks(sbomArtifactUrl, reviewResultsArtifactUrl) + CheckboxText(' ')
  {
    var links := "---\n\n" + "\U{1F4E6} [SBOM をダウンロード](" + sbomArtifactUrl + ")\n\n"
      + "\U{1F4C4} [見直し結果JSON をダウンロード](" + reviewResultsArtifactUrl + ")\n\n";
    assert "### 承認\n\n" == "### 承認\n" + "\n";
    assert "- [" + [' '] + "] " == "- [ ] ";
    assert ApprovalFooter(sbomArtifactUrl, reviewResultsArtifactUrl) == links + "### 承認\n" + "\n" + ApprovalCheckboxLine + "\n";
  }

  /** The approval issue as generated is the one with an empty checkbox. */
  lemma GeneratedIsUnmarked(version: string, results: seq<ComponentReviewResult>, sbomArtifactUrl: string, reviewResultsArtifactUrl: string)
    ensures ApprovalMarkdown(version, results, sbomArtifactUrl, reviewResultsArtifactUrl)
      == MarkedApproval(version, results, sbomArtifactUrl, reviewResultsArtifactUrl, ' ')
  {
    var body := ApprovalPreamble(version) + LinesText(SummaryLines(results)) + DetailsHeading + Details(results);
    var links := ApprovalLinks(sbomArtifactUrl, reviewResultsArtifactUrl);
    FooterLayout(sbomArtifactUrl, reviewResultsArtifactUrl);
    SeqAppendAssociative(body, links, CheckboxText(' '));
    assert ApprovalFront(version, results, sbomArtifactUrl, reviewResultsArtifactUrl) == body + links;
  }

  /** None of a result's texts holds `ch`. */
  predicate ResultLacks(r: ComponentReviewResult, ch: char)
  {
    && (r.component.group.Some? ==> ch !in r.component.group.value)
    && ch !in r.component.name && ch !in r.component.version && ch !in r.license
    && forall k :: 0 <= k < |r.actions| ==> ch !in r.actions[k].0 && ch !in r.actions[k].1
  }

  /** Escaping adds only `\`, `|` and spaces. */
  lemma {:induction false} EscapeLacks(s: string, ch: char)
    requires ch !in s && ch != '\\' && ch != '|' && ch != ' '
    ensures ch !in EscapeMarkdown(Some(s))
  {
    if s != [] {
      assert forall k :: 0 <= k < |s| - 1 ==> s[1..][k] == s[k + 1];
      EscapeLacks(s[1..], ch);
      assert s[0] != ch;
    }
  }

  lemma {:induction false} LinesTextLacks(lines: seq<string>, ch: char)
    requires ch != '\n' && forall k :: 0 <= k < |lines| ==> ch !in lines[k]
    ensures ch !in LinesText(lines)
  {
    if lines != [] {
      assert forall k :: 0 <= k < |lines| - 1 ==> lines[1..][k] == lines[k + 1];
      LinesTextLacks(lines[1..], ch);
      assert ch !in lines[0];
    }
  }

  lemma {:induction false} FlatMapLacks<T>(xs: seq<T>, f: T -> string, ch: char)
    requires forall k :: 0 <= k < |xs| ==> ch !in f(xs[k])
    ensures ch !in FlatMap(xs, f)
  {
    if xs != [] {
      var front := xs[..|xs| - 1];
      assert forall k :: 0 <= k < |front| ==> front[k] == xs[k];
      FlatMapLacks(front, f, ch);
      assert ch !in f(xs[|xs| - 1]);
    }
  }

  lemma SummaryLineLacks(r: ComponentReviewResult)
    requires ResultLacks(r, '上')
    ensures '上' !in SummaryLine(r)
  {
    var c := r.component;
    EscapeLacks(c.name, '上');
    if Truthy(c.group) {
      EscapeLacks(c.group.value, '上');
    }
    EscapeLacks(c.version, '上');
    EscapeLacks(r.license, '上');
    var summary := ActionSummary(|r.actions|);
    if |r.actions| > 0 {
      var digits := NatToString(|r.actions|);
      assert '上' !in digits;
      assert summary == digits + "件の対応";
    }
    RowLacksFour(SummaryNameCell(c), EscapeMarkdown(Some(c.version)), EscapeMarkdown(Some(r.license)), summary, '上');
  }

  lemma DetailBlockLacks(r: ComponentReviewResult)
    requires ResultLacks(r, '上')
    ensures '上' !in DetailBlock(r)
  {
    DetailHeadingLacks(r);
    if |r.actions| == 0 {
      assert '上' !in "対応事項なし\n\n";
    } else {
      ActionLinesLacks(r.actions);
    }
  }

  lemma DetailHeadingLacks(r: ComponentReviewResult)
    requires ResultLacks(r, '上')
    ensures '上' !in DetailHeading(r)
  {
    EscapeLacks(DetailName(r.component), '上');
    EscapeLacks(r.license, '上');
  }

  lemma ActionLinesLacks(actions: Actions)
    requires forall k :: 0 <= k < |actions| ==> '上' !in actions[k].0 && '上' !in actions[k].1
    ensures '上' !in LinesText(ActionLines(actions))
  {
    forall k | 0 <= k < |actions| ensures '上' !in ActionLines(actions)[k] {
      EscapeLacks(actions[k].0, '上');
      EscapeLacks(actions[k].1, '上');
    }
    LinesTextLacks(ActionLines(actions), '上');
  }

  lemma PreambleLacks(version: string)
    requires '上' !in version
    ensures '上' !in ApprovalPreamble(version)
  {
    PreambleHeadLacks();
    PreambleMessageLacks();
    PreambleTableLacks();
  }

  lemma PreambleHeadLacks()
    ensures '上' !in "## \U{2705} OSS利用承認タスク\n\n" && '上' !in "リリースバージョン: **" && '上' !in "**\n\n"
  {
    assert '上' !in "## \U{2705} OSS利用承認タスク\n\n";
    assert '上' !in "リリースバージョン: **";
  }

  lemma PreambleMessageLacks()
    ensures '上' !in "見直し担当者による確認が完了しました。以下の内容を確認し、承認してください。\n\n"
    ensures '上' !in "### 見直し結果一覧\n\n"
  {
    assert '上' !in "見直し担当者による確認が完了しました。以下の内容を確認し、承認してください。\n\n";
  }

  lemma PreambleTableLacks()
    ensures '上' !in "| OSS名 | バージョン | ライセンス | 対応状況 |\n"
    ensures '上' !in "|-------|-----------|-----------|----------|\n"
  {
    assert '上' !in "| OSS名 | バージョン | ライセンス | 対応状況 |\n";
  }

  lemma LinksLacks(sbomArtifactUrl: string, reviewResultsArtifactUrl: string)
    requires '上' !in sbomArtifactUrl && '上' !in reviewResultsArtifactUrl
    ensures '上' !in ApprovalLinks(sbomArtifactUrl, reviewResultsArtifactUrl)
  {
  }

  lemma SummaryLacks(results: seq<ComponentReviewResult>)
    requires forall k :: 0 <= k < |results| ==> ResultLacks(results[k], '上')
    ensures '上' !in LinesText(SummaryLines(results))
  {
    forall k | 0 <= k < |results| ensures '上' !in SummaryLines(results)[k] {
      SummaryLineLacks(results[k]);
    }
    LinesTextLacks(SummaryLines(results), '上');
  }

  lemma DetailsLacks(results: seq<ComponentReviewResult>)
    requires forall k :: 0 <= k < |results| ==> ResultLacks(results[k], '上')
    ensures '上' !in Details(results)
  {
    forall k | 0 <= k < |results| ensures '上' !in DetailBlock(results[k]) {
      DetailBlockLacks(results[k]);
    }
    FlatMapLacks(results, DetailBlock, '上');
  }

  /** Everything before the checkbox line lacks the label's first character when the inputs do. */
  lemma ApprovalFrontLacks(version: string, results: seq<ComponentReviewResult>, sbomArtifactUrl: string, reviewResultsArtifactUrl: string)
    requires '上' !in version && '上' !in sbomArtifactUrl && '上' !in reviewResultsArtifactUrl
    requires forall k :: 0 <= k < |results| ==> ResultLacks(results[k], '上')
    ensures '上' !in ApprovalFront(version, results, sbomArtifactUrl, reviewResultsArtifactUrl)
  {
    PreambleLacks(version);
    SummaryLacks(results);
    assert '上' !in DetailsHeading;
    DetailsLacks(results);
    LinksLacks(sbomArtifactUrl, reviewResultsArtifactUrl);
  }

  /**
   * The approval issue reads as approved exactly when the approver puts `x` or `X` in its
   * checkbox. This holds when no input text holds the label's first character, so that no
   * other line can carry the label.
   */
  lemma ApprovalReadBack(version: string, results: seq<ComponentReviewResult>, sbomArtifactUrl: string, reviewResultsArtifactUrl: string, c: char)
    requires '上' !in version && '上' !in sbomArtifactUrl && '上' !in reviewResultsArtifactUrl
    requires forall k :: 0 <= k < |results| ==> ResultLacks(results[k], '上')
    requires IsCheckMark(c)
    ensures ParseApprovalIssue(MarkedApproval(version, results, sbomArtifactUrl, reviewResultsArtifactUrl, c)) <==> c in {'x', 'X'}
  {
    var front := ApprovalFront(version, results, sbomArtifactUrl, reviewResultsArtifactUrl);
    ApprovalFrontLacks(version, results, sbomArtifactUrl, reviewResultsArtifactUrl);
    LabelsAgree();
    CheckboxTextParts(front, "\n", "- [", [c], "] ", ApprovalLabel);
    CheckboxAfterFront(front, c);
  }

  /** The approval issue as generated, with its box empty, reads as not approved. */
  lemma GeneratedNotApproved(version: string, results: seq<ComponentReviewResult>, sbomArtifactUrl: string, reviewResultsArtifactUrl: string)
    requires '上' !in version && '上' !in sbomArtifactUrl && '上' !in reviewResultsArtifactUrl
    requires forall k :: 0 <= k < |results| ==> ResultLacks(results[k], '上')
    ensures !ParseApprovalIssue(ApprovalMarkdown(version, results, sbomArtifactUrl, reviewResultsArtifactUrl))
  {
    GeneratedIsUnmarked(version, results, sbomArtifactUrl, reviewResultsArtifactUrl);
    ApprovalReadBack(version, results, sbomArtifactUrl, reviewResultsArtifactUrl, ' ');
  }
}

=== FILE: text.dfy ===
/**
 * The JavaScript string built-ins the core relies on, over `seq<char>`:
 * `trim`, `includes`, `indexOf`, `split`, `join`, `startsWith` (the built-in
 * prefix test `p <= s`) and `replace(/c/g, r)` for a single character `c`.
 */
module Text {

  import opened Types

  /** The characters of JavaScript's `\s` class, which are also the ones `trim` removes. */
  predicate IsWhitespace(c: char)
  {
    || c == '\t' || c == '\n' || c == '\U{000B}' || c == '\U{000C}' || c == '\r' || c == ' '
    || c == '\U{00A0}' || c == '\U{1680}' || ('\U{2000}' <= c <= '\U{200A}')
    || c == '\U{2028}' || c == '\U{2029}' || c == '\U{202F}' || c == '\U{205F}'
    || c == '\U{3000}' || c == '\U{FEFF}'
  }

  /** The characters after which `^` matches in a multiline JavaScript regular expression. */
  predicate IsLineTerminator(c: char)
  {
    c == '\n' || c == '\r' || c == '\U{2028}' || c == '\U{2029}'
  }

  predicate AllWhitespace(s: string)
  {
    forall k :: 0 <= k < |s| ==> IsWhitespace(s[k])
  }

  /** Neither starts nor ends with whitespace (so `trim` leaves it alone). */
  predicate IsTrimmed(s: string)
  {
    s == [] || (!IsWhitespace(s[0]) && !IsWhitespace(s[|s| - 1]))
  }

  predicate NoLineTerminator(s: string)
  {
    forall k :: 0 <= k < |s| ==> !IsLineTerminator(s[k])
  }

  /** The end of the greedy `\s*` run that starts at `i`. */
  function SkipWhitespace(t: string, i: nat): (r: nat)
    requires i <= |t|
    ensures i <= r <= |t|
    ensures forall k :: i <= k < r ==> IsWhitespace(t[k])
    ensures r == |t| || !IsWhitespace(t[r])
    decreases |t| - i
  {
    if i == |t| || !IsWhitespace(t[i]) then i else SkipWhitespace(t, i + 1)
  }

  /** The start of the whitespace run that ends at `j`. */
  function WhitespaceRunStart(t: string, j: nat): (r: nat)
    requires j <= |t|
    ensures r <= j
    ensures forall k :: r <= k < j ==> IsWhitespace(t[k])
    ensures r == 0 || !IsWhitespace(t[r - 1])
  {
    if j == 0 || !IsWhitespace(t[j - 1]) then j else WhitespaceRunStart(t, j - 1)
  }

  /** `String.prototype.trim`: strip whitespace from both ends, one character at a time. */
  function Trim(s: string): (r: string)
    ensures IsTrimmed(r)
    ensures |r| <= |s|
    decreases |s|
  {
    if s == [] then []
    else if IsWhitespace(s[0]) then Trim(s[1..])
    else if IsWhitespace(s[|s| - 1]) then Trim(s[..|s| - 1])
    else s
  }

  /** A text trims to nothing exactly when it is all whitespace. */
  lemma {:induction false} TrimEmpty(s: string)
    ensures Trim(s) == [] <==> AllWhitespace(s)
    decreases |s|
  {
    if s != [] {
      if IsWhitespace(s[0]) {
        TrimEmpty(s[1..]);
        assert AllWhitespace(s) <==> AllWhitespace(s[1..]) by {
          assert forall k :: 0 < k < |s| ==> s[k] == s[1..][k - 1];
        }
      } else if IsWhitespace(s[|s| - 1]) {
        TrimEmpty(s[..|s| - 1]);
        assert s[..|s| - 1][0] == s[0];
      }
    }
  }

  /** Whitespace around a trimmed, non-empty text is exactly what trim removes. */
  lemma {:induction false} TrimPadded(w1: string, x: string, w2: string)
    requires AllWhitespace(w1) && AllWhitespace(w2) && IsTrimmed(x) && x != []
    ensures Trim(w1 + x + w2) == x
    decreases |w1| + |w2|
  {
    var t := w1 + x + w2;
    if w1 != [] {
      assert t[0] == w1[0];
      assert t[1..] == w1[1..] + x + w2;
      TrimPadded(w1[1..], x, w2);
    } else if w2 != [] {
      assert t == x + w2;
      assert t[0] == x[0] && t[|t| - 1] == w2[|w2| - 1];
      assert t[..|t| - 1] == [] + x + w2[..|w2| - 1];
      TrimPadded([], x, w2[..|w2| - 1]);
    } else {
      assert t == x;
    }
  }

  lemma TrimTrimmed(x: string)
    requires IsTrimmed(x)
    ensures Trim(x) == x
  {
  }

  /** Joining trimmed texts around a non-empty trimmed middle gives a trimmed text. */
  lemma TrimmedConcat(a: string, m: string, b: string)
    requires IsTrimmed(a) && IsTrimmed(m) && IsTrimmed(b) && m != []
    ensures IsTrimmed(a + m + b)
  {
    var t := a + m + b;
    assert t[0] == if a != [] then a[0] else m[0];
    assert t[|t| - 1] == if b != [] then b[|b| - 1] else m[|m| - 1];
  }

  // ---------------------------------------------------------------------------
  // includes / indexOf
  // ---------------------------------------------------------------------------

  predicate OccursAt(s: string, p: string, i: nat)
  {
    i + |p| <= |s| && s[i..i + |p|] == p
  }

  /** `s.indexOf(p, from)`, with `None` for -1. */
  function IndexOfFrom(s: string, p: string, from: nat): (r: Option<nat>)
    requires from <= |s|
    ensures r.Some? ==> from <= r.value <= |s| && OccursAt(s, p, r.value)
    ensures r.Some? ==> forall k :: from <= k < r.value ==> !OccursAt(s, p, k)
    ensures r.None? ==> forall k :: from <= k <= |s| ==> !OccursAt(s, p, k)
    decreases |s| - from
  {
    if OccursAt(s, p, from) then Some(from)
    else if from == |s| then None
    else IndexOfFrom(s, p, from + 1)
  }

  function IndexOf(s: string, p: string): (r: Option<nat>)
    ensures r.Some? ==> OccursAt(s, p, r.value) && forall k :: 0 <= k < r.value ==> !OccursAt(s, p, k)
    ensures r.None? ==> forall k :: 0 <= k <= |s| ==> !OccursAt(s, p, k)
  {
    IndexOfFrom(s, p, 0)
  }

  /** `s.includes(p)`. */
  predicate Contains(s: string, p: string)
  {
    IndexOf(s, p).Some?
  }

  lemma ContainsAt(s: string, p: string, i: nat)
    requires OccursAt(s, p, i)
    ensures Contains(s, p)
  {
  }

  lemma ContainsChar(s: string, c: char)
    ensures Contains(s, [c]) <==> c in s
  {
    if c in s {
      var i :| 0 <= i < |s| && s[i] == c;
      assert OccursAt(s, [c], i);
    }
    if Contains(s, [c]) {
      var i := IndexOf(s, [c]).value;
      assert s[i..i + 1] == [c];
      assert s[i] == c;
    }
  }

  /** A needle whose first character does not occur in `s` does not occur in `s`. */
  lemma NotContainsFirstAbsent(s: string, p: string)
    requires p != [] && p[0] !in s
    ensures !Contains(s, p)
  {
    forall k | 0 <= k <= |s| ensures !OccursAt(s, p, k) {
      if k + |p| <= |s| {
        assert s[k..k + |p|][0] == s[k];
      }
    }
  }

  /** The first occurrence of `p` in `a + p + b` is right after `a` when `a` lacks p's first character. */
  lemma IndexOfAfterFree(a: string, p: string, b: string)
    requires p != [] && p[0] !in a
    ensures IndexOf(a + p + b, p) == Some(|a|)
  {
    var t := a + p + b;
    assert t[|a|..|a| + |p|] == p;
    assert OccursAt(t, p, |a|);
    forall k | 0 <= k < |a| ensures !OccursAt(t, p, k) {
      if k + |p| <= |t| {
        assert t[k..k + |p|][0] == a[k];
      }
    }
  }

  /** A pattern absent from both halves cannot straddle a join where one side of the
      join is a character that the pattern does not contain. */
  lemma NotContainsConcat(a: string, b: string, p: string)
    requires !Contains(a, p) && !Contains(b, p)
    requires (|a| > 0 && a[|a| - 1] !in p) || (|b| > 0 && b[0] !in p)
    ensures !Contains(a + b, p)
  {
    var t := a + b;
    forall i: nat | i <= |t| ensures !OccursAt(t, p, i) {
      if i + |p| <= |a| {
        assert a[i..i + |p|] == t[i..i + |p|];
        assert !OccursAt(a, p, i);
      } else if i >= |a| {
        if i + |p| <= |t| {
          assert b[i - |a|..i - |a| + |p|] == t[i..i + |p|];
        }
        assert !OccursAt(b, p, i - |a|);
      } else if i + |p| <= |t| {
        // a window over the join covers both a[|a| - 1] and b[0]
        var w := t[i..i + |p|];
        assert w[|a| - 1 - i] == a[|a| - 1];
        assert w[|a| - i] == b[0];
      }
    }
  }

  lemma NotContainsShort(s: string, p: string)
    requires |s| < |p|
    ensures !Contains(s, p)
  {
  }

  // ---------------------------------------------------------------------------
  // split / join
  // ---------------------------------------------------------------------------

  /** `s.split(sep)` for a non-empty separator. */
  function Split(s: string, sep: string): (parts: seq<string>)
    requires sep != []
    ensures |parts| >= 1
    ensures forall k :: 0 <= k < |parts| ==> |parts[k]| <= |s|
    ensures Contains(s, sep) ==> forall k :: 0 <= k < |parts| ==> |parts[k]| + |sep| <= |s|
    decreases |s|
  {
    match IndexOf(s, sep)
    case None => [s]
    case Some(i) =>
      var rest := s[i + |sep|..];
      [s[..i]] + Split(rest, sep)
  }

  /** Splitting at the first separator, when the text before it lacks the separator's first character. */
  lemma SplitAfterFree(a: string, sep: string, b: string)
    requires sep != [] && sep[0] !in a
    ensures Split(a + sep + b, sep) == [a] + Split(b, sep)
  {
    IndexOfAfterFree(a, sep, b);
    var t := a + sep + b;
    assert t[..|a|] == a;
    assert t[|a| + |sep|..] == b;
  }

  /** A text lacking the separator's first character is not split. */
  lemma SplitFree(s: string, sep: string)
    requires sep != [] && sep[0] !in s
    ensures Split(s, sep) == [s]
  {
    NotContainsFirstAbsent(s, sep);
  }

  /** A separator occurring once, between two texts free of its first character, splits them apart. */
  lemma SplitInTwo(a: string, sep: string, b: string)
    requires sep != [] && sep[0] !in a && sep[0] !in b
    ensures Contains(a + sep + b, sep)
    ensures Split(a + sep + b, sep) == [a, b]
  {
    var t := a + sep + b;
    assert t[|a|..|a| + |sep|] == sep;
    ContainsAt(t, sep, |a|);
    SplitAfterFree(a, sep, b);
    SplitFree(b, sep);
  }

  /** `parts.join(sep)`. */
  function Join(parts: seq<string>, sep: string): string
  {
    if |parts| == 0 then []
    else if |parts| == 1 then parts[0]
    else parts[0] + sep + Join(parts[1..], sep)
  }

  lemma {:induction false} JoinConcat(xs: seq<string>, ys: seq<string>, sep: string)
    requires |xs| > 0 && |ys| > 0
    ensures Join(xs + ys, sep) == Join(xs, sep) + sep + Join(ys, sep)
    decreases |xs|
  {
    if |xs| == 1 {
      assert (xs + ys)[1..] == ys;
    } else {
      assert (xs + ys)[1..] == xs[1..] + ys;
      JoinConcat(xs[1..], ys, sep);
    }
  }

  /** Joining the parts of a split with the same separator gives the text back. */
  lemma {:induction false} JoinSplit(s: string, sep: string)
    requires sep != []
    ensures Join(Split(s, sep), sep) == s
    decreases |s|
  {
    var found := IndexOf(s, sep);
    if found.Some? {
      var i := found.value;
      var rest := s[i + |sep|..];
      var tail := Split(rest, sep);
      assert Split(s, sep) == [s[..i]] + tail;
      JoinSplit(rest, sep);
      assert ([s[..i]] + tail)[1..] == tail;
      assert Join([s[..i]] + tail, sep) == s[..i] + sep + Join(tail, sep);
      assert s[i..i + |sep|] == sep;
      assert s == s[..i] + s[i..i + |sep|] + rest;
    }
  }

  /** No part of a split holds the separator: each ends at the separator's first occurrence. */
  lemma {:induction false} SplitPartsLackSeparator(s: string, sep: string)
    requires sep != []
    ensures forall k :: 0 <= k < |Split(s, sep)| ==> !Contains(Split(s, sep)[k], sep)
    decreases |s|
  {
    match IndexOf(s, sep)
    case None =>
    case Some(i) =>
      var rest := s[i + |sep|..];
      SplitPartsLackSeparator(rest, sep);
      PrefixBeforeFirstLacks(s, sep, i);
      assert Split(s, sep) == [s[..i]] + Split(rest, sep);
  }

  /** The text before the first occurrence of `p` does not hold `p`. */
  lemma PrefixBeforeFirstLacks(s: string, p: string, i: nat)
    requires p != [] && IndexOf(s, p) == Some(i)
    ensures !Contains(s[..i], p)
  {
    var a := s[..i];
    forall j | 0 <= j <= |a| ensures !OccursAt(a, p, j) {
      if j + |p| <= |a| {
        assert a[j..j + |p|] == s[j..j + |p|];
        assert !OccursAt(s, p, j);
      }
    }
  }

  /** Lines each followed by a line feed, as text built by appending `line + '\n'`. */
  function LinesText(lines: seq<string>): string
  {
    if lines == [] then [] else lines[0] + "\n" + LinesText(lines[1..])
  }

  lemma {:induction false} LinesTextAppend(lines: seq<string>, line: string)
    ensures LinesText(lines + [line]) == LinesText(lines) + line + "\n"
  {
    if lines == [] {
      assert [] + [line] == [line];
      assert [line][1..] == [];
    } else {
      assert (lines + [line])[1..] == lines[1..] + [line];
      LinesTextAppend(lines[1..], line);
    }
  }

  predicate NoLineFeeds(lines: seq<string>)
  {
    forall k :: 0 <= k < |lines| ==> '\n' !in lines[k]
  }

  lemma NoLineFeedsConcat(a: seq<string>, b: seq<string>)
    requires NoLineFeeds(a) && NoLineFeeds(b)
    ensures NoLineFeeds(a + b)
  {
    forall k | 0 <= k < |a + b| ensures '\n' !in (a + b)[k] {
      if k < |a| { assert (a + b)[k] == a[k]; } else { assert (a + b)[k] == b[k - |a|]; }
    }
  }

  /** Splitting text built from lines without line feeds gives those lines back, then the rest's lines. */
  lemma {:induction false} SplitLines(lines: seq<string>, rest: string)
    requires NoLineFeeds(lines)
    ensures Split(LinesText(lines) + rest, "\n") == lines + Split(rest, "\n")
  {
    if lines != [] {
      var head, tail := lines[0] + "\n", LinesText(lines[1..]) + rest;
      assert LinesText(lines) == head + LinesText(lines[1..]);
      assert LinesText(lines) + rest == head + tail;
      SplitAfterFree(lines[0], "\n", tail);
      assert NoLineFeeds(lines[1..]) by {
        assert forall k :: 0 <= k < |lines| - 1 ==> lines[1..][k] == lines[k + 1];
      }
      SplitLines(lines[1..], rest);
      assert Split(head + tail, "\n") == [lines[0]] + (lines[1..] + Split(rest, "\n"));
      assert [lines[0]] + lines[1..] == lines;
      SeqAppendAssociative([lines[0]], lines[1..], Split(rest, "\n"));
    } else {
      assert LinesText(lines) + rest == rest;
      assert lines + Split(rest, "\n") == Split(rest, "\n");
    }
  }

  lemma SeqAppendAssociative<T>(x: seq<T>, y: seq<T>, z: seq<T>)
    ensures x + (y + z) == x + y + z
  {
  }

  /** `xs.map(f)`. */
  function Map<T, U>(xs: seq<T>, f: T -> U): (ys: seq<U>)
    ensures |ys| == |xs|
    ensures forall k :: 0 <= k < |xs| ==> ys[k] == f(xs[k])
  {
    seq(|xs|, k requires 0 <= k < |xs| => f(xs[k]))
  }

  /** Mapping one more element appends its image. */
  lemma MapSnoc<T, U>(xs: seq<T>, i: nat, f: T -> U)
    requires i < |xs|
    ensures Map(xs[..i + 1], f) == Map(xs[..i], f) + [f(xs[i])]
  {
  }

  /** Mapping one more element adds its line at the end of the text. */
  lemma LinesTextMapStep<T>(prefix: seq<string>, xs: seq<T>, i: nat, f: T -> string)
    requires i < |xs|
    ensures LinesText(prefix + Map(xs[..i + 1], f)) == LinesText(prefix + Map(xs[..i], f)) + f(xs[i]) + "\n"
  {
    assert prefix + Map(xs[..i + 1], f) == (prefix + Map(xs[..i], f)) + [f(xs[i])];
    LinesTextAppend(prefix + Map(xs[..i], f), f(xs[i]));
  }

  /** The concatenation of `f(x)` for the elements `x` of `xs`, in order. */
  function FlatMap<T, U>(xs: seq<T>, f: T -> seq<U>): seq<U>
  {
    if xs == [] then [] else FlatMap(xs[..|xs| - 1], f) + f(xs[|xs| - 1])
  }

  lemma FlatMapStep<T, U>(xs: seq<T>, i: nat, f: T -> seq<U>)
    requires i < |xs|
    ensures FlatMap(xs[..i + 1], f) == FlatMap(xs[..i], f) + f(xs[i])
  {
    assert xs[..i + 1][..i] == xs[..i];
  }

  lemma {:induction false} FlatMapAppend<T, U>(a: seq<T>, b: seq<T>, f: T -> seq<U>)
    ensures FlatMap(a + b, f) == FlatMap(a, f) + FlatMap(b, f)
    decreases |b|
  {
    if b == [] {
      assert a + b == a;
    } else {
      var b0, x := b[..|b| - 1], b[|b| - 1];
      var ab := a + b;
      assert ab[..|ab| - 1] == a + b0 && ab[|ab| - 1] == x;
      FlatMapAppend(a, b0, f);
      SeqAppendAssociative(FlatMap(a, f), FlatMap(b0, f), f(x));
    }
  }

  /** The concatenation is empty exactly when every part is. */
  lemma {:induction false} FlatMapEmpty<T, U>(xs: seq<T>, f: T -> seq<U>)
    ensures FlatMap(xs, f) == [] <==> forall k :: 0 <= k < |xs| ==> f(xs[k]) == []
  {
    if xs != [] {
      var front := xs[..|xs| - 1];
      FlatMapEmpty(front, f);
      assert forall k :: 0 <= k < |front| ==> front[k] == xs[k];
    }
  }

  /** Appending a line to text that follows a prefix. */
  lemma AppendLineAssociative(p: string, text: string, line: string)
    ensures p + text + line + "\n" == p + (text + line + "\n")
  {
  }

  /** Appending the line of one more element to text made of a head and mapped lines. */
  lemma AppendMappedLine<T>(head: string, xs: seq<T>, i: nat, f: T -> string)
    requires i < |xs|
    ensures head + LinesText(Map(xs[..i + 1], f)) == head + LinesText(Map(xs[..i], f)) + f(xs[i]) + "\n"
  {
    LinesTextMapStep([], xs, i, f);
    assert [] + Map(xs[..i], f) == Map(xs[..i], f);
    assert [] + Map(xs[..i + 1], f) == Map(xs[..i + 1], f);
    AppendLineAssociative(head, LinesText(Map(xs[..i], f)), f(xs[i]));
  }

  /** `s` ends with `t`. */
  predicate EndsWith<T(==)>(s: seq<T>, t: seq<T>)
  {
    |t| <= |s| && s[|s| - |t|..] == t
  }

  lemma EndsWithConcat<T>(a: seq<T>, b: seq<T>, t: seq<T>)
    requires EndsWith(b, t)
    ensures EndsWith(a + b, t)
  {
    assert (a + b)[|a + b| - |t|..] == b[|b| - |t|..];
  }

  /** `join('\n')` is undone by `split('\n')` when no line holds a line feed. */
  lemma {:induction false} SplitJoin(lines: seq<string>)
    requires |lines| >= 1 && NoLineFeeds(lines)
    ensures Split(Join(lines, "\n"), "\n") == lines
  {
    if |lines| == 1 {
      SplitFree(lines[0], "\n");
    } else {
      SplitAfterFree(lines[0], "\n", Join(lines[1..], "\n"));
      assert NoLineFeeds(lines[1..]) by {
        assert forall k :: 0 <= k < |lines| - 1 ==> lines[1..][k] == lines[k + 1];
      }
      SplitJoin(lines[1..]);
      assert [lines[0]] + lines[1..] == lines;
    }
  }

  // ---------------------------------------------------------------------------
  // Markdown table rows
  // ---------------------------------------------------------------------------

  /** A Markdown table row `| c1 | c2 | ... |`. */
  function Row(cells: seq<string>): string
  {
    "|" + RowCells(cells)
  }

  /** The part of a row after its first `|`: each cell padded by spaces and closed by `|`. */
  function RowCells(cells: seq<string>): string
  {
    if cells == [] then "" else " " + cells[0] + " |" + RowCells(cells[1..])
  }

  /** A four-cell row is the text `| a | b | c | d |`. */
  lemma RowOfFour(a: string, b: string, c: string, d: string)
    ensures Row([a, b, c, d]) == "| " + a + " | " + b + " | " + c + " | " + d + " |"
  {
    var cells := [a, b, c, d];
    assert cells[1..] == [b, c, d] && cells[1..][1..] == [c, d] && cells[1..][1..][1..] == [d];
    assert RowCells([d]) == " " + d + " |" + "";
    assert RowCells([c, d]) == " " + c + " |" + (" " + d + " |");
    assert RowCells([b, c, d]) == " " + b + " |" + (" " + c + " |" + (" " + d + " |"));
    assert RowCells(cells) == " " + a + " |" + (" " + b + " |" + (" " + c + " |" + (" " + d + " |")));
  }

  /** A row of cells without line feeds has none. */
  lemma {:induction false} RowNoLineFeed(cells: seq<string>)
    requires NoLineFeeds(cells)
    ensures '\n' !in Row(cells)
  {
    RowCellsNoLineFeed(cells);
  }

  lemma {:induction false} RowCellsNoLineFeed(cells: seq<string>)
    requires NoLineFeeds(cells)
    ensures '\n' !in RowCells(cells)
  {
    if cells != [] {
      assert NoLineFeeds(cells[1..]) by {
        assert forall k :: 0 <= k < |cells| - 1 ==> cells[1..][k] == cells[k + 1];
      }
      RowCellsNoLineFeed(cells[1..]);
      assert '\n' !in cells[0];
    }
  }

  /** A cell with its padding spaces, as `split('|')` leaves it. */
  function Padded(cell: string): string
  {
    " " + cell + " "
  }

  /** Every cell is free of `|`. */
  predicate PipeFree(cells: seq<string>)
  {
    forall k :: 0 <= k < |cells| ==> '|' !in cells[k]
  }

  lemma RowCellsHead(cells: seq<string>)
    requires cells != [] && '|' !in cells[0]
    ensures Split(RowCells(cells), "|") == [Padded(cells[0])] + Split(RowCells(cells[1..]), "|")
  {
    var rest := RowCells(cells[1..]);
    assert RowCells(cells) == Padded(cells[0]) + "|" + rest;
    assert '|' !in Padded(cells[0]);
    SplitAfterFree(Padded(cells[0]), "|", rest);
  }

  lemma MapCons<T, U>(xs: seq<T>, f: T -> U)
    requires xs != []
    ensures Map(xs, f) == [f(xs[0])] + Map(xs[1..], f)
  {
  }

  lemma {:induction false} SplitRowCells(cells: seq<string>)
    requires PipeFree(cells)
    ensures Split(RowCells(cells), "|") == Map(cells, Padded) + [""]
  {
    if cells == [] {
      SplitFree("", "|");
    } else {
      RowCellsHead(cells);
      assert PipeFree(cells[1..]) by {
        assert forall k :: 0 <= k < |cells| - 1 ==> cells[1..][k] == cells[k + 1];
      }
      SplitRowCells(cells[1..]);
      MapCons(cells, Padded);
      SeqAppendAssociative([Padded(cells[0])], Map(cells[1..], Padded), [""]);
    }
  }

  /** Splitting a row of `|`-free cells at `|` gives an empty part, each padded cell, and an empty part. */
  lemma SplitRow(cells: seq<string>)
    requires PipeFree(cells)
    ensures Split(Row(cells), "|") == [""] + Map(cells, Padded) + [""]
  {
    SplitRowCells(cells);
    assert Row(cells) == "" + "|" + RowCells(cells);
    SplitAfterFree("", "|", RowCells(cells));
  }

  // ---------------------------------------------------------------------------
  // replace(/c/g, r)
  // ---------------------------------------------------------------------------

  /** Every occurrence of `c` in `s` replaced by `r`. */
  function ReplaceChar(s: string, c: char, r: string): (out: string)
    ensures c !in r ==> c !in out
  {
    if s == [] then []
    else (if s[0] == c then r else [s[0]]) + ReplaceChar(s[1..], c, r)
  }

  lemma {:induction false} ReplaceCharConcat(a: string, b: string, c: char, r: string)
    ensures ReplaceChar(a + b, c, r) == ReplaceChar(a, c, r) + ReplaceChar(b, c, r)
  {
    if a != [] {
      var head := if a[0] == c then r else [a[0]];
      assert (a + b)[0] == a[0] && (a + b)[1..] == a[1..] + b;
      assert ReplaceChar(a + b, c, r) == head + ReplaceChar(a[1..] + b, c, r);
      ReplaceCharConcat(a[1..], b, c, r);
      SeqAppendAssociative(head, ReplaceChar(a[1..], c, r), ReplaceChar(b, c, r));
    } else {
      assert a + b == b;
    }
  }

  lemma {:induction false} ReplaceCharAbsent(s: string, c: char, r: string)
    requires c !in s
    ensures ReplaceChar(s, c, r) == s
  {
    if s != [] {
      ReplaceCharAbsent(s[1..], c, r);
      assert [s[0]] + s[1..] == s;
    }
  }

  /** `replace(/c/g, r)` is `split(c).join(r)`: each `c` becomes `r` and every other character stays. */
  lemma {:induction false} ReplaceCharSplitJoin(s: string, c: char, r: string)
    ensures ReplaceChar(s, c, r) == Join(Split(s, [c]), r)
    decreases |s|
  {
    if c !in s {
      ReplaceCharAbsent(s, c, r);
      SplitFree(s, [c]);
    } else {
      ContainsChar(s, c);
      var i := IndexOf(s, [c]).value;
      assert s[i..i + 1] == [c];
      forall k | 0 <= k < i ensures s[k] != c {
        assert !OccursAt(s, [c], k);
        assert s[k..k + 1] == [s[k]];
      }
      var a, b := s[..i], s[i + 1..];
      assert c !in a;
      assert s == a + [c] + b;
      SplitAfterFree(a, [c], b);
      var parts := [a] + Split(b, [c]);
      assert parts[1..] == Split(b, [c]);
      ReplaceCharSplitJoin(b, c, r);
      ReplaceCharConcat(a + [c], b, c, r);
      ReplaceCharConcat(a, [c], c, r);
      ReplaceCharAbsent(a, c, r);
      assert ReplaceChar([c], c, r) == r + ReplaceChar([], c, r);
    }
  }

  // ---------------------------------------------------------------------------
  // UTF-16 code units
  // ---------------------------------------------------------------------------

  /** The UTF-16 code units JavaScript stores for `c`: a surrogate pair above U+FFFF. */
  function CodeUnits(c: char): nat
  {
    if c as int > 0xFFFF then 2 else 1
  }

  /** A string's JavaScript `length`. */
  function CodeUnitLength(s: string): nat
  {
    if s == [] then 0 else CodeUnits(s[0]) + CodeUnitLength(s[1..])
  }

  // ---------------------------------------------------------------------------
  // numbers
  // ---------------------------------------------------------------------------

  /** The decimal digits of `n`, as a template literal prints it. */
  function NatToString(n: nat): (s: string)
    ensures |s| >= 1
    ensures forall k :: 0 <= k < |s| ==> '0' <= s[k] <= '9'
  {
    var d := [('0' as int + n % 10) as char];
    if n < 10 then d else NatToString(n / 10) + d
  }

  lemma {:induction false} NatToStringInjective(m: nat, n: nat)
    requires NatToString(m) == NatToString(n)
    ensures m == n
  {
    var s := NatToString(m);
    assert s[|s| - 1] == ('0' as int + m % 10) as char;
    assert NatToString(n)[|s| - 1] == ('0' as int + n % 10) as char;
    if m >= 10 && n >= 10 {
      assert NatToString(m / 10) == s[..|s| - 1] == NatToString(n / 10);
      NatToStringInjective(m / 10, n / 10);
    }
  }
}

=== FILE: types.dfy ===
/** The records of scripts/types.ts that the core passes around. */
module Types {

  datatype Option<+T> = None | Some(value: T)

  datatype Result<+T, +E> = Success(value: T) | Failure(error: E)

  /** JavaScript truthiness of an optional string: present and not empty. */
  predicate Truthy(s: Option<string>)
  {
    s.Some? && s.value != ""
  }

  // ---------------------------------------------------------------------------
  // SBOM (CycloneDX)
  // ---------------------------------------------------------------------------

  datatype ComponentType = Library | Application | Framework | Container | File

  /** The structured form of a license entry: `{id?, name?, url?}`. */
  datatype LicenseRef = LicenseRef(id: Option<string>, name: Option<string>, url: Option<string>)

  /** A license entry: a structured reference, an SPDX expression, or both. */
  datatype License = License(license: Option<LicenseRef>, expression: Option<string>)

  datatype Hash = Hash(alg: string, content: string)

  datatype Component = Component(
    kind: ComponentType,
    group: Option<string>,
    name: string,
    version: string,
    licenses: Option<seq<License>>,
    purl: Option<string>,
    hashes: Option<seq<Hash>>)

  // ---------------------------------------------------------------------------
  // Diffs
  // ---------------------------------------------------------------------------

  datatype ChangeType = Added | Updated | Removed

  /** The wire name of a change type ('added' | 'updated' | 'removed'). */
  function ChangeTypeName(ct: ChangeType): string
  {
    match ct
    case Added => "added"
    case Updated => "updated"
    case Removed => "removed"
  }

  /** `previousVersion` is filled only for updated entries. */
  datatype ComponentDiff = ComponentDiff(changeType: ChangeType, component: Component, previousVersion: Option<string>)

  // ---------------------------------------------------------------------------
  // License guidelines
  // ---------------------------------------------------------------------------

  datatype LinkType = Static | Dynamic

  datatype ComponentContext = ComponentContext(
    isModified: Option<bool>,
    linkType: Option<LinkType>,
    isDistributed: Option<bool>)

  /** A guideline as handed to the renderers; `inputType` is kept as the configured text,
      because the source converts it with an unchecked cast. */
  datatype Guideline = Guideline(
    condition: string,
    message: string,
    inputType: string,
    fieldLabel: string,
    options: Option<seq<string>>)

  datatype GuidelineRule = GuidelineRule(
    condition: string,
    message: string,
    inputType: string,
    fieldLabel: string,
    options: Option<seq<string>>)

  datatype LicenseGuideline = LicenseGuideline(
    licenseId: string,
    commonInstructions: Option<string>,
    rules: seq<GuidelineRule>)

  datatype GuidelineConfig = GuidelineConfig(version: string, guidelines: seq<LicenseGuideline>)

  // ---------------------------------------------------------------------------
  // Review and approval
  // ---------------------------------------------------------------------------

  /** A JavaScript record `label -> value`, in key insertion order. */
  type Actions = seq<(string, string)>

  datatype ComponentRef = ComponentRef(group: Option<string>, name: string, version: string)

  datatype ComponentReviewResult = ComponentReviewResult(component: ComponentRef, license: string, actions: Actions)

  datatype ReviewResultsDocument = ReviewResultsDocument(
    version: string,
    reviewedAt: string,
    reviewer: string,
    results: seq<ComponentReviewResult>)

  // ---------------------------------------------------------------------------
  // Config-based version management
  // ---------------------------------------------------------------------------

  datatype OssConfig = OssConfig(preProjectVersion: Option<string>)

  datatype ConfigReadResult = ConfigReadResult(
    success: bool,
    config: Option<OssConfig>,
    error: Option<string>,
    filePath: string)

  /** The sources `config-file`, `first-version` and `dt-not-found`. */
  datatype VersionSource = ConfigFile | FirstVersion | DtNotFound

  datatype VersionResolution = VersionResolution(
    previousVersion: Option<string>,
    isFirstVersion: bool,
    source: VersionSource,
    reason: Option<string>)
}

=== FILE: version_resolver.dfy ===
/**
 * dist/scripts/version-resolver.js: choosing the previous release to compare
 * against, from the result of reading the project's config file and from what
 * Dependency-Track answers for the recorded version.
 *
 * The Dependency-Track lookup `getSBOM(projectName, version)` is a parameter:
 * a function from the query to one of its three outcomes.
 */
module VersionResolver {

  import opened Types
  import opened Text

  /** isEmpty: null/undefined, or a string that trims to nothing. */
  function IsEmpty(value: Option<string>): (r: bool)
    ensures r <==> value.None? || AllWhitespace(value.value)
  {
    if value.None? then true
    else TrimEmpty(value.value); Trim(value.value) == ""
  }

  /** A version surrounded by spaces is not empty (and is later passed on untrimmed). */
  lemma PaddedVersionNotEmpty()
    ensures !IsEmpty(Some(" v1.0.0 "))
  {
    assert !IsWhitespace(" v1.0.0 "[1]);
  }

  /** What the awaited `getSBOM` call does: returns an SBOM, returns null, or throws. A throw
      carries the message of an `Error`, or nothing for any other thrown value. */
  datatype LookupOutcome = Found | NotFound | Failed(message: Option<string>)

  type Lookup = ((string, string)) -> LookupOutcome

  /** `configResult.config?.preProjectVersion`. */
  function RecordedVersion(configResult: ConfigReadResult): Option<string>
  {
    if configResult.config.Some? then configResult.config.value.preProjectVersion else None
  }

  /** The Dependency-Track query resolvePreviousVersion makes, if it makes one: the project name
      and the recorded version exactly as read. */
  function Query(configResult: ConfigReadResult, projectName: string): (q: Option<(string, string)>)
    ensures q.Some? <==> configResult.success && !IsEmpty(RecordedVersion(configResult))
    ensures q.Some? ==> q.value == (projectName, RecordedVersion(configResult).value)
  {
    if !configResult.success || IsEmpty(RecordedVersion(configResult)) then None
    else Some((projectName, RecordedVersion(configResult).value))
  }

  /** The message recorded for a failed lookup. */
  function ErrorMessage(message: Option<string>): string
  {
    if message.Some? then message.value else "Unknown error"
  }

  /** resolvePreviousVersion. `currentVersion` is accepted and ignored, as in the source. */
  function Resolve(configResult: ConfigReadResult, projectName: string, currentVersion: string, lookup: Lookup): (r: VersionResolution)
    ensures r.isFirstVersion <==> r.previousVersion.None?
    ensures r.source == ConfigFile <==> r.previousVersion.Some?
    ensures r.reason.None? <==> r.source == ConfigFile
    ensures r.previousVersion.Some? ==>
      Query(configResult, projectName).Some? && r.previousVersion.value == Query(configResult, projectName).value.1
      && lookup(Query(configResult, projectName).value) == Found
    ensures Query(configResult, projectName).None? ==> r.source == FirstVersion
  {
    if !configResult.success then
      VersionResolution(None, true, FirstVersion, Some("Config file not found or invalid"))
    else
      var preProjectVersion := RecordedVersion(configResult);
      if IsEmpty(preProjectVersion) then
        VersionResolution(None, true, FirstVersion, Some("pre-project-version is empty"))
      else
        match lookup((projectName, preProjectVersion.value))
        case NotFound => VersionResolution(None, true, DtNotFound, Some("SBOM not found in DT"))
        case Found => VersionResolution(preProjectVersion, false, ConfigFile, None)
        case Failed(message) => VersionResolution(None, true, DtNotFound, Some("DT API error: " + ErrorMessage(message)))
  }

  /** A failed config read means a first version, without any lookup. */
  lemma ConfigReadFailed(configResult: ConfigReadResult, projectName: string, currentVersion: string, lookup: Lookup)
    requires !configResult.success
    ensures Query(configResult, projectName) == None
    ensures Resolve(configResult, projectName, currentVersion, lookup)
         == VersionResolution(None, true, FirstVersion, Some("Config file not found or invalid"))
  {
  }

  /** A read config without a usable pre-project-version means a first version, without any lookup. */
  lemma RecordedVersionEmpty(configResult: ConfigReadResult, projectName: string, currentVersion: string, lookup: Lookup)
    requires configResult.success
    requires configResult.config.None? || IsEmpty(configResult.config.value.preProjectVersion)
    ensures Query(configResult, projectName) == None
    ensures Resolve(configResult, projectName, currentVersion, lookup)
         == VersionResolution(None, true, FirstVersion, Some("pre-project-version is empty"))
  {
  }

  /** Once a lookup is made, its outcome alone decides the resolution. */
  lemma LookupOutcomes(configResult: ConfigReadResult, projectName: string, currentVersion: string, lookup: Lookup)
    requires Query(configResult, projectName).Some?
    ensures var q := Query(configResult, projectName).value;
      var r := Resolve(configResult, projectName, currentVersion, lookup);
      && (lookup(q) == NotFound ==> r == VersionResolution(None, true, DtNotFound, Some("SBOM not found in DT")))
      && (lookup(q) == Found ==> r == VersionResolution(Some(q.1), false, ConfigFile, None))
      && (lookup(q) == Failed(None) ==> r == VersionResolution(None, true, DtNotFound, Some("DT API error: Unknown error")))
      && (forall m :: lookup(q) == Failed(Some(m)) ==>
            r == VersionResolution(None, true, DtNotFound, Some("DT API error: " + m)))
  {
    assert "DT API error: " + "Unknown error" == "DT API error: Unknown error";
  }

  /** The result depends on the lookup only through the one query made, and never on the
      current version. */
  lemma ResolveDependsOnlyOnQuery(configResult: ConfigReadResult, projectName: string,
                                  v1: string, v2: string, l1: Lookup, l2: Lookup)
    requires var q := Query(configResult, projectName); q.None? || l1(q.value) == l2(q.value)
    ensures Resolve(configResult, projectName, v1, l1) == Resolve(configResult, projectName, v2, l2)
  {
  }
}
